=== FILE: README.md ===
# Follow-up CRM core in Dafny

This project models the core logic of a small client-relationship app written in
TypeScript/React. The app keeps a list of clients. Each client has a follow-up
clock that counts down to the next call. A periodic sweep notifies due clients
and suspends clients left overdue for more than a day. The model covers:

- the follow-up clock: registering a call, rescheduling, pausing, resuming, deleting;
- the countdown label and the countdown's own copies of the clock handlers;
- the periodic follow-up sweep: due notices, suspensions, and the stored list of notified ids;
- the client store: loading saved records with defaults, add, update, delete, import, budgets;
- the price-list store and the CSV/TXT price-list reader;
- the budget editor: items and quantities, suggestions, keyboard navigation, the type-to-list mapping, finishing a budget;
- the bulk paste of contacts: the line parser, the duplicate partition, saving with or without overwriting;
- the client list (search and the active/suspended sections), the WhatsApp helpers;
- the QR-scan field extraction, the add/edit form and the application's save routing.

## Modelling choices

- Everything is pure functions over immutable datatypes.
  - A React state update is a function from the old list to the new one.
  - `updateClient`'s `Partial<Client>` is a `ClientStore.ClientPatch`, with one `Option` per field.
  - `ClientStore.Apply` spreads a patch over a record.
- Instants are integer milliseconds (`Types.Millis`).
- Whatever the code reads from outside becomes a parameter:
  - the clock (`now`);
  - `crypto.randomUUID()` (fresh ids);
  - `window.confirm` (a `confirmed` flag);
  - `parseFloat` (a function `string -> Option<real>`);
  - `addBusinessDays` (a `Calendar` function).
- Money amounts are `real`.
- Strings are `seq<char>`.
  - `trim` and `\s` use the JavaScript set of white-space characters (`Text.IsSpace`).
  - A regular-expression `.` stops at JavaScript line terminators (`Text.IsLineTerminator`).
  - `toLowerCase` folds ASCII letters only.
- JavaScript's truncating `%` is written out as `NewBudget.JsRem`.
- `String(undefined)` for a cell past the end of a CSV row is the text `"undefined"`.
- Where the source uses JavaScript truthiness, the model states it explicitly. For example, a stored `pausedTimeLeft` of `0` reads as absent, and so does an empty country code.

## Model

| member | source | states |
|---|---|---|
| FollowUpSection.RegisterCall | components/FollowUpSection.tsx:22-37 | a call is appended to the log at `now`; the next date is seven business days on; the clock runs and the client is active again; no other field changes |
| FollowUpSection.Reschedule | components/FollowUpSection.tsx:39-47 | the chosen date, or seven business days on when none is chosen; the pause is cleared; nothing else changes |
| FollowUpSection.Pause | components/FollowUpSection.tsx:49-53 | no update without a date; otherwise paused with the time left, floored at 0 |
| FollowUpSection.Resume | components/FollowUpSection.tsx:55-59 | no update exactly when the stored time left is absent or 0; otherwise the new date is `now` plus the time left, unpaused |
| FollowUpSection.Delete | components/FollowUpSection.tsx:61-65 | an update only when confirmed; it clears the date and the pause |
| FollowUpSection.PauseResumeRestores | components/FollowUpSection.tsx:49-59 | pausing and resuming at the same instant gives back the original date, unpaused |
| FollowUpSection.PauseResumeShifts | components/FollowUpSection.tsx:49-59 | after a pause and a later resume, the date has moved by exactly the time spent paused |
| FollowUpSection.PausedWhenDueNeverResumes | components/FollowUpSection.tsx:49-59 | a client paused when its date has already come stays paused: resume does nothing |
| FollowUpSection.ResumeCorrected | components/FollowUpSection.tsx:55-59 | resume refuses only when no time left is stored; a time left of 0 makes the client due at `now` |
| FollowUpSection.ResumeCorrectionIsMinimal | components/FollowUpSection.tsx:55-59 | the corrected resume differs from the written one exactly when the stored time left is 0 |
| FollowUpSection.PauseResumeCorrectedAlwaysRuns | components/FollowUpSection.tsx:49-59 | with the corrected resume, every paused client can run again, with a date no earlier than the resume |
| Countdown.Split | components/Countdown.tsx:27-31 | the days, hours, minutes and seconds add back to the total, each unit below its bound |
| Countdown.Parts | components/Countdown.tsx:33-37 | a unit appears exactly when it is non-zero; seconds appear only in the long form and only when there are no days; the units come in the order days, hours, minutes, seconds, each at most once |
| Countdown.RenderPart | components/Countdown.tsx:34-37 | a part is its amount in decimal digits, without a leading zero, followed by its unit letter; the digits read back as the amount |
| Countdown.FormatTime | components/Countdown.tsx:24-40 | the due label exactly when no time is left; otherwise a non-empty text |
| Countdown.FormatTimeParts | components/Countdown.tsx:33-39 | the label splits at spaces into the rendered parts, or is "0m"/"0s" when there are none |
| Countdown.FormatTimeFallback | components/Countdown.tsx:39 | the fallback is used exactly when less than a minute (short form) or a second (long form) is left |
| Countdown.ViewAt | components/Countdown.tsx:70-104 | a paused clock is never due and shows its frozen time; a clock without a date shows the no-follow-up label; a running one is due exactly when its date has come and shows the formatted time left to its date |
| Countdown.RunningViewIsFormatTime | components/Countdown.tsx:88-101 | the running display shows `formatTime` of the difference; it is due exactly when that label is the due label |
| Countdown.Rendered | components/Countdown.tsx:119 | the short countdown renders nothing exactly when there is no date |
| Countdown.HandlersAgree | components/Countdown.tsx:42-68 | the countdown's pause, resume, delete and reschedule make the same updates as the follow-up section's; rescheduling keeps the status |
| FollowUpSweep.Notices | App.tsx:155-165 | one notice per due client (a date that has come, not already notified), in client order: as many notices as due clients, the k-th for the k-th due client; only such clients |
| FollowUpSweep.DueClientsCount | App.tsx:155-165 | each due client is picked as often as it occurs in the list, and no other client is |
| FollowUpSweep.NotifiedNow | App.tsx:161-164 | the ids added to the list are those of the clients notified, one per due client and in the same order |
| FollowUpSweep.OverdueIds | App.tsx:167-171 | the suspended ids are exactly those of clients more than a day overdue, not suspended and not paused |
| FollowUpSweep.Prune | App.tsx:174-175 | an id stays in the list exactly when no client with it has a date still to come; the order is kept |
| FollowUpSweep.Sweep | App.tsx:147-180 | the notices, the suspended ids and the new list are exactly those given by the steps above (the old list plus the newly notified ids, pruned of those with a future date), so whether the list is written is fixed by the inputs: exactly when a notice was given or the pruning removed an id |
| FollowUpSweep.ApplySuspensionsEffect | App.tsx:170 | after the updates, exactly the listed clients are suspended; nothing else changes |
| FollowUpSweep.SweepNeverActivates | App.tsx:167-171 | the sweep never makes a client active and touches only the status |
| FollowUpSweep.NoDateNoAction | App.tsx:156 | a client without a date gets neither a notice nor a suspension |
| FollowUpSweep.DeletedIdsStay | App.tsx:174-175 | the id of a deleted client is never pruned from the list |
| FollowUpSweep.RescheduledRearms | App.tsx:161-175 | a client moved to a future date leaves the list and is notified again once that date comes |
| FollowUpSweep.NoNoticeTwice | App.tsx:161-165 | after a sweep, no client is due for a notice again at the same instant |
| FollowUpSweep.NoSuspensionTwice | App.tsx:168-171 | after the sweep's suspensions, no client is due for suspension at the same instant |
| FollowUpSweep.NoPruneTwice | App.tsx:174-175 | a second pruning at the same instant removes nothing |
| FollowUpSweep.SweepIdempotent | App.tsx:147-180 | a second sweep at the same instant, on what the first left behind, notifies no one, suspends no one and writes nothing |
| ClientStore.Apply | hooks/useClients.ts:61-67 | applying a patch keeps the id; the empty patch changes nothing |
| ClientStore.PatchOf | App.tsx:219-226 | passing a whole record as the update turns any record with its id into that record |
| ClientStore.WithDefaults | hooks/useClients.ts:11-21 | each missing or falsy field gets its default ("+54", unknown, not paused, active, no budgets); a stored paused time of 0 becomes absent; every other field is kept |
| ClientStore.Load | hooks/useClients.ts:6-26 | nothing stored or unreadable data gives the empty list; otherwise each record with its defaults, in order |
| ClientStore.SaveLoadRoundTrip | hooks/useClients.ts:6-38 | saving and reloading returns the same list exactly when no record has an empty country code or a paused time of 0 |
| ClientStore.NewClient | hooks/useClients.ts:40-59 | the new record carries the given fields, the optional ones defaulted, one empty note at `now`, and the initial follow-up state |
| ClientStore.AddClient | hooks/useClients.ts:40-59 | the list gains exactly the new record, at the end |
| ClientStore.UpdateClient | hooks/useClients.ts:61-67 | records with the id get the patch; all others are unchanged; the ids and their order are kept |
| ClientStore.DeleteClient | hooks/useClients.ts:69-71 | no record with the id is left; every other record is kept, in order |
| ClientStore.DeleteClientCount | hooks/useClients.ts:69-71 | every record with another id is kept as often as it occurs, and none with the id |
| ClientStore.ImportedClient | hooks/useClients.ts:78-93 | an imported record keeps only name, code, number and industry; everything else starts empty |
| ClientStore.ImportSelection | hooks/useClients.ts:75-77 | exactly the imported entries whose code-plus-number no existing client has, in order, each as often as it was imported |
| ClientStore.ImportClients | hooks/useClients.ts:73-96 | the old list followed by one new record per selected entry |
| ClientStore.ImportKeepsBatchDuplicates | hooks/useClients.ts:75-77 | two identical new entries in one import are both added |
| ClientStore.AddBudgetToClient | hooks/useClients.ts:98-112 | the budget, with its generated id, is appended to the clients with that id; all other records are unchanged |
| ClientStore.DeleteBudgetFromClient | hooks/useClients.ts:114-124 | the clients with that id keep the order of their other budgets, each as often as before, and lose every budget with the id; nothing else changes |
| ClientStore.WithoutBudget | hooks/useClients.ts:119 | no budget with the id is left; every other budget is kept, as often as it occurs and in its place |
| PriceLists.LoadPriceLists | hooks/usePriceLists.ts:6-14 | stored lists are returned as they are; nothing stored or unreadable data gives none |
| PriceLists.GetListByType | hooks/usePriceLists.ts:43-45 | the first list of the type, or none exactly when no list has it |
| PriceLists.AddOrUpdateList | hooks/usePriceLists.ts:27-41 | a new list replaces every list of its type in place, or is appended when there is none |
| PriceLists.DeleteList | hooks/usePriceLists.ts:47-49 | no list of the type is left; the others are kept, in order |
| PriceLists.DeleteListCount | hooks/usePriceLists.ts:47-49 | every list of another type is kept as often as it occurs, and none of the type |
| PriceLists.AddThenGet | hooks/usePriceLists.ts:27-45 | a list added or updated is then the one found for its type |
| PriceLists.AddKeepsOthers | hooks/usePriceLists.ts:27-45 | adding a list does not change what is found for any other type |
| PriceLists.AddKeepsOnePerType | hooks/usePriceLists.ts:27-41 | at most one list per type stays at most one list per type |
| PriceLists.DeleteThenGet | hooks/usePriceLists.ts:43-49 | after a deletion, nothing is found for the deleted type, and the other types are found as before |
| NewBudget.AddProduct | components/NewBudget.tsx:140-147 | a product already in the budget keeps the row count; a new one is appended with quantity 1 |
| NewBudget.AddProductEffect | components/NewBudget.tsx:140-147 | adding raises the total quantity of that product by one and of no other; products stay unique |
| NewBudget.UpdateQuantity | components/NewBudget.tsx:152-155 | the product's rows get the quantity, floored at 0; the other rows are unchanged |
| NewBudget.UpdateQuantityEffect | components/NewBudget.tsx:152-155 | the product's total becomes the floored quantity; other products' totals are unchanged |
| NewBudget.RemoveItem | components/NewBudget.tsx:157-159 | no row of the product is left; the others are kept, in order |
| NewBudget.RemoveItemCount | components/NewBudget.tsx:157-159 | every row of another product is kept as often as it occurs, and none of the product |
| NewBudget.RemoveItemQuantity | components/NewBudget.tsx:157-159 | the removed product's total is 0; every other total is unchanged |
| NewBudget.ClientSuggestions | components/NewBudget.tsx:83-88 | no suggestions for an empty term; otherwise the first five matching clients in list order (all of them when fewer match) |
| NewBudget.FilteredProducts | components/NewBudget.tsx:132-138 | no products for an empty term; otherwise the first ten products matching by name or code, in order (all of them when fewer match) |
| NewBudget.NameMatches | components/NewBudget.tsx:83-88 | every client whose name contains the term, case aside, as often as listed and in list order; no other client |
| NewBudget.ProductMatchesOf | components/NewBudget.tsx:132-138 | every product whose name or code contains the term, as often as listed and in list order; no other product |
| NewBudget.IsNewClientEntry | components/NewBudget.tsx:90-93 | holds exactly when the trimmed term is not blank and no client has it as its name, case aside |
| NewBudget.SaveNewClient | components/NewBudget.tsx:101-124 | nothing is saved exactly when the name or the phone is missing; otherwise one client is appended, with the trimmed phone |
| NewBudget.SavedEntryIsKnown | components/NewBudget.tsx:90-124 | once a new entry is saved, the same term no longer offers a new entry |
| NewBudget.ArrowDownIndex | components/NewBudget.tsx:202 | the next option, wrapping to the first after the last |
| NewBudget.ArrowUpIndex | components/NewBudget.tsx:205 | the previous option, wrapping to the last before the first; from no highlight it lands on the last but one |
| NewBudget.ArrowsAreInverse | components/NewBudget.tsx:200-205 | down then up, and up then down, return to the same option |
| NewBudget.ClientKeyDown | components/NewBudget.tsx:196-219 | nothing happens while no options are shown; ArrowDown and ArrowUp move the highlight cyclically over the suggestions and the "add" option; Enter picks the highlighted client or starts the typed new client, and does nothing elsewhere; Escape hides the list; other keys do nothing |
| NewBudget.OptionKeyDown | components/NewBudget.tsx:196-219 | the same key handling over any option list: cyclic moves, Enter on a suggestion or the trailing "add" option, Escape hides, nothing else acts |
| NewBudget.TypeMapBijective | components/NewBudget.tsx:55-60 | each price-list type is suggested by exactly one client type |
| NewBudget.ListTypeAfterChange | components/NewBudget.tsx:53-74 | deselecting clears the list type; a typed client selects its mapped list exactly when such a list exists; an untyped client keeps the selection |
| NewBudget.ProductList | components/NewBudget.tsx:126-130 | no products without a selected list or with a selected list that does not exist; otherwise the products of the first list of the selected type |
| NewBudget.TypedClientGetsItsList | components/NewBudget.tsx:53-74 | a typed client is shown the products of its mapped list, or none if that list is missing |
| NewBudget.FinishBudget | components/NewBudget.tsx:167-194 | refused without a client or items, or when the client is gone; otherwise the budget carries the items, the discount, `now` and the client's name |
| NewBudget.FinishedBudgetIsStored | components/NewBudget.tsx:167-194 | a finished budget ends up as the last budget of its client, with its items and generated id |
| MultiClientForm.PartitionParsed | components/MultiClientForm.tsx:23-41 | duplicates have a number some client has; the others have a new, non-empty number; no number occurs twice in either part; the order is kept |
| MultiClientForm.PartitionComplete | components/MultiClientForm.tsx:30-38 | every entry with a number is represented: in the duplicates if a client has it, else among the others |
| MultiClientForm.OverwritePatch | components/MultiClientForm.tsx:62 | the overwrite never touches rating, calls, files, notes, WhatsApp status or the follow-up clock |
| MultiClientForm.OverwriteWipesBudgets | components/MultiClientForm.tsx:62 | an overwritten client takes the pasted contact, becomes active, and loses its budgets and client type |
| MultiClientForm.OverwriteAbsorbs | components/MultiClientForm.tsx:58-64 | a second overwrite of the same client replaces the first |
| MultiClientForm.AddAll | components/MultiClientForm.tsx:54-56 | one new client per new contact, appended in order |
| MultiClientForm.OverwriteAll | components/MultiClientForm.tsx:58-64 | only clients owning a duplicate's number change, each to the result of one of those overwrites |
| MultiClientForm.Save | components/MultiClientForm.tsx:53-71 | the counts are the new contacts and, when overwriting, the duplicates; untouched clients stay; new clients are appended |
| ClientList.Search | components/ClientList.tsx:32-35 | exactly the clients whose name contains the term (case aside) or whose phone contains it, in order |
| ClientList.SearchCount | components/ClientList.tsx:32-35 | every matching client is kept as often as it occurs in the list, and no other client |
| ClientList.EmptySearchKeepsAll | components/ClientList.tsx:32-35 | the empty term keeps the whole list |
| ClientList.ListSections | components/ClientList.tsx:36-39 | the active and suspended sections hold only matching clients of their status, in order |
| ClientList.SectionsCount | components/ClientList.tsx:32-39 | each section holds every matching client of its status as often as it occurs in the list, and no other client |
| ClientList.SectionsPartition | components/ClientList.tsx:31-40 | every matching client is in exactly one section |
| ClientList.FullPhone | components/ClientList.tsx:56 | every digit of the code and then the number, as often as it occurs and in order; nothing else |
| ClientList.LinkUsesFullPhone | components/ClientList.tsx:56 | the list's full number is the one the WhatsApp link carries |
| TextParser.GenerateDefaultName | utils/textParser.ts:9 | "Client " followed by the last four characters of the phone |
| TextParser.SplitFields | utils/textParser.ts:15 | comma fields if there is a comma, else tab fields if there is a tab, else fields split at runs of two or more spaces |
| TextParser.CleanFields | utils/textParser.ts:16 | the trimmed forms of the non-blank fields, each as often as it occurs and in field order; nothing else |
| TextParser.AssignFields | utils/textParser.ts:25-49 | one field: a phone (with a made-up name) or a name; two fields: whichever looks like a phone is the phone; three or more: name, phone, industry |
| TextParser.ParseLine | utils/textParser.ts:11-59 | none for a blank line or one without fields; otherwise the contact the field-count rule assigns, with the fixed defaults; a contact has a name or a phone |
| TextParser.ParsePastedText | utils/textParser.ts:62-65 | nothing for blank text; otherwise exactly the contacts of the lines that parse, in line order, each with the defaults |
| TextParser.ParsedLinesAppend | utils/textParser.ts:62-65 | a further line adds its own contact, if it parses, after those of the earlier lines |
| TextParser.ParseTextFile | utils/textParser.ts:67-70 | a file is read exactly as pasted text: nothing when blank, else the contacts of the lines that parse, in order |
| TextParser.NameCommaPhone | utils/textParser.ts:11-59 | "name,phone" parses to that contact, without an industry |
| TextParser.PhoneCommaName | utils/textParser.ts:11-59 | "phone,name" parses to the same contact |
| PriceListParser.FindColumnIndex | utils/priceListParser.ts:8-10 | the first header that names the column, or -1 exactly when none does |
| PriceListParser.ChooseSeparator | utils/priceListParser.ts:47 | the separator giving the most header fields; comma wins ties, then semicolon |
| PriceListParser.CleanPrice | utils/priceListParser.ts:61 | only digits, dots and commas reach `parseFloat`: the result is the cell's digits, dots and commas in cell order, with the first comma made a dot; a comma left over comes after that dot |
| PriceListParser.CleanPricePinned | utils/priceListParser.ts:61 | any sequence that keeps exactly the cell's digits, dots and commas, in cell order, is the one cleaned, so the result is unique |
| PriceListParser.CleanPriceContents | utils/priceListParser.ts:61 | every digit of the cell survives as often as it occurs; one comma, if any, becomes a dot; no other character survives |
| PriceListParser.ReplaceFirst | utils/priceListParser.ts:61 | only the first occurrence is replaced: one `from` traded for one `to`, the rest in place |
| PriceListParser.RowKept | utils/priceListParser.ts:59-68 | a line is kept exactly when its price parses and its name and code are non-empty; the product carries those cells with id = code |
| PriceListParser.ColumnsOf | utils/priceListParser.ts:48-56 | the columns are missing exactly when no header names the price, the name or the code; each column found is the first header naming it |
| PriceListParser.ParseLines | utils/priceListParser.ts:44-69 | fewer than two lines give no products; an error exactly when a column is missing; every product is valid |
| PriceListParser.DataRowsAppend | utils/priceListParser.ts:58-69 | products keep the order of their lines: a further line adds its product, if any, at the end |
| PriceListParser.ParseLinesAppendRow | utils/priceListParser.ts:44-69 | under a header naming all three columns, a further line adds its product, if any, after the earlier products |
| PriceListParser.ParseCsvTxt | utils/priceListParser.ts:43-70 | blank text or a single line gives no products |
| PriceListParser.ProductsComeFromRows | utils/priceListParser.ts:58-69 | each data line that yields a product contributes it, and every product comes from such a line |
| PriceListParser.MissingNameReadsUndefined | utils/priceListParser.ts:62 | a row cut short before the name column still yields a product, named "undefined" |
| PriceListParser.MissingPriceDropsRow | utils/priceListParser.ts:61 | a row cut short before the price column is dropped |
| WhatsApp.SanitizePhoneNumber | utils/whatsappUtils.ts:6-8 | exactly the digits of the input, each as often as it occurs, in order; the input is unchanged exactly when it is all digits |
| WhatsApp.SanitizeIdempotent | utils/whatsappUtils.ts:6-8 | sanitizing twice is sanitizing once |
| WhatsApp.GetWhatsAppLink | utils/whatsappUtils.ts:16-20 | the link prefix followed by digits only |
| WhatsApp.LinkCarriesFullNumber | utils/whatsappUtils.ts:16-20 | the link carries the digits of code and number together |
| WhatsApp.AvailableHasTenDigits | utils/whatsappUtils.ts:32-46 | a number that passes the check gives a link with at least ten digits |
| WhatsApp.DigitsOnlyAvailable | utils/whatsappUtils.ts:32-46 | ten or more bare digits always pass |
| WhatsApp.CheckWhatsAppAvailability | utils/whatsappUtils.ts:32-46 | a number passes exactly when it holds only digits, white space, dashes, parentheses and plus signs, any plus sign preceded by separators only, and at least ten digits |
| WhatsApp.StrippedForm | utils/whatsappUtils.ts:32-46 | the separator-free number is an optional plus and digits exactly when the number is well formed in that sense and has at least ten digits |
| CameraScanner.MatchAfter | components/CameraScanner.tsx:82 | none exactly when the key does not occur; else the rest of the line after its first occurrence |
| CameraScanner.TelCapture | components/CameraScanner.tsx:85 | after the first TEL with a colon later on its line, the rest of that line past that colon; none exactly when there is no such TEL |
| CameraScanner.ScanFields | components/CameraScanner.tsx:79-97 | a vCard sets each field exactly when its key occurs: name and industry are the trimmed rest of the line after the first `FN:`/`TITLE:`; the phone keeps exactly the digits and `+` of the trimmed TEL capture, in order and as often; other text is a phone exactly when it holds five digits in a row, else a name |
| CameraScanner.Deliver | components/CameraScanner.tsx:99-102 | the fields are delivered exactly when at least one is set |
| CameraScanner.PlainTextDelivered | components/CameraScanner.tsx:90-102 | text that is not a vCard is always delivered |
| CameraScanner.VCardDelivered | components/CameraScanner.tsx:81-102 | a vCard is delivered exactly when it has an FN, a TITLE or a TEL followed by a colon |
| CameraScanner.NameIsOneTrimmedLine | components/CameraScanner.tsx:82-83 | the name is one line of the text, trimmed |
| ClientForm.Prefill | components/ClientForm.tsx:22-33 | a blank form for a new entry; a scan's fields with the default code; a client's fields, whose own code is kept only when non-empty |
| ClientForm.Submit | components/ClientForm.tsx:44-57 | an edit returns the client with the four fields written over it, and the WhatsApp status reset exactly when the number changed; anything else returns the fields alone |
| ClientForm.UnchangedEditKeepsClient | components/ClientForm.tsx:22-57 | saving an untouched edit returns the client unchanged, when it has a country code |
| ClientForm.MissingCountryCodeResetsStatus | components/ClientForm.tsx:22-57 | a client without a country code comes back with "+54 9" and an unknown WhatsApp status even when nothing is typed |
| App.HandleSaveClient | App.tsx:219-226 | a submitted record replaces the records with its id; bare fields become a new client at the end |
| App.UntouchedEditChangesNothing | App.tsx:219-226 | opening a client and saving it untouched leaves the list as it was, when ids are unique and it has a country code |
| App.SelectionEffect | App.tsx:117-126 | a selection whose client is gone is cleared; a valid id from the address is selected; the result never names a missing client |
| App.SelectionSettles | App.tsx:117-126 | the effect reaches a selection that further runs keep |

## Left out

- `addBusinessDays` is a parameter (`FollowUpSection.Calendar`). utils/dateUtils.ts is not part of this model.
- Timers are left out: `setInterval`, the one-second countdown tick and the sweep's schedule. Each tick or sweep is one call at a given `now`.
- Storage formats are left out: `localStorage`, JSON encoding and ISO date strings. Stored data is a datatype, with a case for missing data and a case for unreadable data.
- The Notification API and its permission prompt are left out: a notice is a value in the sweep result.
- Translated labels from `t()` are left out: the due, paused and no-follow-up labels are datatype constructors.
- The camera and the jsQR decoder are left out: the decoded text is the input.
- The chatbot and its remote-model calls are left out: they hold no state the rest of the app reads.
- `parseExcel` is left out: it depends on the XLSX library's sheet reader. Its row rule is the CSV rule, modelled in `PriceListParser.RowProduct`.
- `FileReader` and file uploads are left out: the text is the input.
- Subtotal, total and discount arithmetic is left out: it uses floating point. `NewBudget.FinishBudget` takes the amounts as inputs.
- ClientList.SearchMatches, NewBudget.NameMatches, NewBudget.IsNewClientEntry, NewBudget.ClientSuggestions, NewBudget.ContainsIgnoringCase, NewBudget.ProductMatches, NewBudget.ProductMatchesOf, NewBudget.FilteredProducts: case is folded for ASCII letters only (`Text.ToLower`), so "JOSÉ" and "josé", or "CAÑO" and "caño", differ in the model while the app's `toLowerCase` matches them. Unicode case mapping is not modelled.
- PriceListParser.IsAlias: lower-casing is ASCII only, so "CÓDIGO" and "DESCRIPCIÓN" do not fold to the accented header names. Lower-case headers still match.
- The postponement modal's date picker and the UI markup are left out.
- The artificial delay in `checkWhatsAppAvailability` is left out.
- `handlePreview`'s alert is left out, and so is the form's non-preview step, which has empty duplicate lists.
- `crypto.randomUUID()` is not modelled: fresh ids are parameters.
- Reading `clientId` from the address is left out: the selection effect takes the parsed value.
- ClientStore.AddClient: its contract names only the id, name, phone and initial state. The full record is stated by `ClientStore.NewClient`, which it appends.
- PriceListParser.ParseCsvTxt: it states only the blank and single-line cases. The rest is stated on `PriceListParser.ParseLines`, which receives the split lines.

## Findings

| source | as written | input that shows it | evidently intended | confidence | as-written member | corrected member |
|---|---|---|---|---|---|---|
| components/FollowUpSection.tsx:56 (also components/Countdown.tsx:49) | `if (!client.pausedTimeLeft) return;` treats a stored time left of 0 as "not paused" | a client paused at or after its follow-up date: pause stores `pausedTimeLeft: 0`, and resume then returns without unpausing, so the clock stays paused | resume whenever a time left is stored; a client paused while due becomes due again at the instant of resuming | not executed | FollowUpSection.PausedWhenDueNeverResumes | FollowUpSection.ResumeCorrected |

=== FILE: app.dfy ===
/** The application shell's record handling (App.tsx): routing a submitted
    form to the client store, and dropping a selection whose client is gone. */
module App {
  import opened Wrappers
  import opened Types
  import ClientStore
  import ClientForm

  /** The bare form fields as the data `addClient` receives: nothing optional is supplied. */
  function NewClientFromForm(f: ClientForm.FormData): (d: ClientStore.NewClientData)
    ensures d.companyName == f.companyName && d.countryCode == f.countryCode
    ensures d.phoneNumber == f.phoneNumber && d.industry == f.industry
    ensures d.rating.None? && d.followUps.None? && d.quotes.None? && d.invoices.None? && d.notes.None?
  {
    ClientStore.NewClientData(f.companyName, f.countryCode, f.phoneNumber, f.industry,
                              None, None, None, None, None)
  }

  /** `handleSaveClient`: a record with an id replaces the stored record(s)
      with that id; anything else is added as a new client. */
  function HandleSaveClient(clients: seq<Client>, s: ClientForm.Submission, id: Id, noteId: Id, now: Millis)
    : (r: seq<Client>)
    ensures s.SaveExisting? ==> |r| == |clients|
    ensures s.SaveExisting? ==> forall i :: 0 <= i < |clients| ==>
      r[i] == if clients[i].id == s.client.id then s.client else clients[i]
    ensures s.SaveNew? ==> |r| == |clients| + 1 && r[..|clients|] == clients
    ensures s.SaveNew? ==> var c := r[|clients|];
      c.id == id && ClientStore.InitialFollowUpState(c) && c.companyName == s.data.companyName
      && c.countryCode == s.data.countryCode && c.phoneNumber == s.data.phoneNumber
      && c.industry == s.data.industry && c.rating == 0 && c.notes == [Note(noteId, "", now)]
  {
    match s
    case SaveExisting(c) => ClientStore.UpdateClient(clients, c.id, ClientStore.PatchOf(c))
    case SaveNew(f) => ClientStore.AddClient(clients, NewClientFromForm(f), id, noteId, now)
  }

  /** Opening a stored client in the form and saving it untouched leaves the
      list as it was, when ids are unique and the client has a country code. */
  lemma {:induction false} UntouchedEditChangesNothing(clients: seq<Client>, k: nat, id: Id, noteId: Id, now: Millis)
    requires k < |clients| && UniqueIds(clients)
    requires clients[k].countryCode != ""
    ensures var c := clients[k];
      HandleSaveClient(clients, ClientForm.Submit(ClientForm.Editing(c), ClientForm.Prefill(ClientForm.Editing(c))),
                       id, noteId, now) == clients
  {
    var c := clients[k];
    ClientForm.UnchangedEditKeepsClient(c);
    var r := HandleSaveClient(clients, ClientForm.SaveExisting(c), id, noteId, now);
    forall i | 0 <= i < |clients|
      ensures r[i] == clients[i]
    {
      if i != k {
        assert clients[i].id != c.id;
      }
    }
  }

  /** JavaScript truthiness of an optional id: present and non-empty. */
  predicate Truthy(id: Option<Id>) {
    id.Some? && id.value != ""
  }

  /** The selection names a client that is no longer in the list. */
  predicate Stale(clients: seq<Client>, selected: Option<Id>) {
    Truthy(selected) && !HasId(clients, selected.value)
  }

  /** One run of the selection effect: a `clientId` from the address that
      names a stored client is selected, then a selection whose client is gone
      is cleared; the later update wins. */
  function SelectionEffect(clients: seq<Client>, urlId: Option<Id>, selected: Option<Id>): (r: Option<Id>)
    ensures Stale(clients, selected) ==> r == None
    ensures !Stale(clients, selected) && Truthy(urlId) && HasId(clients, urlId.value) ==> r == urlId
    ensures r != selected ==> r == None || r == urlId
    ensures !Stale(clients, r)
  {
    if Stale(clients, selected) then None
    else if Truthy(urlId) && HasId(clients, urlId.value) then urlId
    else selected
  }

  /** The effect runs again whenever the selection changes; the second run
      reaches a selection that further runs keep. */
  lemma SelectionSettles(clients: seq<Client>, urlId: Option<Id>, selected: Option<Id>)
    ensures var once := SelectionEffect(clients, urlId, selected);
      var twice := SelectionEffect(clients, urlId, once);
      SelectionEffect(clients, urlId, twice) == twice
  {
  }
}

=== FILE: camera_scanner.dfy ===
/** The text a scanned QR code carries, turned into client fields
    (components/CameraScanner.tsx): a vCard gives its FN, TEL and TITLE lines;
    any other text is a phone number when it holds five digits in a row and a
    company name otherwise. The camera and the QR decoder are not modelled:
    the decoded text is the input. */
module CameraScanner {
  import opened Wrappers
  import opened Text
  import Seqs

  const VCardHeader: string := "BEGIN:VCARD"
  const NameKey: string := "FN:"
  const TelKey: string := "TEL"
  const TitleKey: string := "TITLE:"

  /** The fields a scan fills in: an absent field is one the scan did not set. */
  datatype ScanData = ScanData(companyName: Option<string>, phoneNumber: Option<string>, industry: Option<string>)

  /** The first position in `[from, n)` satisfying `p`, or -1: how a regular
      expression search picks the leftmost place where it can match. */
  function FirstFrom(n: nat, p: nat -> bool, from: nat): (r: int)
    requires from <= n
    ensures r == -1 <==> forall k: nat :: from <= k < n ==> !p(k)
    ensures r != -1 ==> from <= r < n && p(r) && forall k: nat :: from <= k < r ==> !p(k)
    decreases n - from
  {
    if from == n then -1
    else if p(from) then from
    else FirstFrom(n, p, from + 1)
  }

  /** What `(.*)` captures at the start of `s`: everything up to the first line terminator. */
  function RestOfLine(s: string): (r: string)
    ensures |r| <= |s| && r == s[..|r|]
    ensures forall i :: 0 <= i < |r| ==> !IsLineTerminator(r[i])
    ensures |r| < |s| ==> IsLineTerminator(s[|r|])
  {
    if |s| == 0 || IsLineTerminator(s[0]) then []
    else [s[0]] + RestOfLine(s[1..])
  }

  /** `key` occurs at `k` and nowhere before it. */
  predicate FirstOccurrence(data: string, key: string, k: nat) {
    OccursAt(data, key, k) && forall j: nat :: j < k ==> !OccursAt(data, key, j)
  }

  /** `data.match(/KEY(.*)/)[1]`: the rest of the line after the first occurrence of `key`. */
  function MatchAfter(data: string, key: string): (r: Option<string>)
    ensures r.None? <==> forall k: nat :: !OccursAt(data, key, k)
    ensures r.Some? ==> exists k: nat :: FirstOccurrence(data, key, k) && r.value == RestOfLine(data[k + |key|..])
  {
    var p := (i: nat) => OccursAt(data, key, i);
    var k := FirstFrom(|data| + 1, p, 0);
    assert forall i: nat :: p(i) == OccursAt(data, key, i);
    assert forall i: nat :: i > |data| ==> !OccursAt(data, key, i);
    if k == -1 then None
    else
      assert FirstOccurrence(data, key, k);
      Some(RestOfLine(data[k + |key|..]))
  }

  /** `TEL` starts at `k` and a colon follows it on the same line, so that
      `/TEL.*?:/` can match there. */
  predicate TelAt(data: string, k: nat) {
    OccursAt(data, TelKey, k) && ':' in RestOfLine(data[k + |TelKey|..])
  }

  /** The text after the first colon of a line. */
  function AfterColon(line: string): (r: string)
    requires ':' in line
    ensures exists c :: 0 <= c < |line| && line[c] == ':' && ':' !in line[..c] && r == line[c + 1..]
  {
    var c := IndexOf(line, ':');
    line[c + 1..]
  }

  /** `data.match(/TEL.*?:(.*)/)[1]`: after the first `TEL` that has a colon
      later on its line, the rest of that line past its first colon. */
  function TelCapture(data: string): (r: Option<string>)
    ensures r.None? <==> forall k: nat :: !TelAt(data, k)
    ensures r.Some? ==> exists k: nat :: TelAt(data, k) && (forall j: nat :: j < k ==> !TelAt(data, j))
                          && r.value == AfterColon(RestOfLine(data[k + |TelKey|..]))
    ensures r.Some? ==> forall i :: 0 <= i < |r.value| ==> !IsLineTerminator(r.value[i])
  {
    var p := (i: nat) => TelAt(data, i);
    var k := FirstFrom(|data| + 1, p, 0);
    assert forall i: nat :: p(i) == TelAt(data, i);
    assert forall i: nat :: i > |data| ==> !TelAt(data, i);
    if k == -1 then None
    else
      var line := RestOfLine(data[k + |TelKey|..]);
      var r := AfterColon(line);
      assert forall i :: 0 <= i < |r| ==> r[i] in line;
      Some(r)
  }

  /** A character `[^\d+]` does not remove. */
  predicate PhoneChar(c: char) {
    IsDigit(c) || c == '+'
  }

  /** The scanned text is a vCard. */
  predicate IsVCard(data: string) {
    StartsWith(data, VCardHeader)
  }

  function TrimOpt(o: Option<string>): (r: Option<string>)
    ensures r.Some? <==> o.Some?
    ensures r.Some? ==> r.value == Trim(o.value)
  {
    if o.Some? then Some(Trim(o.value)) else None
  }

  /** The fields the scanner's tick handler fills in for a decoded text. */
  function ScanFields(data: string): (r: ScanData)
    ensures IsVCard(data) ==> (r.companyName.Some? <==> exists k: nat :: OccursAt(data, NameKey, k))
    ensures IsVCard(data) ==> (r.industry.Some? <==> exists k: nat :: OccursAt(data, TitleKey, k))
    ensures IsVCard(data) ==> (r.phoneNumber.Some? <==> exists k: nat :: TelAt(data, k))
    ensures IsVCard(data) && r.phoneNumber.Some? ==>
      forall i :: 0 <= i < |r.phoneNumber.value| ==> PhoneChar(r.phoneNumber.value[i])
    ensures IsVCard(data) && r.companyName.Some? ==>
      exists k: nat :: FirstOccurrence(data, NameKey, k) && r.companyName.value == Trim(RestOfLine(data[k + |NameKey|..]))
    ensures IsVCard(data) && r.industry.Some? ==>
      exists k: nat :: FirstOccurrence(data, TitleKey, k) && r.industry.value == Trim(RestOfLine(data[k + |TitleKey|..]))
    ensures IsVCard(data) && r.phoneNumber.Some? ==> var tel := Trim(TelCapture(data).value);
      && Seqs.IsSubsequence(r.phoneNumber.value, tel)
      && forall c :: multiset(r.phoneNumber.value)[c] == if PhoneChar(c) then multiset(tel)[c] else 0
    ensures !IsVCard(data) ==> r.industry.None?
    ensures !IsVCard(data) ==> (r.phoneNumber == Some(data) <==> HasDigitRun(data, 5))
    ensures !IsVCard(data) ==> (r.companyName == Some(data) <==> !HasDigitRun(data, 5))
    ensures !IsVCard(data) ==> r.phoneNumber.Some? != r.companyName.Some?
  {
    if IsVCard(data) then
      var tel := TelCapture(data);
      var phone :=
        if tel.Some? then
          Seqs.FilterMultiplicity(Trim(tel.value), PhoneChar);
          Some(Seqs.Filter(Trim(tel.value), PhoneChar))
        else None;
      ScanData(
        TrimOpt(MatchAfter(data, NameKey)),
        phone,
        TrimOpt(MatchAfter(data, TitleKey)))
    else if HasDigitRun(data, 5) then
      ScanData(None, Some(data), None)
    else
      ScanData(Some(data), None, None)
  }

  /** At least one field was set: `Object.keys(vCardData).length > 0`. */
  predicate AnyField(d: ScanData) {
    d.companyName.Some? || d.phoneNumber.Some? || d.industry.Some?
  }

  /** What reaches `onScanComplete`: the fields, unless the scan set none. */
  function Deliver(data: string): (r: Option<ScanData>)
    ensures r.Some? ==> r.value == ScanFields(data) && AnyField(r.value)
    ensures r.None? <==> !AnyField(ScanFields(data))
  {
    var fields := ScanFields(data);
    if AnyField(fields) then Some(fields) else None
  }

  /** Text that is not a vCard always sets exactly one field, so it is always delivered. */
  lemma PlainTextDelivered(data: string)
    requires !IsVCard(data)
    ensures Deliver(data).Some?
  {
  }

  /** A vCard is delivered exactly when it has an FN line, a TITLE line or a
      TEL with a colon after it, even when the captured text is empty. */
  lemma VCardDelivered(data: string)
    requires IsVCard(data)
    ensures Deliver(data).Some? <==>
      (exists k: nat :: OccursAt(data, NameKey, k)) || (exists k: nat :: OccursAt(data, TitleKey, k))
      || (exists k: nat :: TelAt(data, k))
  {
  }

  /** The name capture stops at the end of its line and carries no outer whitespace. */
  lemma NameIsOneTrimmedLine(data: string)
    requires IsVCard(data) && ScanFields(data).companyName.Some?
    ensures var name := ScanFields(data).companyName.value;
      (name == [] || (!IsSpace(name[0]) && !IsSpace(name[|name| - 1])))
      && exists k: nat :: FirstOccurrence(data, NameKey, k) && Trim(RestOfLine(data[k + |NameKey|..])) == name
  {
    var m := MatchAfter(data, NameKey);
    assert ScanFields(data).companyName.value == Trim(m.value);
    var k: nat :| FirstOccurrence(data, NameKey, k) && m.value == RestOfLine(data[k + |NameKey|..]);
  }
}

=== FILE: client_form.dfy ===
/** The add/edit client form (components/ClientForm.tsx): its four fields,
    how they are filled when the form opens, and what submitting hands to the
    application. Keystrokes are not modelled: the submitted field values are
    the input. */
module ClientForm {
  import opened Wrappers
  import opened Types
  import CameraScanner

  /** The form's fields. */
  datatype FormData = FormData(companyName: string, countryCode: string, phoneNumber: string, industry: string)

  /** The country code a blank form offers. */
  const FormCountryCode: string := "+54 9"

  /** The form for a new client. */
  const EmptyForm: FormData := FormData("", FormCountryCode, "", "")

  /** What the form was opened on: nothing, the fields a scan produced (no
      id), or an existing client. */
  datatype FormTarget = NewEntry | Scanned(scan: CameraScanner.ScanData) | Editing(client: Client)

  /** `s || fallback` on a string: the fallback replaces only the empty string. */
  function OrElse(s: string, fallback: string): (r: string)
    ensures s != "" ==> r == s
    ensures s == "" ==> r == fallback
  {
    if s == "" then fallback else s
  }

  /** The fields the form shows when it opens: the target's values, with the
      blank-form value wherever the target has none. */
  function Prefill(target: FormTarget): (f: FormData)
    ensures f.countryCode != ""
    ensures target.NewEntry? ==> f == EmptyForm
    ensures target.Editing? ==> var c := target.client;
      f.companyName == c.companyName && f.phoneNumber == c.phoneNumber && f.industry == c.industry
      && (f.countryCode == c.countryCode <==> c.countryCode != "")
    ensures target.Scanned? ==> var d := target.scan;
      f.companyName == d.companyName.GetOr("") && f.phoneNumber == d.phoneNumber.GetOr("")
      && f.industry == d.industry.GetOr("") && f.countryCode == FormCountryCode
  {
    match target
    case NewEntry => EmptyForm
    case Scanned(d) =>
      FormData(OrElse(d.companyName.GetOr(""), ""), FormCountryCode,
               OrElse(d.phoneNumber.GetOr(""), ""), OrElse(d.industry.GetOr(""), ""))
    case Editing(c) =>
      FormData(OrElse(c.companyName, ""), OrElse(c.countryCode, FormCountryCode),
               OrElse(c.phoneNumber, ""), OrElse(c.industry, ""))
  }

  /** What `onSave` receives: a whole client when editing, the bare fields otherwise. */
  datatype Submission = SaveExisting(client: Client) | SaveNew(data: FormData)

  /** The submitted number differs from the client's, in its country code or its phone. */
  predicate NumberChanged(c: Client, form: FormData) {
    form.phoneNumber != c.phoneNumber || form.countryCode != c.countryCode
  }

  /** The fields the form does not show are the same in both records. */
  predicate SameHiddenFields(a: Client, b: Client) {
    && a.id == b.id && a.rating == b.rating && a.followUps == b.followUps
    && a.quotes == b.quotes && a.invoices == b.invoices && a.notes == b.notes
    && a.nextFollowUpDate == b.nextFollowUpDate && a.isPaused == b.isPaused
    && a.pausedTimeLeft == b.pausedTimeLeft && a.status == b.status
    && a.budgets == b.budgets && a.clientType == b.clientType
  }

  /** `handleSubmit`: an edit yields the client with the four fields written
      over it and the WhatsApp status reset exactly when the number changed;
      anything else yields the fields alone. */
  function Submit(target: FormTarget, form: FormData): (r: Submission)
    ensures r.SaveExisting? <==> target.Editing?
    ensures !target.Editing? ==> r == SaveNew(form)
    ensures target.Editing? ==> var c, e := target.client, r.client;
      SameHiddenFields(c, e)
      && e.companyName == form.companyName && e.countryCode == form.countryCode
      && e.phoneNumber == form.phoneNumber && e.industry == form.industry
    ensures target.Editing? ==> var c, e := target.client, r.client;
      (NumberChanged(c, form) ==> e.whatsAppStatus == Unknown)
      && (!NumberChanged(c, form) ==> e.whatsAppStatus == c.whatsAppStatus)
  {
    match target
    case Editing(c) =>
      var status := if NumberChanged(c, form) then Unknown else c.whatsAppStatus;
      SaveExisting(c.(companyName := form.companyName, countryCode := form.countryCode,
                      phoneNumber := form.phoneNumber, industry := form.industry,
                      whatsAppStatus := status))
    case _ => SaveNew(form)
  }

  /** Opening a client for editing and submitting without a change gives the
      client back unchanged, provided it has a country code. */
  lemma UnchangedEditKeepsClient(c: Client)
    requires c.countryCode != ""
    ensures Submit(Editing(c), Prefill(Editing(c))) == SaveExisting(c)
  {
  }

  /** A client saved without a country code gets the blank form's one when it
      is edited, and so loses its WhatsApp status even if nothing is typed. */
  lemma MissingCountryCodeResetsStatus(c: Client)
    requires c.countryCode == ""
    ensures var e := Submit(Editing(c), Prefill(Editing(c))).client;
      e.countryCode == FormCountryCode && e.whatsAppStatus == Unknown
  {
  }
}

=== FILE: client_list.dfy ===
/** The client list (components/ClientList.tsx): the search box filter, the
    split into active and suspended clients, and the number dialled from the
    context menu. */
module ClientList {
  import opened Types
  import opened Text
  import Seqs
  import WhatsApp

  /** The search keeps a client whose name contains the term, ignoring case,
      or whose phone number contains the term as typed. */
  predicate SearchMatches(c: Client, term: string) {
    Contains(ToLower(c.companyName), ToLower(term)) || Contains(c.phoneNumber, term)
  }

  /** The clients the search keeps, in list order. */
  function Search(clients: seq<Client>, term: string): (r: seq<Client>)
    ensures forall i :: 0 <= i < |r| ==> r[i] in clients && SearchMatches(r[i], term)
    ensures forall i :: 0 <= i < |clients| && SearchMatches(clients[i], term) ==> clients[i] in r
    ensures Seqs.IsSubsequence(r, clients)
  {
    Seqs.Filter(clients, (c: Client) => SearchMatches(c, term))
  }

  /** Every matching client is kept as often as it occurs; no other client is. */
  lemma SearchCount(clients: seq<Client>, term: string)
    ensures forall c :: multiset(Search(clients, term))[c] == if SearchMatches(c, term) then multiset(clients)[c] else 0
  {
    Seqs.FilterMultiplicity(clients, (c: Client) => SearchMatches(c, term));
  }

  /** An empty search keeps every client. */
  lemma {:induction false} EmptySearchKeepsAll(clients: seq<Client>)
    ensures Search(clients, "") == clients
  {
    forall i | 0 <= i < |clients| ensures SearchMatches(clients[i], "") {
      ContainsEmpty(ToLower(clients[i].companyName));
    }
    Seqs.FilterKeepsAll(clients, (c: Client) => SearchMatches(c, ""));
  }

  datatype Sections = Sections(active: seq<Client>, suspended: seq<Client>)

  /** The two sections of the list: the matching active clients and the
      matching suspended ones, each in list order. */
  function ListSections(clients: seq<Client>, term: string): (r: Sections)
    ensures forall i :: 0 <= i < |r.active| ==> r.active[i].status == Active && SearchMatches(r.active[i], term)
    ensures forall i :: 0 <= i < |r.suspended| ==>
      r.suspended[i].status == Suspended && SearchMatches(r.suspended[i], term)
    ensures Seqs.IsSubsequence(r.active, Search(clients, term))
    ensures Seqs.IsSubsequence(r.suspended, Search(clients, term))
  {
    var filtered := Search(clients, term);
    Sections(Seqs.Filter(filtered, (c: Client) => c.status == Active),
             Seqs.Filter(filtered, (c: Client) => c.status == Suspended))
  }

  /** Each section holds every matching client of its status as often as it
      occurs in the list, and no other client. */
  lemma SectionsCount(clients: seq<Client>, term: string)
    ensures var r := ListSections(clients, term);
      forall c :: multiset(r.active)[c]
                  == if c.status == Active && SearchMatches(c, term) then multiset(clients)[c] else 0
    ensures var r := ListSections(clients, term);
      forall c :: multiset(r.suspended)[c]
                  == if c.status == Suspended && SearchMatches(c, term) then multiset(clients)[c] else 0
  {
    var filtered := Search(clients, term);
    SearchCount(clients, term);
    Seqs.FilterMultiplicity(filtered, (c: Client) => c.status == Active);
    Seqs.FilterMultiplicity(filtered, (c: Client) => c.status == Suspended);
  }

  /** The sections partition the search result: every matching client is in
      exactly one of them, and together they hold as many clients as it. */
  lemma SectionsPartition(clients: seq<Client>, term: string)
    ensures var r := ListSections(clients, term);
      var filtered := Search(clients, term);
      && |r.active| + |r.suspended| == |filtered|
      && (forall i :: 0 <= i < |filtered| ==> (filtered[i] in r.active <==> filtered[i] !in r.suspended))
  {
    var filtered := Search(clients, term);
    Seqs.FilterComplement(filtered, (c: Client) => c.status == Active, (c: Client) => c.status == Suspended);
  }

  /** The number the call actions dial: the digits of the country code
      followed by the phone number. */
  function FullPhone(c: Client): (r: string)
    ensures AllDigits(r)
    ensures Seqs.IsSubsequence(r, c.countryCode + c.phoneNumber)
    ensures forall d :: multiset(r)[d] == if IsDigit(d) then multiset(c.countryCode + c.phoneNumber)[d] else 0
  {
    WhatsApp.SanitizePhoneNumber(c.countryCode + c.phoneNumber)
  }

  /** The WhatsApp link of the context menu points at the dialled number. */
  lemma LinkUsesFullPhone(c: Client)
    ensures WhatsApp.GetWhatsAppLink(c.countryCode, c.phoneNumber) == WhatsApp.LinkPrefix + FullPhone(c)
  {
    WhatsApp.LinkCarriesFullNumber(c.countryCode, c.phoneNumber);
  }
}

=== FILE: client_store.dfy ===
/** The client store (hooks/useClients.ts): the list of client records, its
    load-time defaulting of fields missing from older saved data, and the
    operations that replace the list. Every operation is a pure function from
    the previous list to the next one; fresh ids and `now` are parameters. */
module ClientStore {
  import opened Wrappers
  import opened Types
  import Seqs

  /** A `Partial<Client>` update: each present field overrides the record's. */
  datatype ClientPatch = ClientPatch(
    companyName: Option<string>,
    countryCode: Option<string>,
    phoneNumber: Option<string>,
    industry: Option<string>,
    rating: Option<int>,
    followUps: Option<seq<FollowUp>>,
    quotes: Option<seq<FileRecord>>,
    invoices: Option<seq<FileRecord>>,
    notes: Option<seq<Note>>,
    whatsAppStatus: Option<WhatsAppStatus>,
    nextFollowUpDate: Option<Option<Millis>>,
    isPaused: Option<bool>,
    pausedTimeLeft: Option<Option<Millis>>,
    status: Option<Status>,
    budgets: Option<seq<Budget>>,
    clientType: Option<Option<ClientType>>)

  /** The empty update `{}`. */
  const NoChange: ClientPatch := ClientPatch(
    None, None, None, None, None, None, None, None,
    None, None, None, None, None, None, None, None)

  /** `{ ...c, ...p }`: the record with the patch's present fields written over it. */
  function Apply(c: Client, p: ClientPatch): (r: Client)
    ensures r.id == c.id
    ensures p == NoChange ==> r == c
  {
    Client(
      c.id,
      p.companyName.GetOr(c.companyName),
      p.countryCode.GetOr(c.countryCode),
      p.phoneNumber.GetOr(c.phoneNumber),
      p.industry.GetOr(c.industry),
      p.rating.GetOr(c.rating),
      p.followUps.GetOr(c.followUps),
      p.quotes.GetOr(c.quotes),
      p.invoices.GetOr(c.invoices),
      p.notes.GetOr(c.notes),
      p.whatsAppStatus.GetOr(c.whatsAppStatus),
      p.nextFollowUpDate.GetOr(c.nextFollowUpDate),
      p.isPaused.GetOr(c.isPaused),
      p.pausedTimeLeft.GetOr(c.pausedTimeLeft),
      p.status.GetOr(c.status),
      p.budgets.GetOr(c.budgets),
      p.clientType.GetOr(c.clientType))
  }

  /** A whole record used as an update: every field except the id is present. */
  function PatchOf(c: Client): (p: ClientPatch)
    ensures forall x: Client :: x.id == c.id ==> Apply(x, p) == c
  {
    ClientPatch(
      Some(c.companyName), Some(c.countryCode), Some(c.phoneNumber), Some(c.industry),
      Some(c.rating), Some(c.followUps), Some(c.quotes), Some(c.invoices), Some(c.notes),
      Some(c.whatsAppStatus), Some(c.nextFollowUpDate), Some(c.isPaused),
      Some(c.pausedTimeLeft), Some(c.status), Some(c.budgets), Some(c.clientType))
  }

  /** The follow-up state every newly created client starts in. */
  predicate InitialFollowUpState(c: Client) {
    && c.whatsAppStatus == Unknown
    && c.nextFollowUpDate == None
    && !c.isPaused
    && c.pausedTimeLeft == None
    && c.status == Active
    && c.budgets == []
    && c.clientType == None
  }

  // ---------------------------------------------------------------------------
  // Loading saved data (getInitialClients)
  // ---------------------------------------------------------------------------

  /** A saved record as read back from storage. The fields that older saved data
      may lack are optional; `None` stands for a missing or falsy value, and an
      empty `countryCode` string is the falsy case of that field. */
  datatype StoredClient = StoredClient(
    id: Id,
    companyName: string,
    countryCode: string,
    phoneNumber: string,
    industry: string,
    rating: int,
    followUps: seq<FollowUp>,
    quotes: seq<FileRecord>,
    invoices: seq<FileRecord>,
    notes: seq<Note>,
    whatsAppStatus: Option<WhatsAppStatus>,
    nextFollowUpDate: Option<Millis>,
    isPaused: Option<bool>,
    pausedTimeLeft: Option<Millis>,
    status: Option<Status>,
    budgets: Option<seq<Budget>>,
    clientType: Option<ClientType>)

  /** What reading the storage key yields. */
  datatype StoredClients =
    | NothingStored
    | Unreadable            // the text does not parse as a list of records
    | Records(records: seq<StoredClient>)

  /** The country code a record without one is given. */
  const DefaultCountryCode: string := "+54"

  /** `c.field || default` for each field that older data may lack. A stored
      `pausedTimeLeft` of 0 is falsy, so it becomes null. */
  function WithDefaults(s: StoredClient): (c: Client)
    ensures c.id == s.id && c.companyName == s.companyName && c.phoneNumber == s.phoneNumber
    ensures c.industry == s.industry && c.rating == s.rating && c.followUps == s.followUps
    ensures c.quotes == s.quotes && c.invoices == s.invoices && c.notes == s.notes
    ensures c.countryCode == (if s.countryCode == "" then DefaultCountryCode else s.countryCode)
    ensures s.whatsAppStatus == None ==> c.whatsAppStatus == Unknown
    ensures s.whatsAppStatus.Some? ==> c.whatsAppStatus == s.whatsAppStatus.value
    ensures c.nextFollowUpDate == s.nextFollowUpDate
    ensures c.isPaused <==> s.isPaused == Some(true)
    ensures c.pausedTimeLeft == None <==> (s.pausedTimeLeft == None || s.pausedTimeLeft == Some(0))
    ensures c.pausedTimeLeft.Some? ==> c.pausedTimeLeft == s.pausedTimeLeft
    ensures s.status.Some? ==> c.status == s.status.value
    ensures s.status.None? ==> c.status == Active
    ensures c.budgets == s.budgets.GetOr([])
    ensures c.clientType == s.clientType
  {
    Client(
      s.id, s.companyName,
      if s.countryCode != "" then s.countryCode else DefaultCountryCode,
      s.phoneNumber, s.industry, s.rating, s.followUps, s.quotes, s.invoices, s.notes,
      s.whatsAppStatus.GetOr(Unknown),
      s.nextFollowUpDate,
      s.isPaused == Some(true),
      if s.pausedTimeLeft == Some(0) then None else s.pausedTimeLeft,
      s.status.GetOr(Active),
      s.budgets.GetOr([]),
      s.clientType)
  }

  /** The initial list: every saved record with its defaults filled in, in
      order; nothing saved, or saved data that cannot be read, gives []. */
  function Load(stored: StoredClients): (r: seq<Client>)
    ensures stored.Records? ==> |r| == |stored.records|
    ensures stored.Records? ==> forall i :: 0 <= i < |r| ==> r[i] == WithDefaults(stored.records[i])
    ensures !stored.Records? ==> r == []
  {
    match stored
    case Records(records) => Seqs.Map(records, WithDefaults)
    case _ => []
  }

  /** `JSON.stringify` of a record: every field is written. */
  function ToStored(c: Client): StoredClient {
    StoredClient(
      c.id, c.companyName, c.countryCode, c.phoneNumber, c.industry, c.rating,
      c.followUps, c.quotes, c.invoices, c.notes, Some(c.whatsAppStatus),
      c.nextFollowUpDate, Some(c.isPaused), c.pausedTimeLeft, Some(c.status),
      Some(c.budgets), c.clientType)
  }

  /** Saving and reloading a list gives it back exactly when no record has an
      empty country code or a paused time of 0 (both are falsy and get replaced). */
  lemma SaveLoadRoundTrip(clients: seq<Client>)
    ensures Load(Records(Seqs.Map(clients, ToStored))) == clients
        <==> forall i :: 0 <= i < |clients| ==>
               clients[i].countryCode != "" && clients[i].pausedTimeLeft != Some(0)
  {
    var back := Load(Records(Seqs.Map(clients, ToStored)));
    if back == clients {
      forall i | 0 <= i < |clients|
        ensures clients[i].countryCode != "" && clients[i].pausedTimeLeft != Some(0)
      {
        assert back[i] == WithDefaults(ToStored(clients[i]));
      }
    }
  }

  // ---------------------------------------------------------------------------
  // Operations
  // ---------------------------------------------------------------------------

  /** The fields a caller of `addClient` supplies; the optional ones may be absent. */
  datatype NewClientData = NewClientData(
    companyName: string,
    countryCode: string,
    phoneNumber: string,
    industry: string,
    rating: Option<int>,
    followUps: Option<seq<FollowUp>>,
    quotes: Option<seq<FileRecord>>,
    invoices: Option<seq<FileRecord>>,
    notes: Option<seq<Note>>)

  /** The record `addClient` builds: the supplied fields, the fresh id, rating 0
      and empty lists where absent, one empty note when no notes are supplied,
      and the initial follow-up state. */
  function NewClient(data: NewClientData, id: Id, noteId: Id, now: Millis): (c: Client)
    ensures c.id == id && InitialFollowUpState(c)
    ensures c.companyName == data.companyName && c.countryCode == data.countryCode
    ensures c.phoneNumber == data.phoneNumber && c.industry == data.industry
    ensures c.rating == data.rating.GetOr(0)
    ensures c.followUps == data.followUps.GetOr([])
    ensures c.quotes == data.quotes.GetOr([]) && c.invoices == data.invoices.GetOr([])
    ensures data.notes.Some? ==> c.notes == data.notes.value
    ensures data.notes.None? ==> c.notes == [Note(noteId, "", now)]
  {
    Client(
      id, data.companyName, data.countryCode, data.phoneNumber, data.industry,
      data.rating.GetOr(0), data.followUps.GetOr([]), data.quotes.GetOr([]),
      data.invoices.GetOr([]), data.notes.GetOr([Note(noteId, "", now)]),
      Unknown, None, false, None, Active, [], None)
  }

  /** `addClient`: one new record at the end, every existing record unchanged. */
  function AddClient(clients: seq<Client>, data: NewClientData, id: Id, noteId: Id, now: Millis)
    : (r: seq<Client>)
    ensures |r| == |clients| + 1
    ensures r[..|clients|] == clients
    ensures r[|clients|].id == id && InitialFollowUpState(r[|clients|])
    ensures r[|clients|].companyName == data.companyName
    ensures r[|clients|].phoneNumber == data.phoneNumber
  {
    clients + [NewClient(data, id, noteId, now)]
  }

  /** `updateClient`: the patch is merged into the records with that id and into
      no other; length, order and ids are unchanged, and an unknown id changes nothing. */
  function UpdateClient(clients: seq<Client>, id: Id, patch: ClientPatch): (r: seq<Client>)
    ensures |r| == |clients| && Ids(r) == Ids(clients)
    ensures forall i :: 0 <= i < |clients| && clients[i].id != id ==> r[i] == clients[i]
    ensures forall i :: 0 <= i < |clients| && clients[i].id == id ==> r[i] == Apply(clients[i], patch)
    ensures !HasId(clients, id) ==> r == clients
  {
    Seqs.Map(clients, (c: Client) => if c.id == id then Apply(c, patch) else c)
  }

  /** `deleteClient`: exactly the records with that id are removed; the rest keep
      their order. */
  function DeleteClient(clients: seq<Client>, id: Id): (r: seq<Client>)
    ensures !HasId(r, id)
    ensures forall i :: 0 <= i < |clients| && clients[i].id != id ==> clients[i] in r
    ensures Seqs.IsSubsequence(r, clients)
    ensures !HasId(clients, id) ==> r == clients
  {
    var r := Seqs.Filter(clients, (c: Client) => c.id != id);
    if !HasId(clients, id) then
      Seqs.FilterKeepsAll(clients, (c: Client) => c.id != id);
      r
    else r
  }

  /** Every record with another id is kept as often as it occurs; none with this id is. */
  lemma DeleteClientCount(clients: seq<Client>, id: Id)
    ensures forall c :: multiset(DeleteClient(clients, id))[c] == if c.id != id then multiset(clients)[c] else 0
  {
    Seqs.FilterMultiplicity(clients, (c: Client) => c.id != id);
  }

  /** The duplicate key `importClients` compares: country code followed by number. */
  function PhoneKey(countryCode: string, phoneNumber: string): string {
    countryCode + phoneNumber
  }

  /** Whether an imported record's key is absent among the existing clients. */
  predicate KeyIsNew(clients: seq<Client>, ic: NewClientData) {
    forall i :: 0 <= i < |clients| ==>
      PhoneKey(clients[i].countryCode, clients[i].phoneNumber) != PhoneKey(ic.countryCode, ic.phoneNumber)
  }

  /** The record `importClients` builds for one imported entry: only name, code,
      number and industry are taken; everything else starts empty. */
  function ImportedClient(ic: NewClientData, id: Id, noteId: Id, now: Millis): (c: Client)
    ensures c.id == id && InitialFollowUpState(c)
    ensures c.companyName == ic.companyName && c.countryCode == ic.countryCode
    ensures c.phoneNumber == ic.phoneNumber && c.industry == ic.industry
    ensures c.rating == 0 && c.followUps == [] && c.quotes == [] && c.invoices == []
    ensures c.notes == [Note(noteId, "", now)]
  {
    NewClient(ic.(rating := None, followUps := None, quotes := None, invoices := None, notes := None),
      id, noteId, now)
  }

  /** The entries `importClients` keeps: those whose key no existing client has.
      Entries of the batch are not compared with each other. */
  function ImportSelection(clients: seq<Client>, imported: seq<NewClientData>): (r: seq<NewClientData>)
    ensures Seqs.IsSubsequence(r, imported)
    ensures forall i :: 0 <= i < |r| ==> KeyIsNew(clients, r[i])
    ensures forall i :: 0 <= i < |imported| && KeyIsNew(clients, imported[i]) ==> imported[i] in r
    ensures forall ic :: multiset(r)[ic] == if KeyIsNew(clients, ic) then multiset(imported)[ic] else 0
  {
    Seqs.FilterMultiplicity(imported, (ic: NewClientData) => KeyIsNew(clients, ic));
    Seqs.Filter(imported, (ic: NewClientData) => KeyIsNew(clients, ic))
  }

  /** `importClients`: the existing records unchanged, followed by one new
      record for each kept entry, in batch order, the k-th taking the k-th fresh ids. */
  function ImportClients(clients: seq<Client>, imported: seq<NewClientData>,
                         ids: seq<Id>, noteIds: seq<Id>, now: Millis): (r: seq<Client>)
    requires |ids| >= |imported| && |noteIds| >= |imported|
    ensures |clients| <= |r| <= |clients| + |imported|
    ensures r[..|clients|] == clients
    ensures |r| == |clients| + |ImportSelection(clients, imported)|
    ensures forall k :: 0 <= k < |r| - |clients| ==>
      r[|clients| + k] == ImportedClient(ImportSelection(clients, imported)[k], ids[k], noteIds[k], now)
  {
    clients + ImportedRecords(ImportSelection(clients, imported), ids, noteIds, now)
  }

  /** The new records of an import, one per kept entry, in order. */
  function ImportedRecords(kept: seq<NewClientData>, ids: seq<Id>, noteIds: seq<Id>, now: Millis)
    : (r: seq<Client>)
    requires |ids| >= |kept| && |noteIds| >= |kept|
    ensures |r| == |kept|
    ensures forall k :: 0 <= k < |kept| ==> r[k] == ImportedClient(kept[k], ids[k], noteIds[k], now)
  {
    seq(|kept|, k requires 0 <= k < |kept| => ImportedClient(kept[k], ids[k], noteIds[k], now))
  }

  /** An entry whose key is new is imported even when the same key occurs
      earlier in the batch: the batch is not deduplicated against itself. */
  lemma ImportKeepsBatchDuplicates(clients: seq<Client>, ic: NewClientData)
    requires KeyIsNew(clients, ic)
    ensures ImportSelection(clients, [ic, ic]) == [ic, ic]
  {
    Seqs.FilterKeepsAll([ic, ic], (x: NewClientData) => KeyIsNew(clients, x));
  }

  /** The id prefix of every saved budget. */
  const BudgetIdPrefix: string := "budget-"

  /** `addBudgetToClient`: the budget (its own id ignored) gets the id
      "budget-" + uuid and is appended to the matching client's budgets only. */
  function AddBudgetToClient(clients: seq<Client>, clientId: Id, budget: Budget, uuid: string)
    : (r: seq<Client>)
    ensures |r| == |clients| && Ids(r) == Ids(clients)
    ensures forall i :: 0 <= i < |clients| && clients[i].id != clientId ==> r[i] == clients[i]
    ensures forall i :: 0 <= i < |clients| && clients[i].id == clientId ==>
      r[i] == clients[i].(budgets := clients[i].budgets + [budget.(id := BudgetIdPrefix + uuid)])
  {
    var saved := budget.(id := BudgetIdPrefix + uuid);
    Seqs.Map(clients, (c: Client) => if c.id == clientId then c.(budgets := c.budgets + [saved]) else c)
  }

  /** `budgets.filter(b => b.id !== budgetId)`: every budget with another id
      is kept, as often as it occurs and in its place; none with this id is. */
  function WithoutBudget(budgets: seq<Budget>, budgetId: Id): (r: seq<Budget>)
    ensures forall k :: 0 <= k < |r| ==> r[k].id != budgetId
    ensures Seqs.IsSubsequence(r, budgets)
    ensures forall b :: multiset(r)[b] == if b.id != budgetId then multiset(budgets)[b] else 0
  {
    Seqs.FilterMultiplicity(budgets, (b: Budget) => b.id != budgetId);
    Seqs.Filter(budgets, (b: Budget) => b.id != budgetId)
  }

  /** `deleteBudgetFromClient`: that budget id is filtered from the matching
      client's budgets only; other budgets keep their order. */
  function DeleteBudgetFromClient(clients: seq<Client>, clientId: Id, budgetId: Id)
    : (r: seq<Client>)
    ensures |r| == |clients| && Ids(r) == Ids(clients)
    ensures forall i :: 0 <= i < |clients| && clients[i].id != clientId ==> r[i] == clients[i]
    ensures forall i :: 0 <= i < |clients| && clients[i].id == clientId ==>
      && (forall k :: 0 <= k < |r[i].budgets| ==> r[i].budgets[k].id != budgetId)
      && Seqs.IsSubsequence(r[i].budgets, clients[i].budgets)
      && r[i] == clients[i].(budgets := r[i].budgets)
    ensures forall i, b: Budget :: 0 <= i < |clients| && clients[i].id == clientId && b.id != budgetId ==>
      multiset(r[i].budgets)[b] == multiset(clients[i].budgets)[b]
  {
    Seqs.Map(clients, (c: Client) =>
      if c.id == clientId then c.(budgets := WithoutBudget(c.budgets, budgetId))
      else c)
  }
}

=== FILE: countdown.dfy ===
/** The countdown widget (components/Countdown.tsx): the remaining-time
    formatter, the text and "due" flag shown for a client at a given instant,
    and its own copies of the pause, resume, delete and reschedule handlers. */
module Countdown {
  import opened Wrappers
  import opened Types
  import opened ClientStore
  import Text
  import FollowUpSection

  /** A unit of the remaining-time display. */
  datatype TimeUnit = Days | Hours | Minutes | Seconds

  /** The position of a unit in the display, largest first. */
  function UnitRank(u: TimeUnit): nat {
    match u
    case Days => 0
    case Hours => 1
    case Minutes => 2
    case Seconds => 3
  }

  /** One displayed amount, such as `3h`. */
  datatype Part = Part(amount: nat, unit: TimeUnit)

  /** A remaining-time text: the translated "due" label, or the composed text. */
  datatype Label = DueLabel | Remaining(text: string)

  /** A whole number of seconds split into days, hours, minutes and seconds by
      floor division. */
  datatype Breakdown = Breakdown(days: nat, hours: nat, minutes: nat, seconds: nat)

  function Split(totalSeconds: nat): (b: Breakdown)
    ensures b.days * 86400 + b.hours * 3600 + b.minutes * 60 + b.seconds == totalSeconds
    ensures b.hours < 24 && b.minutes < 60 && b.seconds < 60
  {
    var b := Breakdown(totalSeconds / 86400, (totalSeconds % 86400) / 3600,
                       (totalSeconds % 3600) / 60, totalSeconds % 60);
    SplitExact(totalSeconds, b);
    b
  }

  lemma SplitExact(s: nat, b: Breakdown)
    requires b == Breakdown(s / 86400, (s % 86400) / 3600, (s % 3600) / 60, s % 60)
    ensures b.days * 86400 + b.hours * 3600 + b.minutes * 60 + b.seconds == s
    ensures b.hours < 24 && b.minutes < 60 && b.seconds < 60
  {
    var r1 := s % 86400;
    var r2 := r1 % 3600;
    assert s == 86400 * b.days + r1;
    assert r1 == 3600 * b.hours + r2 && 0 <= r2 < 3600;
    assert s == 3600 * (24 * b.days + b.hours) + r2;
    assert s % 3600 == r2;
    assert r2 == 60 * b.minutes + r2 % 60;
    assert s == 60 * (60 * (24 * b.days + b.hours) + b.minutes) + r2 % 60;
    assert s % 60 == r2 % 60;
  }

  /** The amounts formatTime shows, in the order days, hours, minutes, seconds:
      a unit only when its amount is positive, and seconds only in the long
      format and only when there are no whole days. */
  function Parts(b: Breakdown, short: bool): (ps: seq<Part>)
    ensures forall i :: 0 <= i < |ps| ==> ps[i].amount > 0
    ensures Part(b.days, Days) in ps <==> b.days > 0
    ensures Part(b.hours, Hours) in ps <==> b.hours > 0
    ensures Part(b.minutes, Minutes) in ps <==> b.minutes > 0
    ensures Part(b.seconds, Seconds) in ps <==> !short && b.seconds > 0 && b.days == 0
    ensures forall i :: 0 <= i < |ps| ==>
      ps[i] in [Part(b.days, Days), Part(b.hours, Hours), Part(b.minutes, Minutes), Part(b.seconds, Seconds)]
    ensures forall i, j :: 0 <= i < j < |ps| ==> UnitRank(ps[i].unit) < UnitRank(ps[j].unit)
  {
    (if b.days > 0 then [Part(b.days, Days)] else [])
    + (if b.hours > 0 then [Part(b.hours, Hours)] else [])
    + (if b.minutes > 0 then [Part(b.minutes, Minutes)] else [])
    + (if !short && b.seconds > 0 && b.days == 0 then [Part(b.seconds, Seconds)] else [])
  }

  function UnitSuffix(u: TimeUnit): char {
    match u
    case Days => 'd'
    case Hours => 'h'
    case Minutes => 'm'
    case Seconds => 's'
  }

  /** `${amount}d` and the like. */
  function RenderPart(p: Part): (s: string)
    ensures |s| >= 2 && Text.AllDigits(s[..|s| - 1]) && s[|s| - 1] == UnitSuffix(p.unit)
    ensures ' ' !in s
    ensures Text.DecimalValue(s[..|s| - 1]) == p.amount
    ensures s[0] == '0' ==> p.amount == 0
  {
    var digits := Text.DecimalString(p.amount);
    Text.DecimalRoundTrip(p.amount);
    assert (digits + [UnitSuffix(p.unit)])[..|digits|] == digits;
    digits + [UnitSuffix(p.unit)]
  }

  function RenderParts(ps: seq<Part>): (r: seq<string>)
    ensures |r| == |ps|
    ensures forall i :: 0 <= i < |ps| ==> r[i] == RenderPart(ps[i])
  {
    seq(|ps|, i requires 0 <= i < |ps| => RenderPart(ps[i]))
  }

  /** `formatTime(ms, short)`. */
  function FormatTime(ms: int, short: bool): (r: Label)
    ensures ms <= 0 <==> r == DueLabel
    ensures r.Remaining? ==> |r.text| > 0
  {
    if ms <= 0 then DueLabel else Remaining(RemainingText(ms, short))
  }

  /** The text formatTime composes for a positive remaining time: the rendered
      amounts joined by spaces, or "0m" (short) / "0s" (long) when there are none. */
  function RemainingText(ms: int, short: bool): (r: string)
    requires ms > 0
    ensures |r| > 0
  {
    var ps := Parts(Split(ms / 1000), short);
    if |ps| == 0 then (if short then "0m" else "0s")
    else
      assert |RenderPart(ps[0])| > 0;
      JoinNonEmpty(RenderParts(ps))
  }

  /** Joining with a space a non-empty list whose first piece is non-empty. */
  function JoinNonEmpty(pieces: seq<string>): (r: string)
    requires |pieces| > 0 && |pieces[0]| > 0
    ensures |r| > 0
    ensures r == Text.Join(pieces, " ")
  {
    if |pieces| == 1 then pieces[0] else pieces[0] + " " + Text.Join(pieces[1..], " ")
  }

  /** The formatted text splits back, at its spaces, into exactly the rendered
      amounts; without any amount it is the fallback "0m" (short) or "0s" (long). */
  lemma FormatTimeParts(ms: int, short: bool)
    requires ms > 0
    ensures var ps := Parts(Split(ms / 1000), short);
      && (|ps| > 0 ==> Text.Split(FormatTime(ms, short).text, ' ') == RenderParts(ps))
      && (|ps| == 0 ==> FormatTime(ms, short).text == (if short then "0m" else "0s"))
  {
    var ps := Parts(Split(ms / 1000), short);
    if |ps| > 0 {
      Text.JoinSplit(RenderParts(ps), ' ');
    }
  }

  /** The fallback text appears exactly for less than a minute (short format)
      or less than a second (long format) of remaining time. */
  lemma FormatTimeFallback(ms: int, short: bool)
    requires ms > 0
    ensures |Parts(Split(ms / 1000), short)| == 0 <==> (if short then ms < 60000 else ms < 1000)
  {
    var s := ms / 1000;
    var b := Split(s);
    var ps := Parts(b, short);
    if |ps| == 0 {
      assert b.days == 0 && b.hours == 0 && b.minutes == 0;
      assert !short ==> b.seconds == 0;
    } else if short {
      assert b.days > 0 || b.hours > 0 || b.minutes > 0;
    } else {
      assert b.days > 0 || b.hours > 0 || b.minutes > 0 || b.seconds > 0;
    }
  }

  /** What the widget shows. */
  datatype Shown =
    | PausedLabel(pausedTime: Option<Label>)   // "Paused", or "Paused: <time>" in the long format
    | NoFollowUpLabel
    | Running(remaining: Label)

  datatype View = View(shown: Shown, isDue: bool)

  /** The text and the due flag computed for a client at instant `now`. */
  function ViewAt(c: Client, now: Millis, short: bool): (v: View)
    ensures c.isPaused ==> !v.isDue
    ensures c.isPaused && short ==> v.shown == PausedLabel(None)
    ensures c.isPaused && !short ==> v.shown == PausedLabel(Some(FormatTime(c.pausedTimeLeft.GetOr(0), false)))
    ensures !c.isPaused && c.nextFollowUpDate.None? ==> v == View(NoFollowUpLabel, false)
    ensures !c.isPaused && c.nextFollowUpDate.Some? ==>
      (v.isDue <==> now >= c.nextFollowUpDate.value)
    ensures !c.isPaused && c.nextFollowUpDate.Some? ==>
      v.shown == Running(FormatTime(c.nextFollowUpDate.value - now, short))
  {
    if c.isPaused then
      View(PausedLabel(if short then None else Some(FormatTime(c.pausedTimeLeft.GetOr(0), short))), false)
    else if c.nextFollowUpDate.None? then View(NoFollowUpLabel, false)
    else RunningView(c.nextFollowUpDate.value - now, short)
  }

  /** One tick of the running countdown, `difference` being target minus now. */
  function RunningView(difference: Millis, short: bool): (v: View)
    ensures v.isDue <==> difference <= 0
    ensures v.shown == Running(FormatTime(difference, short))
  {
    if difference <= 0 then View(Running(DueLabel), true)
    else View(Running(FormatTime(difference, short)), false)
  }

  /** The running countdown shows formatTime of the remaining time, and it is
      due exactly when that is the due label. */
  lemma RunningViewIsFormatTime(difference: Millis, short: bool)
    ensures RunningView(difference, short).shown == Running(FormatTime(difference, short))
    ensures RunningView(difference, short).isDue <==> FormatTime(difference, short) == DueLabel
  {
  }

  /** The short widget renders nothing when there is no follow-up date. */
  function Rendered(c: Client, now: Millis, short: bool): (r: Option<View>)
    ensures r.None? <==> c.nextFollowUpDate.None? && short
    ensures r.Some? ==> r.value == ViewAt(c, now, short)
  {
    if c.nextFollowUpDate.None? && short then None else Some(ViewAt(c, now, short))
  }

  // The widget's own handlers, written out again in the source.

  function Pause(c: Client, now: Millis): Option<ClientPatch> {
    if c.nextFollowUpDate.None? then None
    else
      var timeLeft := c.nextFollowUpDate.value - now;
      Some(NoChange.(isPaused := Some(true), pausedTimeLeft := Some(Some(if timeLeft > 0 then timeLeft else 0))))
  }

  function Resume(c: Client, now: Millis): Option<ClientPatch> {
    if c.pausedTimeLeft.None? || c.pausedTimeLeft.value == 0 then None
    else
      Some(NoChange.(isPaused := Some(false), pausedTimeLeft := Some(None),
                     nextFollowUpDate := Some(Some(now + c.pausedTimeLeft.value))))
  }

  function Delete(c: Client, confirmed: bool): Option<ClientPatch> {
    if confirmed then Some(NoChange.(nextFollowUpDate := Some(None), isPaused := Some(false), pausedTimeLeft := Some(None)))
    else None
  }

  function Reschedule(c: Client, newDate: Option<Millis>, now: Millis, calendar: FollowUpSection.Calendar)
    : ClientPatch
  {
    var next := match newDate
      case Some(d) => d
      case None => calendar(now, 7);
    NoChange.(nextFollowUpDate := Some(Some(next)), isPaused := Some(false), pausedTimeLeft := Some(None))
  }

  /** The widget's handlers make the same updates as the detail view's, so the
      reschedule here never touches the status either. */
  lemma HandlersAgree(c: Client, now: Millis, confirmed: bool, newDate: Option<Millis>,
                      calendar: FollowUpSection.Calendar)
    ensures Pause(c, now) == FollowUpSection.Pause(c, now)
    ensures Resume(c, now) == FollowUpSection.Resume(c, now)
    ensures Delete(c, confirmed) == FollowUpSection.Delete(c, confirmed)
    ensures Reschedule(c, newDate, now, calendar) == FollowUpSection.Reschedule(c, newDate, now, calendar)
    ensures Apply(c, Reschedule(c, newDate, now, calendar)).status == c.status
  {
  }
}

=== FILE: followup_section.dfy ===
/** The follow-up clock handlers of the client detail view
    (components/FollowUpSection.tsx): register a call, reschedule, pause,
    resume and delete. Each handler computes the `Partial<Client>` update it
    hands to the store; a handler that returns early yields `None`. */
module FollowUpSection {
  import opened Wrappers
  import opened Types
  import opened ClientStore

  /** `addBusinessDays(start, n)` from utils/dateUtils.ts, which is not part of
      this model: it is supplied by the caller and nothing is assumed about it. */
  type Calendar = (Millis, int) -> Millis

  /** The default follow-up interval, in business days. */
  const DefaultOffsetDays: int := 7

  /** The default next follow-up date: seven business days after `now`. */
  function DefaultNextDate(calendar: Calendar, now: Millis): Millis {
    calendar(now, DefaultOffsetDays)
  }

  /** `r` differs from `c` at most in the follow-up clock fields and the call log. */
  predicate OnlyClockChanged(c: Client, r: Client) {
    r == c.(followUps := r.followUps, nextFollowUpDate := r.nextFollowUpDate,
            isPaused := r.isPaused, pausedTimeLeft := r.pausedTimeLeft, status := r.status)
  }

  /** Registering a call: the call is logged at `now`, the next follow-up is the
      default date, the clock runs, and the client is active again, whatever
      state it was in. */
  function RegisterCall(c: Client, now: Millis, callId: Id, calendar: Calendar): (p: ClientPatch)
    ensures var r := Apply(c, p);
      && r.followUps == c.followUps + [FollowUp(callId, now)]
      && r.nextFollowUpDate == Some(calendar(now, 7))
      && !r.isPaused && r.pausedTimeLeft == None && r.status == Active
      && OnlyClockChanged(c, r)
  {
    NoChange.(
      followUps := Some(c.followUps + [FollowUp(callId, now)]),
      nextFollowUpDate := Some(Some(DefaultNextDate(calendar, now))),
      isPaused := Some(false),
      pausedTimeLeft := Some(None),
      status := Some(Active))
  }

  /** Rescheduling: the next follow-up becomes the chosen date, or the default
      date when none is chosen; the pause is cleared. The status and the call
      log are left as they were, so a suspended client stays suspended. */
  function Reschedule(c: Client, newDate: Option<Millis>, now: Millis, calendar: Calendar)
    : (p: ClientPatch)
    ensures newDate.Some? ==> Apply(c, p).nextFollowUpDate == newDate
    ensures newDate.None? ==> Apply(c, p).nextFollowUpDate == Some(calendar(now, 7))
    ensures Apply(c, p) == c.(nextFollowUpDate := Apply(c, p).nextFollowUpDate,
                              isPaused := false, pausedTimeLeft := None)
  {
    var next := if newDate.Some? then newDate.value else DefaultNextDate(calendar, now);
    NoChange.(nextFollowUpDate := Some(Some(next)), isPaused := Some(false), pausedTimeLeft := Some(None))
  }

  /** Pausing: nothing happens without a next follow-up date; otherwise the
      remaining time, floored at zero, is frozen and the stored date is kept. */
  function Pause(c: Client, now: Millis): (p: Option<ClientPatch>)
    ensures p.None? <==> c.nextFollowUpDate.None?
    ensures p.Some? ==>
      var left := c.nextFollowUpDate.value - now;
      Apply(c, p.value) == c.(isPaused := true, pausedTimeLeft := Some(if left > 0 then left else 0))
  {
    if c.nextFollowUpDate.None? then None
    else
      var timeLeft := c.nextFollowUpDate.value - now;
      Some(NoChange.(isPaused := Some(true), pausedTimeLeft := Some(Some(if timeLeft > 0 then timeLeft else 0))))
  }

  /** Resuming: nothing happens when no paused time is stored or when it is 0
      (a falsy value); otherwise the clock runs again towards now + paused time. */
  function Resume(c: Client, now: Millis): (p: Option<ClientPatch>)
    ensures p.None? <==> (c.pausedTimeLeft == None || c.pausedTimeLeft == Some(0))
    ensures p.Some? ==>
      Apply(c, p.value) == c.(isPaused := false, pausedTimeLeft := None,
                              nextFollowUpDate := Some(now + c.pausedTimeLeft.value))
  {
    if c.pausedTimeLeft == None || c.pausedTimeLeft == Some(0) then None
    else
      Some(NoChange.(isPaused := Some(false), pausedTimeLeft := Some(None),
                     nextFollowUpDate := Some(Some(now + c.pausedTimeLeft.value))))
  }

  /** Deleting the follow-up (after the user confirms): the date and the pause
      are cleared; the status is left as it was. */
  function Delete(c: Client, confirmed: bool): (p: Option<ClientPatch>)
    ensures p.None? <==> !confirmed
    ensures p.Some? ==>
      Apply(c, p.value) == c.(nextFollowUpDate := None, isPaused := false, pausedTimeLeft := None)
  {
    if !confirmed then None
    else Some(NoChange.(nextFollowUpDate := Some(None), isPaused := Some(false), pausedTimeLeft := Some(None)))
  }

  /** Pausing a follow-up that is still in the future and resuming it at the same
      instant restores the due date exactly and leaves the clock running. */
  lemma PauseResumeRestores(c: Client, now: Millis)
    requires c.nextFollowUpDate.Some? && c.nextFollowUpDate.value > now
    ensures Pause(c, now).Some?
    ensures var paused := Apply(c, Pause(c, now).value);
      && Resume(paused, now).Some?
      && Apply(paused, Resume(paused, now).value) == c.(isPaused := false, pausedTimeLeft := None)
  {
  }

  /** Pausing at a later instant and resuming: the due date moves by exactly the
      time spent paused. */
  lemma PauseResumeShifts(c: Client, pauseAt: Millis, resumeAt: Millis)
    requires c.nextFollowUpDate.Some? && c.nextFollowUpDate.value > pauseAt
    ensures Pause(c, pauseAt).Some?
    ensures var paused := Apply(c, Pause(c, pauseAt).value);
      && Resume(paused, resumeAt).Some?
      && Apply(paused, Resume(paused, resumeAt).value).nextFollowUpDate
           == Some(c.nextFollowUpDate.value + (resumeAt - pauseAt))
  {
  }

  /** A follow-up paused when it is already due stores 0 as the paused time, and
      no later resume changes anything: the client stays paused. */
  lemma PausedWhenDueNeverResumes(c: Client, pauseAt: Millis, resumeAt: Millis)
    requires c.nextFollowUpDate.Some? && c.nextFollowUpDate.value <= pauseAt
    ensures Pause(c, pauseAt).Some?
    ensures var paused := Apply(c, Pause(c, pauseAt).value);
      paused.isPaused && Resume(paused, resumeAt).None?
  {
  }

  /** The resume the code evidently intends: only a missing paused time makes
      it a no-op, so a paused time of 0 resumes the clock as already due. */
  function ResumeCorrected(c: Client, now: Millis): (p: Option<ClientPatch>)
    ensures p.None? <==> c.pausedTimeLeft == None
    ensures p.Some? ==>
      Apply(c, p.value) == c.(isPaused := false, pausedTimeLeft := None,
                              nextFollowUpDate := Some(now + c.pausedTimeLeft.value))
  {
    if c.pausedTimeLeft == None then None
    else
      Some(NoChange.(isPaused := Some(false), pausedTimeLeft := Some(None),
                     nextFollowUpDate := Some(Some(now + c.pausedTimeLeft.value))))
  }

  /** With the corrected resume, every pause can be undone: after pausing and
      resuming the clock runs again, and the due date is never earlier than the
      resume instant. */
  lemma PauseResumeCorrectedAlwaysRuns(c: Client, pauseAt: Millis, resumeAt: Millis)
    requires c.nextFollowUpDate.Some?
    ensures Pause(c, pauseAt).Some?
    ensures var paused := Apply(c, Pause(c, pauseAt).value);
      && ResumeCorrected(paused, resumeAt).Some?
      && var resumed := Apply(paused, ResumeCorrected(paused, resumeAt).value);
         !resumed.isPaused && resumed.nextFollowUpDate.Some?
         && resumed.nextFollowUpDate.value >= resumeAt
  {
  }

  /** The correction changes only the case the code gets wrong: the two
      resumes differ exactly when the stored paused time is 0. */
  lemma ResumeCorrectionIsMinimal(c: Client, now: Millis)
    ensures ResumeCorrected(c, now) != Resume(c, now) <==> c.pausedTimeLeft == Some(0)
  {
  }
}

=== FILE: followup_sweep.dfy ===
/** The periodic follow-up sweep of the application shell (App.tsx,
    `checkFollowUps`): which clients get a due notification, which get
    suspended, and the new list of already-notified client ids that is
    written back to storage. The sweep is one pure function of the client
    list, the stored id list and `now`. */
module FollowUpSweep {
  import opened Wrappers
  import opened Types
  import opened ClientStore
  import Seqs

  /** A due notification: tagged with the client id, naming the client. */
  datatype Notice = Notice(clientId: Id, clientName: string)

  /** Everything one sweep produces. `write` says whether the id list is stored. */
  datatype SweepResult = SweepResult(
    notices: seq<Notice>, suspend: seq<Id>, notified: seq<Id>, write: bool)

  /** A client gets a notification: it has a date, that date has come, and its
      id was not in the stored list when the sweep started. Neither the pause
      nor the status is consulted. */
  predicate NoticeDue(c: Client, stored: seq<Id>, now: Millis) {
    c.nextFollowUpDate.Some? && c.id !in stored && now >= c.nextFollowUpDate.value
  }

  /** A client gets suspended: more than a day past its date, not suspended yet, not paused. */
  predicate SuspensionDue(c: Client, now: Millis) {
    && c.nextFollowUpDate.Some?
    && now - c.nextFollowUpDate.value > DayMillis
    && c.status != Suspended
    && !c.isPaused
  }

  /** A client whose follow-up date is strictly in the future. */
  predicate Upcoming(c: Client, now: Millis) {
    c.nextFollowUpDate.Some? && c.nextFollowUpDate.value > now
  }

  /** Some client with this id has an upcoming follow-up. */
  predicate IdUpcoming(clients: seq<Client>, id: Id, now: Millis) {
    exists i :: 0 <= i < |clients| && clients[i].id == id && Upcoming(clients[i], now)
  }

  function NoticeOf(c: Client): Notice {
    Notice(c.id, c.companyName)
  }

  /** The notice is that of some client due for one. */
  predicate NoticeOfDueClient(clients: seq<Client>, stored: seq<Id>, now: Millis, n: Notice) {
    exists i :: 0 <= i < |clients| && NoticeDue(clients[i], stored, now) && n == NoticeOf(clients[i])
  }

  /** The id is that of some client due for a notice. */
  predicate IdOfDueClient(clients: seq<Client>, stored: seq<Id>, now: Millis, id: Id) {
    exists i :: 0 <= i < |clients| && NoticeDue(clients[i], stored, now) && clients[i].id == id
  }

  /** The id is that of some client due for suspension. */
  predicate IdOfOverdueClient(clients: seq<Client>, now: Millis, id: Id) {
    exists i :: 0 <= i < |clients| && SuspensionDue(clients[i], now) && clients[i].id == id
  }

  /** The clients due for a notification, in client order. */
  function DueClients(clients: seq<Client>, stored: seq<Id>, now: Millis): (r: seq<Client>)
    ensures forall i :: 0 <= i < |clients| && NoticeDue(clients[i], stored, now) ==> clients[i] in r
    ensures forall k :: 0 <= k < |r| ==> r[k] in clients && NoticeDue(r[k], stored, now)
    ensures r == [] <==> forall i :: 0 <= i < |clients| ==> !NoticeDue(clients[i], stored, now)
    ensures Seqs.IsSubsequence(r, clients)
  {
    var r := Seqs.Filter(clients, (c: Client) => NoticeDue(c, stored, now));
    assert (forall i :: 0 <= i < |clients| ==> !NoticeDue(clients[i], stored, now)) ==> r == [] by {
      if forall i :: 0 <= i < |clients| ==> !NoticeDue(clients[i], stored, now) {
        Seqs.FilterDropsAll(clients, (c: Client) => NoticeDue(c, stored, now));
      }
    }
    r
  }

  /** Each due client is notified as often as it occurs in the list, and no other client is. */
  lemma DueClientsCount(clients: seq<Client>, stored: seq<Id>, now: Millis)
    ensures forall c :: multiset(DueClients(clients, stored, now))[c]
                        == if NoticeDue(c, stored, now) then multiset(clients)[c] else 0
  {
    Seqs.FilterMultiplicity(clients, (c: Client) => NoticeDue(c, stored, now));
  }

  /** The clients due for suspension, in client order. */
  function OverdueClients(clients: seq<Client>, now: Millis): (r: seq<Client>)
    ensures forall i :: 0 <= i < |clients| && SuspensionDue(clients[i], now) ==> clients[i] in r
    ensures forall k :: 0 <= k < |r| ==> r[k] in clients && SuspensionDue(r[k], now)
    ensures r == [] <==> forall i :: 0 <= i < |clients| ==> !SuspensionDue(clients[i], now)
  {
    var r := Seqs.Filter(clients, (c: Client) => SuspensionDue(c, now));
    assert (forall i :: 0 <= i < |clients| ==> !SuspensionDue(clients[i], now)) ==> r == [] by {
      if forall i :: 0 <= i < |clients| ==> !SuspensionDue(clients[i], now) {
        Seqs.FilterDropsAll(clients, (c: Client) => SuspensionDue(c, now));
      }
    }
    r
  }

  /** The notifications of one sweep, in client order. */
  function Notices(clients: seq<Client>, stored: seq<Id>, now: Millis): (r: seq<Notice>)
    ensures forall i :: 0 <= i < |clients| && NoticeDue(clients[i], stored, now) ==> NoticeOf(clients[i]) in r
    ensures forall n :: n in r ==> NoticeOfDueClient(clients, stored, now, n)
    ensures r == [] <==> forall i :: 0 <= i < |clients| ==> !NoticeDue(clients[i], stored, now)
    ensures var due := DueClients(clients, stored, now);
      |r| == |due| && forall k :: 0 <= k < |due| ==> r[k] == NoticeOf(due[k])
  {
    var due := DueClients(clients, stored, now);
    var r := Seqs.Map(due, NoticeOf);
    assert forall c :: c in due ==> NoticeOf(c) in r by {
      forall c | c in due ensures NoticeOf(c) in r {
        var k :| 0 <= k < |due| && due[k] == c;
        assert r[k] == NoticeOf(c);
      }
    }
    r
  }

  /** The ids pushed onto the notified list, one per notification, in client order. */
  function NotifiedNow(clients: seq<Client>, stored: seq<Id>, now: Millis): (r: seq<Id>)
    ensures |r| == |Notices(clients, stored, now)|
    ensures forall id :: id in r <==> IdOfDueClient(clients, stored, now, id)
    ensures var due := DueClients(clients, stored, now);
      |r| == |due| && forall k :: 0 <= k < |r| ==> r[k] == due[k].id
  {
    var due := DueClients(clients, stored, now);
    IdsMembership(due);
    Ids(due)
  }

  /** The ids of the clients to suspend, in client order. */
  function OverdueIds(clients: seq<Client>, now: Millis): (r: seq<Id>)
    ensures forall id :: id in r <==> IdOfOverdueClient(clients, now, id)
    ensures r == [] <==> forall i :: 0 <= i < |clients| ==> !SuspensionDue(clients[i], now)
  {
    var overdue := OverdueClients(clients, now);
    IdsMembership(overdue);
    Ids(overdue)
  }

  /** An id is among the ids of a list exactly when some client of the list has it. */
  lemma IdsMembership(s: seq<Client>)
    ensures forall c :: c in s ==> c.id in Ids(s)
    ensures forall id :: id in Ids(s) ==> exists c :: c in s && c.id == id
  {
    forall c | c in s ensures c.id in Ids(s) {
      var k :| 0 <= k < |s| && s[k] == c;
      assert Ids(s)[k] == c.id;
    }
  }

  /** The list with the ids of clients whose follow-up is upcoming removed. */
  function Prune(ids: seq<Id>, clients: seq<Client>, now: Millis): (r: seq<Id>)
    ensures forall id :: id in r <==> id in ids && !IdUpcoming(clients, id, now)
    ensures Seqs.IsSubsequence(r, ids)
    ensures |r| == |ids| <==> forall k :: 0 <= k < |ids| ==> !IdUpcoming(clients, ids[k], now)
  {
    Seqs.FilterLengthExact(ids, (id: Id) => !IdUpcoming(clients, id, now));
    Seqs.Filter(ids, (id: Id) => !IdUpcoming(clients, id, now))
  }

  /** `checkFollowUps` at instant `now`, given the stored already-notified ids. */
  function Sweep(clients: seq<Client>, stored: seq<Id>, now: Millis): (r: SweepResult)
    ensures forall i :: 0 <= i < |clients| && NoticeDue(clients[i], stored, now) ==>
      NoticeOf(clients[i]) in r.notices
    ensures forall n :: n in r.notices ==> NoticeOfDueClient(clients, stored, now, n)
    ensures forall i :: 0 <= i < |clients| && SuspensionDue(clients[i], now) ==> clients[i].id in r.suspend
    ensures forall id :: id in r.suspend ==> IdOfOverdueClient(clients, now, id)
    ensures r.notices == Notices(clients, stored, now)
    ensures r.suspend == OverdueIds(clients, now)
    ensures r.notified == Prune(stored + NotifiedNow(clients, stored, now), clients, now)
    ensures forall id :: id in r.notified <==>
      (id in stored || IdOfDueClient(clients, stored, now, id)) && !IdUpcoming(clients, id, now)
    ensures r.write <==> |r.notices| > 0 || |r.notified| != |stored| + |r.notices|
  {
    var notices := Notices(clients, stored, now);
    var updated := stored + NotifiedNow(clients, stored, now);
    var final := Prune(updated, clients, now);
    var suspend := OverdueIds(clients, now);
    assert forall i :: 0 <= i < |clients| && SuspensionDue(clients[i], now) ==>
      IdOfOverdueClient(clients, now, clients[i].id);
    SweepResult(notices, suspend, final, |notices| > 0 || |final| != |updated|)
  }

  /** The update the sweep hands to the store for each client it suspends. */
  const SuspendPatch: ClientPatch := NoChange.(status := Some(Suspended))

  /** The client list after the sweep's `updateClient` calls, one per suspended id. */
  function ApplySuspensions(clients: seq<Client>, ids: seq<Id>): (r: seq<Client>)
    decreases |ids|
  {
    if |ids| == 0 then clients
    else ApplySuspensions(UpdateClient(clients, ids[0], SuspendPatch), ids[1..])
  }

  /** After the updates, exactly the records whose id was listed are suspended;
      nothing else about any record changes, and no record is made active. */
  lemma {:induction false} ApplySuspensionsEffect(clients: seq<Client>, ids: seq<Id>)
    ensures |ApplySuspensions(clients, ids)| == |clients|
    ensures forall i :: 0 <= i < |clients| ==>
      ApplySuspensions(clients, ids)[i]
        == if clients[i].id in ids then clients[i].(status := Suspended) else clients[i]
    decreases |ids|
  {
    if |ids| > 0 {
      var once := UpdateClient(clients, ids[0], SuspendPatch);
      ApplySuspensionsEffect(once, ids[1..]);
      forall i | 0 <= i < |clients|
        ensures ApplySuspensions(clients, ids)[i]
          == if clients[i].id in ids then clients[i].(status := Suspended) else clients[i]
      {
        assert once[i].id == clients[i].id;
        assert clients[i].id in ids <==> clients[i].id == ids[0] || clients[i].id in ids[1..];
      }
    }
  }

  /** The sweep never makes a client active, and it touches nothing but the status. */
  lemma SweepNeverActivates(clients: seq<Client>, stored: seq<Id>, now: Millis)
    ensures var after := ApplySuspensions(clients, Sweep(clients, stored, now).suspend);
      && |after| == |clients|
      && forall i :: 0 <= i < |clients| ==>
           && (after[i].status == Active ==> clients[i].status == Active)
           && after[i] == clients[i].(status := after[i].status)
  {
    var ids := Sweep(clients, stored, now).suspend;
    var after := ApplySuspensions(clients, ids);
    ApplySuspensionsEffect(clients, ids);
    forall i | 0 <= i < |clients|
      ensures after[i].status == Active ==> clients[i].status == Active
      ensures after[i] == clients[i].(status := after[i].status)
    {
      if clients[i].id in ids {
        assert after[i] == clients[i].(status := Suspended);
      } else {
        assert after[i] == clients[i];
      }
    }
  }

  /** A client without a follow-up date gets neither a notification nor a
      suspension (its id being its own). */
  lemma NoDateNoAction(clients: seq<Client>, stored: seq<Id>, now: Millis, i: int)
    requires UniqueIds(clients)
    requires 0 <= i < |clients| && clients[i].nextFollowUpDate.None?
    ensures forall k :: 0 <= k < |Sweep(clients, stored, now).notices| ==>
      Sweep(clients, stored, now).notices[k].clientId != clients[i].id
    ensures clients[i].id !in Sweep(clients, stored, now).suspend
  {
  }

  /** Ids of clients that no longer exist are never pruned from the list. */
  lemma DeletedIdsStay(clients: seq<Client>, stored: seq<Id>, now: Millis, id: Id)
    requires id in stored && !HasId(clients, id)
    ensures id in Sweep(clients, stored, now).notified
  {
  }

  /** A client whose follow-up was moved into the future is dropped from the
      list, so the sweep that first finds it due again notifies once more. */
  lemma RescheduledRearms(clients: seq<Client>, stored: seq<Id>, now: Millis, later: Millis, i: int)
    requires 0 <= i < |clients| && Upcoming(clients[i], now)
    requires later >= clients[i].nextFollowUpDate.value
    ensures clients[i].id !in Sweep(clients, stored, now).notified
    ensures NoticeOf(clients[i]) in Sweep(clients, Sweep(clients, stored, now).notified, later).notices
  {
    var r := Sweep(clients, stored, now);
    assert IdUpcoming(clients, clients[i].id, now);
    assert NoticeDue(clients[i], r.notified, later);
  }

  /** `after` is `clients` with at most the statuses changed. */
  predicate OnlyStatusesChanged(clients: seq<Client>, after: seq<Client>) {
    |after| == |clients| && forall i :: 0 <= i < |clients| ==> after[i] == clients[i].(status := after[i].status)
  }

  /** The list a sweep writes already holds every client that is due. */
  lemma {:induction false} NoNoticeTwice(clients: seq<Client>, stored: seq<Id>, now: Millis, after: seq<Client>)
    requires UniqueIds(clients) && OnlyStatusesChanged(clients, after)
    ensures forall i :: 0 <= i < |after| ==> !NoticeDue(after[i], Sweep(clients, stored, now).notified, now)
  {
    var r := Sweep(clients, stored, now);
    forall i | 0 <= i < |after| ensures !NoticeDue(after[i], r.notified, now) {
      var c := clients[i];
      assert after[i].id == c.id && after[i].nextFollowUpDate == c.nextFollowUpDate;
      if c.nextFollowUpDate.Some? && now >= c.nextFollowUpDate.value {
        assert c.id in stored || IdOfDueClient(clients, stored, now, c.id);
        assert !IdUpcoming(clients, c.id, now) by {
          forall j | 0 <= j < |clients| && clients[j].id == c.id ensures !Upcoming(clients[j], now) {
            assert j == i;
          }
        }
      }
    }
  }

  /** After the sweep's suspensions no client is due for one. */
  lemma {:induction false} NoSuspensionTwice(clients: seq<Client>, stored: seq<Id>, now: Millis)
    ensures var after := ApplySuspensions(clients, Sweep(clients, stored, now).suspend);
      forall i :: 0 <= i < |after| ==> !SuspensionDue(after[i], now)
  {
    var r := Sweep(clients, stored, now);
    ApplySuspensionsEffect(clients, r.suspend);
  }

  /** The list a sweep writes holds no upcoming id, so the next sweep prunes nothing. */
  lemma {:induction false} NoPruneTwice(clients: seq<Client>, stored: seq<Id>, now: Millis, after: seq<Client>)
    requires OnlyStatusesChanged(clients, after)
    ensures var ids := Sweep(clients, stored, now).notified;
      Prune(ids, after, now) == ids
  {
    var ids := Sweep(clients, stored, now).notified;
    forall k | 0 <= k < |ids| ensures !IdUpcoming(after, ids[k], now) {
      assert ids[k] in ids;
      UpcomingUnchanged(clients, after, ids[k], now);
    }
    assert |Prune(ids, after, now)| == |ids|;
    Seqs.SubsequenceOfSameLength(Prune(ids, after, now), ids);
  }

  /** Changing statuses changes no follow-up date. */
  lemma UpcomingUnchanged(clients: seq<Client>, after: seq<Client>, id: Id, now: Millis)
    requires OnlyStatusesChanged(clients, after)
    ensures IdUpcoming(after, id, now) <==> IdUpcoming(clients, id, now)
  {
    if IdUpcoming(after, id, now) {
      var j :| 0 <= j < |after| && after[j].id == id && Upcoming(after[j], now);
      assert clients[j].id == id && Upcoming(clients[j], now);
    }
    if IdUpcoming(clients, id, now) {
      var j :| 0 <= j < |clients| && clients[j].id == id && Upcoming(clients[j], now);
      assert after[j].id == id && Upcoming(after[j], now);
    }
  }

  /** Running the sweep again at the same instant, on the list it wrote and the
      clients as its suspensions left them, notifies no one, suspends no one and
      writes nothing. */
  lemma {:induction false} SweepIdempotent(clients: seq<Client>, stored: seq<Id>, now: Millis)
    requires UniqueIds(clients)
    ensures var r := Sweep(clients, stored, now);
      var again := Sweep(ApplySuspensions(clients, r.suspend), r.notified, now);
      again.notices == [] && again.suspend == [] && !again.write && again.notified == r.notified
  {
    var r := Sweep(clients, stored, now);
    var after := ApplySuspensions(clients, r.suspend);
    ApplySuspensionsEffect(clients, r.suspend);
    assert OnlyStatusesChanged(clients, after);
    var again := Sweep(after, r.notified, now);
    NoNoticeTwice(clients, stored, now, after);
    NoSuspensionTwice(clients, stored, now);
    NoPruneTwice(clients, stored, now, after);
    assert again.notices == [];
    assert again.suspend == [];
    assert NotifiedNow(after, r.notified, now) == [];
    assert r.notified + [] == r.notified;
  }
}

=== FILE: multi_client_form.dfy ===
/** Bulk entry of pasted contacts (components/MultiClientForm.tsx): the parsed
    contacts are split into new ones and ones whose phone number an existing
    client already has; saving adds the new ones and, on request, overwrites
    the existing clients with the pasted data. */
module MultiClientForm {
  import opened Wrappers
  import opened Types
  import Seqs
  import ClientStore
  import TextParser

  type ParsedClient = TextParser.ParsedClient

  /** Some existing client has the (non-empty) phone number `phone`; the
      country code is not compared. */
  predicate PhoneExists(clients: seq<Client>, phone: string) {
    phone != "" && exists k :: 0 <= k < |clients| && clients[k].phoneNumber == phone
  }

  /** Some entry of `s` has phone number `phone`. */
  predicate HasPhone(s: seq<ParsedClient>, phone: string) {
    exists k :: 0 <= k < |s| && s[k].phoneNumber == phone
  }

  /** No phone number occurs twice in `s`. */
  predicate DistinctPhones(s: seq<ParsedClient>) {
    forall i, j :: 0 <= i < j < |s| ==> s[i].phoneNumber != s[j].phoneNumber
  }

  /** `parsed[i]` is the first entry with its phone number. */
  predicate FirstWithPhone(parsed: seq<ParsedClient>, i: int)
    requires 0 <= i < |parsed|
  {
    forall j :: 0 <= j < i ==> parsed[j].phoneNumber != parsed[i].phoneNumber
  }

  datatype Partition = Partition(duplicates: seq<ParsedClient>, nonDuplicates: seq<ParsedClient>)

  /** The contacts from `parsed` on, given the phones already processed in `seen`:
      entries without a phone or with a processed phone are skipped, the others
      go to the duplicates when an existing client has the phone and to the new
      contacts otherwise. */
  function PartitionFrom(clients: seq<Client>, parsed: seq<ParsedClient>, seen: set<string>): (r: Partition)
    ensures Seqs.IsSubsequence(r.duplicates, parsed) && Seqs.IsSubsequence(r.nonDuplicates, parsed)
    ensures forall i :: 0 <= i < |r.duplicates| ==>
      r.duplicates[i].phoneNumber !in seen && PhoneExists(clients, r.duplicates[i].phoneNumber)
    ensures forall i :: 0 <= i < |r.nonDuplicates| ==>
      && r.nonDuplicates[i].phoneNumber !in seen && r.nonDuplicates[i].phoneNumber != ""
      && !PhoneExists(clients, r.nonDuplicates[i].phoneNumber)
    ensures DistinctPhones(r.duplicates) && DistinctPhones(r.nonDuplicates)
    decreases |parsed|
  {
    if |parsed| == 0 then Partition([], [])
    else
      var pc := parsed[0];
      if pc.phoneNumber == "" || pc.phoneNumber in seen then
        PartitionFrom(clients, parsed[1..], seen)
      else
        var rest := PartitionFrom(clients, parsed[1..], seen + {pc.phoneNumber});
        if PhoneExists(clients, pc.phoneNumber) then
          assert ([pc] + rest.duplicates)[1..] == rest.duplicates;
          Partition([pc] + rest.duplicates, rest.nonDuplicates)
        else
          assert ([pc] + rest.nonDuplicates)[1..] == rest.nonDuplicates;
          Partition(rest.duplicates, [pc] + rest.nonDuplicates)
  }

  /** The `duplicates` / `nonDuplicates` split of the preview. */
  function PartitionParsed(clients: seq<Client>, parsed: seq<ParsedClient>): (r: Partition)
    ensures Seqs.IsSubsequence(r.duplicates, parsed) && Seqs.IsSubsequence(r.nonDuplicates, parsed)
    ensures forall i :: 0 <= i < |r.duplicates| ==> PhoneExists(clients, r.duplicates[i].phoneNumber)
    ensures forall i :: 0 <= i < |r.nonDuplicates| ==>
      r.nonDuplicates[i].phoneNumber != "" && !PhoneExists(clients, r.nonDuplicates[i].phoneNumber)
    ensures DistinctPhones(r.duplicates) && DistinctPhones(r.nonDuplicates)
  {
    PartitionFrom(clients, parsed, {})
  }

  /** Every first occurrence of a phone number not yet processed lands in
      the list its phone selects. */
  lemma {:induction false} FirstOccurrenceKept(clients: seq<Client>, parsed: seq<ParsedClient>,
                                               seen: set<string>, i: int)
    requires 0 <= i < |parsed|
    requires parsed[i].phoneNumber != "" && parsed[i].phoneNumber !in seen
    requires FirstWithPhone(parsed, i)
    ensures var r := PartitionFrom(clients, parsed, seen);
      if PhoneExists(clients, parsed[i].phoneNumber) then parsed[i] in r.duplicates
      else parsed[i] in r.nonDuplicates
    decreases |parsed|
  {
    if i > 0 {
      var pc := parsed[0];
      var seen' := if pc.phoneNumber == "" || pc.phoneNumber in seen then seen else seen + {pc.phoneNumber};
      assert parsed[1..][i - 1] == parsed[i];
      assert FirstWithPhone(parsed[1..], i - 1) by {
        forall j | 0 <= j < i - 1 ensures parsed[1..][j].phoneNumber != parsed[i].phoneNumber {
          assert parsed[1..][j] == parsed[j + 1];
        }
      }
      FirstOccurrenceKept(clients, parsed[1..], seen', i - 1);
    }
  }

  /** Each entry with a phone is represented by exactly one kept entry with
      that phone: its first occurrence, in the list the phone selects. */
  lemma PartitionComplete(clients: seq<Client>, parsed: seq<ParsedClient>, i: int)
    requires 0 <= i < |parsed| && parsed[i].phoneNumber != ""
    ensures var r := PartitionParsed(clients, parsed);
      && (PhoneExists(clients, parsed[i].phoneNumber) ==> HasPhone(r.duplicates, parsed[i].phoneNumber))
      && (!PhoneExists(clients, parsed[i].phoneNumber) ==> HasPhone(r.nonDuplicates, parsed[i].phoneNumber))
  {
    var first := FirstIndexOfPhone(parsed, i);
    FirstOccurrenceKept(clients, parsed, {}, first);
    var r := PartitionParsed(clients, parsed);
    if PhoneExists(clients, parsed[i].phoneNumber) {
      var k :| 0 <= k < |r.duplicates| && r.duplicates[k] == parsed[first];
    } else {
      var k :| 0 <= k < |r.nonDuplicates| && r.nonDuplicates[k] == parsed[first];
    }
  }

  /** The first position holding the phone number of `parsed[i]`. */
  function FirstIndexOfPhone(parsed: seq<ParsedClient>, i: int): (k: int)
    requires 0 <= i < |parsed|
    ensures 0 <= k <= i && parsed[k].phoneNumber == parsed[i].phoneNumber
    ensures FirstWithPhone(parsed, k)
  {
    Seqs.FindIndex(parsed, (c: ParsedClient) => c.phoneNumber == parsed[i].phoneNumber)
  }

  // ---------------------------------------------------------------------------
  // Saving
  // ---------------------------------------------------------------------------

  /** The `addClient` argument for a new contact. */
  function ToNewClientData(pc: ParsedClient): ClientStore.NewClientData {
    ClientStore.NewClientData(pc.companyName, pc.countryCode, pc.phoneNumber, pc.industry,
                              None, None, None, None, None)
  }

  /** The `updateClient` argument for an overwritten client: the parsed record
      spread over the client, so besides the contact fields it also resets
      the status to active, empties the budgets and clears the client type. */
  function OverwritePatch(pc: ParsedClient): (p: ClientStore.ClientPatch)
    ensures p.rating.None? && p.followUps.None? && p.quotes.None? && p.invoices.None? && p.notes.None?
    ensures p.whatsAppStatus.None? && p.nextFollowUpDate.None? && p.isPaused.None? && p.pausedTimeLeft.None?
  {
    ClientStore.NoChange.(
      companyName := Some(pc.companyName), countryCode := Some(pc.countryCode),
      phoneNumber := Some(pc.phoneNumber), industry := Some(pc.industry),
      status := Some(pc.status), budgets := Some(pc.budgets), clientType := Some(pc.clientType))
  }

  /** The new contacts added one after the other, with their new ids. */
  function AddAll(clients: seq<Client>, contacts: seq<ParsedClient>, ids: seq<Id>, noteIds: seq<Id>,
                  now: Millis): (r: seq<Client>)
    requires |ids| >= |contacts| && |noteIds| >= |contacts|
    ensures |r| == |clients| + |contacts|
    ensures r[..|clients|] == clients
    ensures forall k :: 0 <= k < |contacts| ==>
      r[|clients| + k] == ClientStore.NewClient(ToNewClientData(contacts[k]), ids[k], noteIds[k], now)
    decreases |contacts|
  {
    if |contacts| == 0 then clients
    else
      var next := ClientStore.AddClient(clients, ToNewClientData(contacts[0]), ids[0], noteIds[0], now);
      var r := AddAll(next, contacts[1..], ids[1..], noteIds[1..], now);
      assert r[..|clients|] == next[..|clients|];
      r
  }

  /** The index of the first existing client with phone `phone`, or -1
      (`clients.find(c => c.phoneNumber === phone)`). */
  function OwnerIndex(clients: seq<Client>, phone: string): (r: int)
    ensures -1 <= r < |clients|
    ensures r >= 0 ==> clients[r].phoneNumber == phone
    ensures r == -1 <==> forall k :: 0 <= k < |clients| ==> clients[k].phoneNumber != phone
  {
    Seqs.FindIndex(clients, (c: Client) => c.phoneNumber == phone)
  }

  /** Some duplicate finds, among `owners`, a client with id `id`. */
  predicate Targeted(owners: seq<Client>, dups: seq<ParsedClient>, id: Id) {
    exists m :: 0 <= m < |dups| && OwnerIndex(owners, dups[m].phoneNumber) >= 0
                && owners[OwnerIndex(owners, dups[m].phoneNumber)].id == id
  }

  /** The overwrites, one duplicate after the other: each updates the client
      (looked up among `owners`, the list before saving) with its phone. */
  function OverwriteAll(clients: seq<Client>, owners: seq<Client>, dups: seq<ParsedClient>)
    : (r: seq<Client>)
    ensures |r| == |clients| && Ids(r) == Ids(clients)
    ensures forall k :: 0 <= k < |clients| && !Targeted(owners, dups, clients[k].id) ==> r[k] == clients[k]
    ensures forall k :: 0 <= k < |clients| && Targeted(owners, dups, clients[k].id) ==>
      exists m :: 0 <= m < |dups| && r[k] == ClientStore.Apply(clients[k], OverwritePatch(dups[m]))
    decreases |dups|
  {
    if |dups| == 0 then clients
    else
      var i := OwnerIndex(owners, dups[0].phoneNumber);
      var next := if i >= 0 then ClientStore.UpdateClient(clients, owners[i].id, OverwritePatch(dups[0]))
                  else clients;
      var r := OverwriteAll(next, owners, dups[1..]);
      OverwriteStep(clients, owners, dups, next, r);
      r
  }

  /** The induction step of `OverwriteAll`, on its own. */
  lemma OverwriteStep(clients: seq<Client>, owners: seq<Client>, dups: seq<ParsedClient>,
                      next: seq<Client>, r: seq<Client>)
    requires |dups| > 0
    requires var i := OwnerIndex(owners, dups[0].phoneNumber);
      next == if i >= 0 then ClientStore.UpdateClient(clients, owners[i].id, OverwritePatch(dups[0])) else clients
    requires |r| == |next| && Ids(r) == Ids(next)
    requires forall k :: 0 <= k < |next| && !Targeted(owners, dups[1..], next[k].id) ==> r[k] == next[k]
    requires forall k :: 0 <= k < |next| && Targeted(owners, dups[1..], next[k].id) ==>
      exists m :: 0 <= m < |dups[1..]| && r[k] == ClientStore.Apply(next[k], OverwritePatch(dups[1..][m]))
    ensures |r| == |clients| && Ids(r) == Ids(clients)
    ensures forall k :: 0 <= k < |clients| && !Targeted(owners, dups, clients[k].id) ==> r[k] == clients[k]
    ensures forall k :: 0 <= k < |clients| && Targeted(owners, dups, clients[k].id) ==>
      exists m :: 0 <= m < |dups| && r[k] == ClientStore.Apply(clients[k], OverwritePatch(dups[m]))
  {
    var i := OwnerIndex(owners, dups[0].phoneNumber);
    forall k | 0 <= k < |clients|
      ensures !Targeted(owners, dups, clients[k].id) ==> r[k] == clients[k]
      ensures Targeted(owners, dups, clients[k].id) ==>
        exists m :: 0 <= m < |dups| && r[k] == ClientStore.Apply(clients[k], OverwritePatch(dups[m]))
    {
      assert next[k].id == clients[k].id;
      var hitNow := i >= 0 && owners[i].id == clients[k].id;
      if Targeted(owners, dups[1..], clients[k].id) {
        var m :| 0 <= m < |dups[1..]| && r[k] == ClientStore.Apply(next[k], OverwritePatch(dups[1..][m]));
        OverwriteAbsorbs(clients[k], dups[0], dups[m + 1]);
        assert r[k] == ClientStore.Apply(clients[k], OverwritePatch(dups[m + 1]));
        TargetedTail(owners, dups, clients[k].id);
      } else if hitNow {
        assert r[k] == ClientStore.Apply(clients[k], OverwritePatch(dups[0]));
        assert Targeted(owners, dups, clients[k].id) by {
          assert OwnerIndex(owners, dups[0].phoneNumber) >= 0;
        }
      } else {
        assert r[k] == clients[k];
        NotTargeted(owners, dups, clients[k].id);
      }
    }
  }

  /** A target of the later duplicates is a target of all of them. */
  lemma TargetedTail(owners: seq<Client>, dups: seq<ParsedClient>, id: Id)
    requires |dups| > 0 && Targeted(owners, dups[1..], id)
    ensures Targeted(owners, dups, id)
  {
    var m :| 0 <= m < |dups[1..]| && OwnerIndex(owners, dups[1..][m].phoneNumber) >= 0
             && owners[OwnerIndex(owners, dups[1..][m].phoneNumber)].id == id;
    assert dups[1..][m] == dups[m + 1];
  }

  /** A client missed by the first duplicate and by the later ones is not a target. */
  lemma NotTargeted(owners: seq<Client>, dups: seq<ParsedClient>, id: Id)
    requires |dups| > 0 && !Targeted(owners, dups[1..], id)
    requires var i := OwnerIndex(owners, dups[0].phoneNumber); !(i >= 0 && owners[i].id == id)
    ensures !Targeted(owners, dups, id)
  {
    forall m | 0 <= m < |dups|
      ensures !(OwnerIndex(owners, dups[m].phoneNumber) >= 0
                && owners[OwnerIndex(owners, dups[m].phoneNumber)].id == id)
    {
      if m > 0 {
        assert dups[1..][m - 1] == dups[m];
      }
    }
  }

  /** Overwriting twice is overwriting with the second contact: both writes
      cover the same fields. */
  lemma OverwriteAbsorbs(c: Client, first: ParsedClient, second: ParsedClient)
    ensures ClientStore.Apply(ClientStore.Apply(c, OverwritePatch(first)), OverwritePatch(second))
            == ClientStore.Apply(c, OverwritePatch(second))
  {
  }

  datatype SaveReport = SaveReport(clients: seq<Client>, added: nat, updated: nat)

  /** `handleSave`: every new contact is added, then, with `overwrite`, every
      duplicate overwrites the first client (of the list before saving) with
      its phone number; the report counts the new contacts and, with
      `overwrite`, all duplicates. */
  function Save(clients: seq<Client>, part: Partition, overwrite: bool,
                ids: seq<Id>, noteIds: seq<Id>, now: Millis): (r: SaveReport)
    requires |ids| >= |part.nonDuplicates| && |noteIds| >= |part.nonDuplicates|
    ensures r.added == |part.nonDuplicates|
    ensures r.updated == if overwrite then |part.duplicates| else 0
    ensures |r.clients| == |clients| + |part.nonDuplicates|
    ensures !overwrite ==> r.clients[..|clients|] == clients
    ensures forall k :: 0 <= k < |clients| && !Targeted(clients, part.duplicates, clients[k].id) ==>
      r.clients[k] == clients[k]
    ensures overwrite ==> forall k :: 0 <= k < |clients| && Targeted(clients, part.duplicates, clients[k].id) ==>
      exists m :: 0 <= m < |part.duplicates|
        && r.clients[k] == ClientStore.Apply(clients[k], OverwritePatch(part.duplicates[m]))
    ensures forall k :: 0 <= k < |part.nonDuplicates| && !Targeted(clients, part.duplicates, ids[k]) ==>
      r.clients[|clients| + k]
        == ClientStore.NewClient(ToNewClientData(part.nonDuplicates[k]), ids[k], noteIds[k], now)
  {
    var added := AddAll(clients, part.nonDuplicates, ids, noteIds, now);
    var after := if overwrite then OverwriteAll(added, clients, part.duplicates) else added;
    assert forall k :: 0 <= k < |clients| ==> added[k] == clients[k];
    SaveReport(after, |part.nonDuplicates|, if overwrite then |part.duplicates| else 0)
  }

  /** An overwritten client keeps its id, its history and its follow-up clock,
      but loses its budgets and its client type and becomes active again. */
  lemma OverwriteWipesBudgets(c: Client, pc: ParsedClient)
    requires TextParser.HasParsedDefaults(pc)
    ensures var r := ClientStore.Apply(c, OverwritePatch(pc));
      && r.id == c.id && r.followUps == c.followUps && r.notes == c.notes && r.rating == c.rating
      && r.nextFollowUpDate == c.nextFollowUpDate && r.isPaused == c.isPaused
      && r.budgets == [] && r.clientType == None && r.status == Active
      && r.phoneNumber == pc.phoneNumber && r.companyName == pc.companyName
  {
  }
}

=== FILE: new_budget.dfy ===
/** The rules of the budget editor (components/NewBudget.tsx): the line items,
    the client and product suggestions, the keyboard highlight, the price list
    a client's type selects, and the guard in front of saving a budget. */
module NewBudget {
  import opened Wrappers
  import opened Types
  import opened Text
  import Seqs
  import PriceLists
  import ClientStore

  // ---------------------------------------------------------------------------
  // Line items
  // ---------------------------------------------------------------------------

  /** Some row is for product `pid`. */
  predicate HasProduct(items: seq<BudgetItem>, pid: Id) {
    exists i :: 0 <= i < |items| && items[i].product.id == pid
  }

  /** No product has two rows. */
  predicate UniqueProducts(items: seq<BudgetItem>) {
    forall i, j :: 0 <= i < j < |items| ==> items[i].product.id != items[j].product.id
  }

  /** The quantity of product `pid` over all its rows. */
  function QuantityOf(items: seq<BudgetItem>, pid: Id): int
    decreases |items|
  {
    if |items| == 0 then 0
    else (if items[0].product.id == pid then items[0].quantity else 0) + QuantityOf(items[1..], pid)
  }

  /** Every row of product `pid` with its quantity raised by one. */
  function Bump(items: seq<BudgetItem>, pid: Id): (r: seq<BudgetItem>)
    ensures |r| == |items|
    ensures forall i :: 0 <= i < |items| ==> r[i].product == items[i].product
    ensures forall i :: 0 <= i < |items| ==>
      r[i].quantity == items[i].quantity + (if items[i].product.id == pid then 1 else 0)
  {
    Seqs.Map(items, (it: BudgetItem) =>
      if it.product.id == pid then it.(quantity := it.quantity + 1) else it)
  }

  /** `addProductToBudget`: one more of a product already listed, else a new row of one. */
  function AddProduct(items: seq<BudgetItem>, p: Product): (r: seq<BudgetItem>)
    ensures HasProduct(items, p.id) ==> |r| == |items|
    ensures !HasProduct(items, p.id) ==> r == items + [BudgetItem(p, 1)]
  {
    if Seqs.FindIndex(items, (it: BudgetItem) => it.product.id == p.id) >= 0 then Bump(items, p.id)
    else items + [BudgetItem(p, 1)]
  }

  /** `updateQuantity`: the rows of `pid` get `max(0, q)`; every row stays,
      including the ones left at zero. */
  function UpdateQuantity(items: seq<BudgetItem>, pid: Id, q: int): (r: seq<BudgetItem>)
    ensures |r| == |items|
    ensures forall i :: 0 <= i < |items| ==> r[i].product == items[i].product
    ensures forall i :: 0 <= i < |items| && items[i].product.id == pid ==>
      r[i].quantity >= 0 && (r[i].quantity == q || (q < 0 && r[i].quantity == 0))
    ensures forall i :: 0 <= i < |items| && items[i].product.id != pid ==> r[i] == items[i]
  {
    var clamped := if q < 0 then 0 else q;
    Seqs.Map(items, (it: BudgetItem) => if it.product.id == pid then it.(quantity := clamped) else it)
  }

  /** `removeItem`: the rows of other products, in order. */
  function RemoveItem(items: seq<BudgetItem>, pid: Id): (r: seq<BudgetItem>)
    ensures !HasProduct(r, pid)
    ensures forall i :: 0 <= i < |items| && items[i].product.id != pid ==> items[i] in r
    ensures Seqs.IsSubsequence(r, items)
  {
    Seqs.Filter(items, (it: BudgetItem) => it.product.id != pid)
  }

  /** Every row of another product is kept as often as it occurs; none of this product is. */
  lemma RemoveItemCount(items: seq<BudgetItem>, pid: Id)
    ensures forall it :: multiset(RemoveItem(items, pid))[it] == if it.product.id != pid then multiset(items)[it] else 0
  {
    Seqs.FilterMultiplicity(items, (it: BudgetItem) => it.product.id != pid);
  }

  lemma {:induction false} QuantityOfAppend(items: seq<BudgetItem>, it: BudgetItem, pid: Id)
    ensures QuantityOf(items + [it], pid)
            == QuantityOf(items, pid) + (if it.product.id == pid then it.quantity else 0)
    decreases |items|
  {
    if |items| > 0 {
      assert (items + [it])[1..] == items[1..] + [it];
      QuantityOfAppend(items[1..], it, pid);
    }
  }

  /** Without rows for `pid` its quantity is zero. */
  lemma {:induction false} QuantityOfAbsent(items: seq<BudgetItem>, pid: Id)
    requires !HasProduct(items, pid)
    ensures QuantityOf(items, pid) == 0
    decreases |items|
  {
    if |items| > 0 {
      assert !HasProduct(items[1..], pid) by {
        forall i | 0 <= i < |items| - 1 ensures items[1..][i].product.id != pid {
          assert items[1..][i] == items[i + 1];
        }
      }
      QuantityOfAbsent(items[1..], pid);
    }
  }

  /** Raising the row of a listed product raises its quantity by one and no other. */
  lemma {:induction false} BumpQuantity(items: seq<BudgetItem>, pid: Id, q: Id)
    requires UniqueProducts(items)
    ensures QuantityOf(Bump(items, pid), q)
            == QuantityOf(items, q) + (if q == pid && HasProduct(items, pid) then 1 else 0)
    decreases |items|
  {
    if |items| > 0 {
      var r := Bump(items, pid);
      assert r[1..] == Bump(items[1..], pid);
      BumpQuantity(items[1..], pid, q);
      if items[0].product.id == pid {
        assert !HasProduct(items[1..], pid) by {
          forall i | 0 <= i < |items| - 1 ensures items[1..][i].product.id != pid {
            assert items[1..][i] == items[i + 1];
          }
        }
      } else {
        assert HasProduct(items, pid) ==> HasProduct(items[1..], pid) by {
          if HasProduct(items, pid) {
            var i :| 0 <= i < |items| && items[i].product.id == pid;
            assert items[1..][i - 1] == items[i];
          }
        }
        assert HasProduct(items[1..], pid) ==> HasProduct(items, pid) by {
          if HasProduct(items[1..], pid) {
            var i :| 0 <= i < |items| - 1 && items[1..][i].product.id == pid;
            assert items[i + 1] == items[1..][i];
          }
        }
      }
    }
  }

  /** Adding a product raises its quantity by exactly one, leaves every other
      product's quantity alone, adds a row only for a product not yet listed,
      and keeps one row per product. */
  lemma {:induction false} AddProductEffect(items: seq<BudgetItem>, p: Product, q: Id)
    requires UniqueProducts(items)
    ensures QuantityOf(AddProduct(items, p), q)
            == QuantityOf(items, q) + (if q == p.id then 1 else 0)
    ensures |AddProduct(items, p)| == |items| + (if HasProduct(items, p.id) then 0 else 1)
    ensures UniqueProducts(AddProduct(items, p))
  {
    if HasProduct(items, p.id) {
      BumpQuantity(items, p.id, q);
    } else {
      QuantityOfAppend(items, BudgetItem(p, 1), q);
    }
  }

  /** Setting a quantity gives the product exactly `max(0, q)`, leaves the other
      products alone and keeps one row per product. */
  lemma {:induction false} UpdateQuantityEffect(items: seq<BudgetItem>, pid: Id, q: int, other: Id)
    requires UniqueProducts(items)
    requires HasProduct(items, pid)
    requires other != pid
    ensures QuantityOf(UpdateQuantity(items, pid, q), pid) == if q < 0 then 0 else q
    ensures QuantityOf(UpdateQuantity(items, pid, q), other) == QuantityOf(items, other)
    ensures UniqueProducts(UpdateQuantity(items, pid, q))
    decreases |items|
  {
    var r := UpdateQuantity(items, pid, q);
    assert r[1..] == UpdateQuantity(items[1..], pid, q);
    if items[0].product.id == pid {
      assert !HasProduct(items[1..], pid) by {
        forall i | 0 <= i < |items| - 1 ensures items[1..][i].product.id != pid {
          assert items[1..][i] == items[i + 1];
        }
      }
      SetQuantityElsewhere(items[1..], pid, q);
      QuantityOfAbsent(items[1..], pid);
    } else {
      var i :| 0 <= i < |items| && items[i].product.id == pid;
      assert items[1..][i - 1] == items[i];
      UpdateQuantityEffect(items[1..], pid, q, other);
    }
  }

  /** Where `pid` has no row, setting its quantity changes no product's quantity. */
  lemma SetQuantityElsewhere(items: seq<BudgetItem>, pid: Id, q: int)
    requires !HasProduct(items, pid)
    ensures UpdateQuantity(items, pid, q) == items
  {
    var r := UpdateQuantity(items, pid, q);
    assert forall i :: 0 <= i < |items| ==> r[i] == items[i];
  }

  /** Removing a product's row leaves it with no quantity and the others untouched. */
  lemma {:induction false} RemoveItemQuantity(items: seq<BudgetItem>, pid: Id, q: Id)
    ensures QuantityOf(RemoveItem(items, pid), q) == if q == pid then 0 else QuantityOf(items, q)
    decreases |items|
  {
    if |items| > 0 {
      var rest := RemoveItem(items[1..], pid);
      RemoveItemQuantity(items[1..], pid, q);
      if items[0].product.id != pid {
        assert RemoveItem(items, pid) == [items[0]] + rest;
        assert ([items[0]] + rest)[1..] == rest;
      } else {
        assert RemoveItem(items, pid) == rest;
      }
    }
  }

  /** Removing a row keeps one row per product. */
  lemma {:induction false} RemoveItemUnique(items: seq<BudgetItem>, pid: Id)
    requires UniqueProducts(items)
    ensures UniqueProducts(RemoveItem(items, pid))
  {
    var r := RemoveItem(items, pid);
    forall i, j | 0 <= i < j < |r| ensures r[i].product.id != r[j].product.id {
      SubsequenceIndices(r, items, i, j);
    }
  }

  /** Two positions of a subsequence come from two positions of the sequence, in the same order. */
  lemma {:induction false} SubsequenceIndices(a: seq<BudgetItem>, b: seq<BudgetItem>, i: int, j: int)
    requires Seqs.IsSubsequence(a, b)
    requires 0 <= i < j < |a|
    ensures exists k, l :: 0 <= k < l < |b| && b[k] == a[i] && b[l] == a[j]
    decreases |b|
  {
    if a[0] == b[0] && Seqs.IsSubsequence(a[1..], b[1..]) {
      if i == 0 {
        assert a[1..][j - 1] == a[j];
        assert exists l :: 0 <= l < |b[1..]| && b[1..][l] == a[j] by {
          SubsequenceElement(a[1..], b[1..], j - 1);
        }
        var l :| 0 <= l < |b[1..]| && b[1..][l] == a[j];
        assert b[l + 1] == a[j];
      } else {
        SubsequenceIndices(a[1..], b[1..], i - 1, j - 1);
        var k, l :| 0 <= k < l < |b[1..]| && b[1..][k] == a[1..][i - 1] && b[1..][l] == a[1..][j - 1];
        assert b[k + 1] == a[i] && b[l + 1] == a[j];
      }
    } else {
      SubsequenceIndices(a, b[1..], i, j);
      var k, l :| 0 <= k < l < |b[1..]| && b[1..][k] == a[i] && b[1..][l] == a[j];
      assert b[k + 1] == a[i] && b[l + 1] == a[j];
    }
  }

  /** Each element of a subsequence occurs in the sequence. */
  lemma {:induction false} SubsequenceElement(a: seq<BudgetItem>, b: seq<BudgetItem>, i: int)
    requires Seqs.IsSubsequence(a, b)
    requires 0 <= i < |a|
    ensures exists l :: 0 <= l < |b| && b[l] == a[i]
    decreases |b|
  {
    if a[0] == b[0] && Seqs.IsSubsequence(a[1..], b[1..]) {
      if i > 0 {
        SubsequenceElement(a[1..], b[1..], i - 1);
        var l :| 0 <= l < |b[1..]| && b[1..][l] == a[1..][i - 1];
        assert b[l + 1] == a[i];
      }
    } else {
      SubsequenceElement(a, b[1..], i);
      var l :| 0 <= l < |b[1..]| && b[1..][l] == a[i];
      assert b[l + 1] == a[i];
    }
  }

  // ---------------------------------------------------------------------------
  // Suggestions
  // ---------------------------------------------------------------------------

  /** At most this many clients are suggested. */
  const ClientSuggestionLimit: nat := 5

  /** At most this many products are suggested. */
  const ProductSuggestionLimit: nat := 10

  /** Case-insensitive substring test, `a.toLowerCase().includes(b.toLowerCase())`. */
  predicate ContainsIgnoringCase(a: string, b: string) {
    Contains(ToLower(a), ToLower(b))
  }

  predicate ClientMatches(c: Client, term: string) {
    ContainsIgnoringCase(c.companyName, term)
  }

  predicate ProductMatches(p: Product, term: string) {
    ContainsIgnoringCase(p.name, term) || ContainsIgnoringCase(p.code, term)
  }

  /** The clients whose name contains the term, every one of them, in list order. */
  function NameMatches(clients: seq<Client>, term: string): (r: seq<Client>)
    ensures Seqs.IsSubsequence(r, clients)
    ensures forall i :: 0 <= i < |r| ==> ClientMatches(r[i], term)
    ensures forall c :: multiset(r)[c] == if ClientMatches(c, term) then multiset(clients)[c] else 0
  {
    Seqs.FilterMultiplicity(clients, (c: Client) => ClientMatches(c, term));
    Seqs.Filter(clients, (c: Client) => ClientMatches(c, term))
  }

  /** The products whose name or code contains the term, every one of them, in list order. */
  function ProductMatchesOf(products: seq<Product>, term: string): (r: seq<Product>)
    ensures Seqs.IsSubsequence(r, products)
    ensures forall i :: 0 <= i < |r| ==> ProductMatches(r[i], term)
    ensures forall p :: multiset(r)[p] == if ProductMatches(p, term) then multiset(products)[p] else 0
  {
    Seqs.FilterMultiplicity(products, (p: Product) => ProductMatches(p, term));
    Seqs.Filter(products, (p: Product) => ProductMatches(p, term))
  }

  /** `clientSuggestions`: nothing for an empty term, else the clients whose
      name contains the term, in list order, cut at five. */
  function ClientSuggestions(clients: seq<Client>, term: string): (r: seq<Client>)
    ensures term == "" ==> r == []
    ensures |r| <= ClientSuggestionLimit
    ensures forall i :: 0 <= i < |r| ==> r[i] in clients && ClientMatches(r[i], term)
    ensures Seqs.IsSubsequence(r, clients)
    ensures term != "" && |r| < ClientSuggestionLimit ==>
      forall i :: 0 <= i < |clients| && ClientMatches(clients[i], term) ==> clients[i] in r
    ensures term != "" ==> var m := NameMatches(clients, term);
      |r| == (if |m| < ClientSuggestionLimit then |m| else ClientSuggestionLimit) && r == m[..|r|]
  {
    if term == "" then []
    else
      var matches := NameMatches(clients, term);
      assert forall i :: 0 <= i < |clients| && ClientMatches(clients[i], term) ==> clients[i] in matches by {
        forall i | 0 <= i < |clients| && ClientMatches(clients[i], term) ensures clients[i] in matches {
          assert clients[i] in multiset(clients);
        }
      }
      Seqs.SubsequenceTransitive(Seqs.Take(matches, ClientSuggestionLimit), matches, clients);
      Seqs.Take(matches, ClientSuggestionLimit)
  }

  /** `filteredProducts`: nothing for an empty term, else the products whose
      name or code contains the term, in list order, cut at ten. */
  function FilteredProducts(products: seq<Product>, term: string): (r: seq<Product>)
    ensures term == "" ==> r == []
    ensures |r| <= ProductSuggestionLimit
    ensures forall i :: 0 <= i < |r| ==> r[i] in products && ProductMatches(r[i], term)
    ensures Seqs.IsSubsequence(r, products)
    ensures term != "" && |r| < ProductSuggestionLimit ==>
      forall i :: 0 <= i < |products| && ProductMatches(products[i], term) ==> products[i] in r
    ensures term != "" ==> var m := ProductMatchesOf(products, term);
      |r| == (if |m| < ProductSuggestionLimit then |m| else ProductSuggestionLimit) && r == m[..|r|]
  {
    if term == "" then []
    else
      var matches := ProductMatchesOf(products, term);
      assert forall i :: 0 <= i < |products| && ProductMatches(products[i], term) ==> products[i] in matches by {
        forall i | 0 <= i < |products| && ProductMatches(products[i], term) ensures products[i] in matches {
          assert products[i] in multiset(products);
        }
      }
      Seqs.SubsequenceTransitive(Seqs.Take(matches, ProductSuggestionLimit), matches, products);
      Seqs.Take(matches, ProductSuggestionLimit)
  }

  /** Some client is named `name`, ignoring case. */
  predicate NameTaken(clients: seq<Client>, name: string) {
    exists i :: 0 <= i < |clients| && ToLower(clients[i].companyName) == ToLower(name)
  }

  /** `isNewClientEntry`: the trimmed term is not blank and names no client. */
  function IsNewClientEntry(clients: seq<Client>, term: string): (r: bool)
    ensures IsBlank(term) ==> !r
    ensures r <==> !IsBlank(term)
                   && forall i :: 0 <= i < |clients| ==> ToLower(clients[i].companyName) != ToLower(Trim(term))
  {
    Trim(term) != [] && !NameTaken(clients, Trim(term))
  }

  /** `handleSaveNewClient`: refused without a name or with a blank phone;
      otherwise the client is added with the trimmed phone and empty lists. */
  function SaveNewClient(clients: seq<Client>, name: Option<string>, countryCode: string,
                         phone: string, id: Id, noteId: Id, now: Millis): (r: Option<seq<Client>>)
    ensures r.None? <==> name.None? || name.value == "" || IsBlank(phone)
    ensures r.Some? ==> |r.value| == |clients| + 1 && r.value[..|clients|] == clients
    ensures r.Some? ==> var c := r.value[|clients|];
      c.id == id && c.companyName == name.value && c.countryCode == countryCode
      && c.phoneNumber == Trim(phone) && c.notes == [] && c.followUps == [] && c.rating == 0
  {
    if name.None? || name.value == "" || Trim(phone) == [] then None
    else
      Some(ClientStore.AddClient(clients,
        ClientStore.NewClientData(name.value, countryCode, Trim(phone), "",
          Some(0), Some([]), Some([]), Some([]), Some([])),
        id, noteId, now))
  }

  /** Once the entry the picker offered as new is saved, the same search
      term no longer counts as a new client. */
  lemma SavedEntryIsKnown(clients: seq<Client>, term: string, countryCode: string,
                          phone: string, id: Id, noteId: Id, now: Millis)
    requires IsNewClientEntry(clients, term)
    requires !IsBlank(phone)
    ensures var r := SaveNewClient(clients, Some(Trim(term)), countryCode, phone, id, noteId, now);
      r.Some? && !IsNewClientEntry(r.value, term)
  {
    var r := SaveNewClient(clients, Some(Trim(term)), countryCode, phone, id, noteId, now);
    assert r.value[|clients|].companyName == Trim(term);
  }

  // ---------------------------------------------------------------------------
  // Keyboard navigation of the client suggestions
  // ---------------------------------------------------------------------------

  /** JavaScript's `%` for a positive divisor: the remainder takes the sign of the dividend. */
  function JsRem(a: int, n: int): (r: int)
    requires n > 0
    ensures -n < r < n
    ensures a >= 0 ==> r >= 0
    ensures a < 0 ==> r <= 0
  {
    if a >= 0 then a % n else -((-a) % n)
  }

  /** The highlight after ArrowDown among `n` options. */
  function ArrowDownIndex(i: int, n: int): (r: int)
    requires n > 0
    requires -1 <= i < n
    ensures 0 <= r < n
    ensures r == if i == n - 1 then 0 else i + 1
  {
    ModStep(i + 1, n);
    JsRem(i + 1, n)
  }

  /** The highlight after ArrowUp among `n` options. */
  function ArrowUpIndex(i: int, n: int): (r: int)
    requires n > 0
    requires -1 <= i < n
    ensures 0 <= r < n
    ensures i >= 1 ==> r == i - 1
    ensures i == 0 ==> r == n - 1
    ensures i == -1 ==> r == if n == 1 then 0 else n - 2
  {
    if i - 1 + n < 0 then JsRem(i - 1 + n, n)
    else
      ModStep(i - 1 + n, n);
      JsRem(i - 1 + n, n)
  }

  /** The remainder of a number below twice the divisor. */
  lemma ModStep(x: int, n: int)
    requires 0 <= x < 2 * n
    ensures x % n == if x < n then x else x - n
  {
  }

  /** ArrowUp undoes ArrowDown and ArrowDown undoes ArrowUp on a highlighted option. */
  lemma ArrowsAreInverse(i: int, n: int)
    requires 0 <= i < n
    ensures ArrowUpIndex(ArrowDownIndex(i, n), n) == i
    ensures ArrowDownIndex(ArrowUpIndex(i, n), n) == i
  {
  }

  datatype Key = ArrowDown | ArrowUp | Enter | Escape | OtherKey

  /** What a key press in the client search box does. */
  datatype KeyEffect =
    | NoEffect
    | Highlight(index: int)
    | ChooseClient(client: Client)
    | StartNewClient(name: string)
    | HideSuggestions

  /** A key press among the options `suggestions`, followed by one "add"
      option named `name` when `offerNew` holds. */
  function OptionKeyDown(suggestions: seq<Client>, offerNew: bool, name: string, shown: bool,
                         highlighted: int, key: Key): (r: KeyEffect)
    requires -1 <= highlighted
    ensures var n := |suggestions| + (if offerNew then 1 else 0);
      && (!shown || n == 0 ==> r == NoEffect)
      && (r.Highlight? ==> highlighted < n ==> 0 <= r.index < n)
    ensures r.ChooseClient? ==> r.client in suggestions
    ensures r.StartNewClient? ==> offerNew && r.name == name
    ensures var n := |suggestions| + (if offerNew then 1 else 0);
      shown && n > 0 ==>
        && (key == ArrowDown && highlighted < n ==> r == Highlight(ArrowDownIndex(highlighted, n)))
        && (key == ArrowUp && highlighted < n ==> r == Highlight(ArrowUpIndex(highlighted, n)))
        && (key == Enter && 0 <= highlighted < |suggestions| ==> r == ChooseClient(suggestions[highlighted]))
        && (key == Enter && highlighted == |suggestions| ==>
              r == if offerNew then StartNewClient(name) else NoEffect)
        && (key == Enter && (highlighted < 0 || highlighted > |suggestions|) ==> r == NoEffect)
        && (key == Escape ==> r == HideSuggestions)
        && (key == OtherKey ==> r == NoEffect)
  {
    var n := |suggestions| + (if offerNew then 1 else 0);
    if !shown || n == 0 then NoEffect
    else match key
      case ArrowDown => Highlight(JsRem(highlighted + 1, n))
      case ArrowUp => Highlight(JsRem(highlighted - 1 + n, n))
      case Enter =>
        if 0 <= highlighted < |suggestions| then ChooseClient(suggestions[highlighted])
        else if offerNew && highlighted == |suggestions| then StartNewClient(name)
        else NoEffect
      case Escape => HideSuggestions
      case OtherKey => NoEffect
  }

  /** `handleClientKeyDown`: the options are the suggestions plus, for a new
      entry, one "add" option after them. */
  function ClientKeyDown(clients: seq<Client>, term: string, shown: bool, highlighted: int, key: Key)
    : (r: KeyEffect)
    requires -1 <= highlighted
    ensures var n := |ClientSuggestions(clients, term)| + (if IsNewClientEntry(clients, term) then 1 else 0);
      && (!shown || n == 0 ==> r == NoEffect)
      && (r.Highlight? ==> highlighted < n ==> 0 <= r.index < n)
    ensures r.ChooseClient? ==> r.client in ClientSuggestions(clients, term)
    ensures r.StartNewClient? ==> IsNewClientEntry(clients, term) && r.name == Trim(term)
    ensures var s := ClientSuggestions(clients, term);
      var n := |s| + (if IsNewClientEntry(clients, term) then 1 else 0);
      shown && n > 0 ==>
        && (key == ArrowDown && highlighted < n ==> r == Highlight(ArrowDownIndex(highlighted, n)))
        && (key == ArrowUp && highlighted < n ==> r == Highlight(ArrowUpIndex(highlighted, n)))
        && (key == Enter && 0 <= highlighted < |s| ==> r == ChooseClient(s[highlighted]))
        && (key == Enter && highlighted == |s| ==>
              r == if IsNewClientEntry(clients, term) then StartNewClient(Trim(term)) else NoEffect)
        && (key == Enter && (highlighted < 0 || highlighted > |s|) ==> r == NoEffect)
        && (key == Escape ==> r == HideSuggestions)
        && (key == OtherKey ==> r == NoEffect)
  {
    OptionKeyDown(ClientSuggestions(clients, term), IsNewClientEntry(clients, term), Trim(term),
                  shown, highlighted, key)
  }

  // ---------------------------------------------------------------------------
  // Price list of the selected client
  // ---------------------------------------------------------------------------

  /** The price list a client type suggests. */
  function TypeMap(t: ClientType): PriceListType {
    match t
    case A => Distributor
    case B => Company
    case C => Consumer
    case D => Cost
  }

  /** The mapping is one to one and onto: each price-list type is suggested by exactly one client type. */
  lemma TypeMapBijective(t: ClientType, u: ClientType, l: PriceListType)
    ensures TypeMap(t) == TypeMap(u) ==> t == u
    ensures exists v :: TypeMap(v) == l
  {
    match l
    case Distributor => assert TypeMap(A) == l;
    case Company => assert TypeMap(B) == l;
    case Consumer => assert TypeMap(C) == l;
    case Cost => assert TypeMap(D) == l;
  }

  /** The effect on the selected list type when the selected client or the
      lists change (None stands for the empty selection ''). */
  function ListTypeAfterChange(selected: Option<Client>, lists: seq<PriceList>,
                               current: Option<PriceListType>): (r: Option<PriceListType>)
    ensures selected.None? ==> r == None
    ensures selected.Some? && selected.value.clientType.Some? ==>
      (r.Some? <==> PriceLists.HasType(lists, TypeMap(selected.value.clientType.value)))
      && (r.Some? ==> r.value == TypeMap(selected.value.clientType.value))
    ensures selected.Some? && selected.value.clientType.None? ==> r == current
  {
    if selected.Some? && selected.value.clientType.Some? then
      var t := TypeMap(selected.value.clientType.value);
      if PriceLists.GetListByType(lists, t).Some? then Some(t) else None
    else if selected.None? then None
    else current
  }

  /** `productList`: the products of the selected list, or none. */
  function ProductList(selected: Option<PriceListType>, lists: seq<PriceList>): (r: seq<Product>)
    ensures selected.None? ==> r == []
    ensures selected.Some? && !PriceLists.HasType(lists, selected.value) ==> r == []
    ensures selected.Some? && PriceLists.HasType(lists, selected.value) ==>
      exists i :: 0 <= i < |lists| && lists[i].listType == selected.value && r == lists[i].products
                  && forall j :: 0 <= j < i ==> lists[j].listType != selected.value
  {
    if selected.None? then []
    else match PriceLists.GetListByType(lists, selected.value)
      case None => []
      case Some(l) => l.products
  }

  /** Selecting a typed client whose list was uploaded offers exactly that
      list's products; with no such list nothing is offered. */
  lemma TypedClientGetsItsList(c: Client, lists: seq<PriceList>, current: Option<PriceListType>)
    requires c.clientType.Some?
    ensures var t := TypeMap(c.clientType.value);
      var shown := ProductList(ListTypeAfterChange(Some(c), lists, current), lists);
      && (PriceLists.HasType(lists, t) ==> shown == PriceLists.GetListByType(lists, t).value.products)
      && (!PriceLists.HasType(lists, t) ==> shown == [])
  {
  }

  // ---------------------------------------------------------------------------
  // Finishing a budget
  // ---------------------------------------------------------------------------

  datatype FinishOutcome =
    | MissingInput                       // no client selected or no items: the user is alerted
    | ClientGone                         // the selected id names no client: nothing happens
    | Saved(clientId: Id, budget: Budget)

  /** `handleFinishBudget`: the budget passed to `onSaveBudget`. Its id is left
      empty; the store assigns one. Subtotal and total are supplied by the
      caller, since they are floating-point arithmetic. */
  function FinishBudget(clients: seq<Client>, selectedClientId: Id, items: seq<BudgetItem>,
                        discount: real, subtotal: real, total: real, now: Millis): (r: FinishOutcome)
    ensures r == MissingInput <==> selectedClientId == "" || items == []
    ensures r == ClientGone <==> selectedClientId != "" && items != [] && !HasId(clients, selectedClientId)
    ensures r.Saved? ==>
      && r.clientId == selectedClientId && r.budget.clientId == selectedClientId
      && r.budget.items == items && r.budget.date == now && r.budget.discount == discount
      && (exists i :: 0 <= i < |clients| && clients[i].id == selectedClientId
                      && r.budget.clientName == clients[i].companyName)
  {
    if selectedClientId == "" || items == [] then MissingInput
    else
      var i := Seqs.FindIndex(clients, (c: Client) => c.id == selectedClientId);
      if i < 0 then ClientGone
      else Saved(selectedClientId, Budget("", selectedClientId, clients[i].companyName, now,
                                          items, discount, subtotal, total))
  }

  /** A finished budget, once stored, is the last budget of its client, with
      the editor's items and a "budget-" id. */
  lemma FinishedBudgetIsStored(clients: seq<Client>, selectedClientId: Id, items: seq<BudgetItem>,
                               discount: real, subtotal: real, total: real, now: Millis, uuid: string)
    requires FinishBudget(clients, selectedClientId, items, discount, subtotal, total, now).Saved?
    ensures var f := FinishBudget(clients, selectedClientId, items, discount, subtotal, total, now);
      var after := ClientStore.AddBudgetToClient(clients, f.clientId, f.budget, uuid);
      forall i :: 0 <= i < |clients| && clients[i].id == selectedClientId ==>
        && |after[i].budgets| == |clients[i].budgets| + 1
        && after[i].budgets[|clients[i].budgets|].items == items
        && after[i].budgets[|clients[i].budgets|].id == ClientStore.BudgetIdPrefix + uuid
  {
  }
}

=== FILE: price_list_parser.dfy ===
/** The CSV/TXT price-list reader (utils/priceListParser.ts): the separator
    is guessed from the header line, the code, name and price columns are
    found by their header names, and each following line that has a price,
    a name and a code becomes a product whose id is its code. */
module PriceListParser {
  import opened Wrappers
  import opened Types
  import opened Text
  import Seqs

  /** Header names accepted for each required column. */
  const PriceHeaders: seq<string> := ["precio", "price", "valor", "value"]
  const NameHeaders: seq<string> := ["nombre", "name", "producto", "product", "descripción", "description"]
  const CodeHeaders: seq<string> := ["código", "codigo", "code", "sku", "id"]

  /** The separators tried, in their tie-breaking order. */
  const Separators: seq<char> := [',', ';', '\t']

  /** What `String(undefined)` gives for a cell beyond the end of a row. */
  const UndefinedCell: string := "undefined"

  /** A header cell names one of `names` once lower-cased and trimmed. */
  predicate IsAlias(header: string, names: seq<string>) {
    Trim(ToLower(header)) in names
  }

  /** `findColumnIndex`: the first header that is one of the names, or -1. */
  function FindColumnIndex(headers: seq<string>, names: seq<string>): (r: int)
    ensures -1 <= r < |headers|
    ensures r == -1 <==> forall i :: 0 <= i < |headers| ==> !IsAlias(headers[i], names)
    ensures r >= 0 ==> IsAlias(headers[r], names) && forall i :: 0 <= i < r ==> !IsAlias(headers[i], names)
  {
    Seqs.FindIndex(headers, (h: string) => IsAlias(h, names))
  }

  /** The number of fields the header line has when split at `sep`. */
  function FieldCount(header: string, sep: char): nat {
    |Split(header, sep)|
  }

  /** The separator a stable descending sort by field count puts first: the
      one giving the most fields, the earlier in `Separators` on a tie. */
  function ChooseSeparator(header: string): (r: char)
    ensures r in Separators
    ensures forall s :: s in Separators ==> FieldCount(header, s) <= FieldCount(header, r)
    ensures r == ';' ==> FieldCount(header, ',') < FieldCount(header, ';')
    ensures r == '\t' ==> FieldCount(header, ',') < FieldCount(header, '\t')
                          && FieldCount(header, ';') < FieldCount(header, '\t')
  {
    var c, s, t := FieldCount(header, ','), FieldCount(header, ';'), FieldCount(header, '\t');
    if c >= s && c >= t then ','
    else if s >= t then ';'
    else '\t'
  }

  /** `values[k]` as a string, with "undefined" past the end of the row. */
  function Cell(values: seq<string>, k: nat): (r: string)
    ensures k < |values| ==> r == values[k]
    ensures k >= |values| ==> r == UndefinedCell
  {
    if k < |values| then values[k] else UndefinedCell
  }

  /** The first occurrence of `from` replaced by `to` (`s.replace(from, to)` with a string pattern). */
  function ReplaceFirst(s: string, from: char, to: char): (r: string)
    ensures |r| == |s|
    ensures from !in s ==> r == s
    ensures from in s ==> exists k :: 0 <= k < |s| && s[k] == from && from !in s[..k]
                                      && r == s[..k] + [to] + s[k + 1..]
    ensures from in s ==> multiset(r) == multiset(s) - multiset{from} + multiset{to}
    ensures forall i :: 0 <= i < |r| && r[i] == from && from != to ==> to in r[..i]
  {
    var k := IndexOf(s, from);
    if k < 0 then s
    else
      var r := s[..k] + [to] + s[k + 1..];
      ReplaceAtCounts(s, k, to);
      ReplaceAtOrder(s, k, to);
      assert s[k] == from && from !in s[..k] && |r| == |s|;
      r
  }

  /** Putting `to` in place of the character at `k` trades one for the other. */
  lemma ReplaceAtCounts(s: string, k: nat, to: char)
    requires k < |s|
    ensures multiset(s[..k] + [to] + s[k + 1..]) == multiset(s) - multiset{s[k]} + multiset{to}
  {
    assert s == s[..k] + [s[k]] + s[k + 1..];
  }

  /** After replacing the first `from` at `k`, any `from` left comes after the `to` at `k`. */
  lemma ReplaceAtOrder(s: string, k: nat, to: char)
    requires k < |s| && s[k] !in s[..k]
    ensures var r := s[..k] + [to] + s[k + 1..];
      forall i :: 0 <= i < |r| && r[i] == s[k] && s[k] != to ==> to in r[..i]
  {
    var r := s[..k] + [to] + s[k + 1..];
    forall i | 0 <= i < |r| && r[i] == s[k] && s[k] != to ensures to in r[..i] {
      if k < i {
        assert r[..i][k] == to;
      }
    }
  }

  /** A character `[0-9.,]` keeps. */
  predicate PriceChar(c: char) {
    IsDigit(c) || c == '.' || c == ','
  }

  /** The text handed to `parseFloat`: digits, dots and commas only, the
      first comma turned into a dot. */
  function CleanPrice(cell: string): (r: string)
    ensures forall i :: 0 <= i < |r| ==> PriceChar(r[i])
    ensures forall i :: 0 <= i < |r| && r[i] == ',' ==> '.' in r[..i]
    ensures exists kept :: PriceCharsOf(kept, cell) && r == ReplaceFirst(kept, ',', '.')
  {
    var kept := Seqs.Filter(cell, PriceChar);
    FilteredPriceChars(cell);
    ReplaceKeepsPriceChars(kept);
    ReplaceFirst(kept, ',', '.')
  }

  /** `kept` is the cell's digits, dots and commas: taken in the cell's order,
      each as often as it occurs there, and nothing else. */
  predicate PriceCharsOf(kept: string, cell: string) {
    && Seqs.IsSubsequence(kept, cell)
    && forall c :: multiset(kept)[c] == if PriceChar(c) then multiset(cell)[c] else 0
  }

  /** Filtering the cell gives its price characters. */
  lemma FilteredPriceChars(cell: string)
    ensures PriceCharsOf(Seqs.Filter(cell, PriceChar), cell)
  {
    Seqs.FilterMultiplicity(cell, PriceChar);
  }

  /** Turning a comma into a dot keeps a text of price characters one. */
  lemma ReplaceKeepsPriceChars(kept: string)
    requires forall i :: 0 <= i < |kept| ==> PriceChar(kept[i])
    ensures var r := ReplaceFirst(kept, ',', '.'); forall i :: 0 <= i < |r| ==> PriceChar(r[i])
  {
    if ',' in kept {
      var k := IndexOf(kept, ',');
      assert ReplaceFirst(kept, ',', '.') == kept[..k] + ['.'] + kept[k + 1..];
    }
  }

  /** The kept characters are determined: any subsequence of the cell holding
      exactly its digits, dots and commas, as often as they occur, is the one
      the cleaned price is made from, so the characters keep the cell's order. */
  lemma CleanPricePinned(cell: string, kept: string)
    requires PriceCharsOf(kept, cell)
    ensures CleanPrice(cell) == ReplaceFirst(kept, ',', '.')
  {
    Seqs.FilterUnique(kept, cell, PriceChar);
  }

  /** The cleaned price holds every digit, dot and comma of the cell, as often
      as each occurs and nothing else, except that one comma, when there is
      one, has become a dot. */
  lemma CleanPriceContents(cell: string)
    ensures var r := CleanPrice(cell);
      && (forall c :: IsDigit(c) ==> multiset(r)[c] == multiset(cell)[c])
      && multiset(r)[','] == (if ',' in cell then multiset(cell)[','] - 1 else 0)
      && multiset(r)['.'] == multiset(cell)['.'] + (if ',' in cell then 1 else 0)
      && |r| == multiset(cell)['.'] + multiset(cell)[','] + |Seqs.Filter(cell, IsDigit)|
  {
    CommaCount(cell);
    DotCount(cell);
    DigitCounts(cell);
    PriceLength(cell);
  }

  /** A comma fewer in the cleaned price when the cell has one: the first became a dot. */
  lemma CommaCount(cell: string)
    ensures var r := ReplaceFirst(Seqs.Filter(cell, PriceChar), ',', '.');
      multiset(r)[','] == (if ',' in cell then multiset(cell)[','] - 1 else 0)
  {
    var kept := Seqs.Filter(cell, PriceChar);
    Seqs.FilterMultiplicity(cell, PriceChar);
    var r := ReplaceFirst(kept, ',', '.');
    assert multiset(kept)[','] == multiset(cell)[','];
  }

  /** The cell's dots all survive, plus the one a comma became. */
  lemma DotCount(cell: string)
    ensures var r := ReplaceFirst(Seqs.Filter(cell, PriceChar), ',', '.');
      multiset(r)['.'] == multiset(cell)['.'] + (if ',' in cell then 1 else 0)
  {
    var kept := Seqs.Filter(cell, PriceChar);
    Seqs.FilterMultiplicity(cell, PriceChar);
    assert multiset(kept)[','] == multiset(cell)[','];
    assert multiset(kept)['.'] == multiset(cell)['.'];
  }

  /** Every digit of the cell survives, as often as it occurs. */
  lemma DigitCounts(cell: string)
    ensures var r := ReplaceFirst(Seqs.Filter(cell, PriceChar), ',', '.');
      forall c :: IsDigit(c) ==> multiset(r)[c] == multiset(cell)[c]
  {
    var kept := Seqs.Filter(cell, PriceChar);
    Seqs.FilterMultiplicity(cell, PriceChar);
  }

  /** A price cell keeps its dots, commas and digits and nothing else. */
  lemma {:induction false} PriceLength(cell: string)
    ensures |Seqs.Filter(cell, PriceChar)| == multiset(cell)['.'] + multiset(cell)[','] + |Seqs.Filter(cell, IsDigit)|
    decreases |cell|
  {
    if |cell| > 0 {
      PriceLength(cell[1..]);
      assert cell == [cell[0]] + cell[1..];
      assert multiset(cell) == multiset{cell[0]} + multiset(cell[1..]);
    }
  }

  /** The product a data line yields, if its price parses and its name and
      code are non-empty. Cells are taken as they are, untrimmed. */
  function RowProduct(line: string, sep: char, priceIndex: nat, nameIndex: nat, codeIndex: nat,
                      parseFloat: string -> Option<real>): (r: Option<Product>)
    ensures r.Some? ==> r.value.id == r.value.code && r.value.name != "" && r.value.code != ""
  {
    var values := Split(line, sep);
    var price := parseFloat(CleanPrice(Cell(values, priceIndex)));
    var name := Cell(values, nameIndex);
    var code := Cell(values, codeIndex);
    if price.Some? && name != "" && code != "" then Some(Product(code, name, code, price.value))
    else None
  }

  /** A line is kept exactly when its price cell parses and its name and code
      cells are non-empty, and the product carries those cells. */
  lemma RowKept(line: string, sep: char, priceIndex: nat, nameIndex: nat, codeIndex: nat,
                parseFloat: string -> Option<real>)
    ensures var values := Split(line, sep);
      var r := RowProduct(line, sep, priceIndex, nameIndex, codeIndex, parseFloat);
      var price := parseFloat(CleanPrice(Cell(values, priceIndex)));
      (r.Some? <==> price.Some? && Cell(values, nameIndex) != "" && Cell(values, codeIndex) != "")
      && (r.Some? ==> r.value == Product(Cell(values, codeIndex), Cell(values, nameIndex),
                                         Cell(values, codeIndex), price.value))
  {
  }

  datatype ParseError = MissingColumns

  /** The positions of the price, name and code columns. */
  datatype Columns = Columns(price: nat, name: nat, code: nat)

  /** The trimmed header cells of the header line. */
  function Headers(headerLine: string): seq<string> {
    Seqs.Map(Split(headerLine, ChooseSeparator(headerLine)), Trim)
  }

  /** Some header cell is one of `names`. */
  predicate HasColumn(headers: seq<string>, names: seq<string>) {
    exists i :: 0 <= i < |headers| && IsAlias(headers[i], names)
  }

  /** The three required columns of a header line (each the first header
      cell naming it), or None when one is missing. */
  function ColumnsOf(headerLine: string): (r: Option<Columns>)
    ensures var headers := Headers(headerLine);
      r.None? <==> !HasColumn(headers, PriceHeaders) || !HasColumn(headers, NameHeaders)
                   || !HasColumn(headers, CodeHeaders)
    ensures r.Some? ==> var headers := Headers(headerLine);
      r.value.price < |headers| && IsAlias(headers[r.value.price], PriceHeaders)
      && r.value.name < |headers| && IsAlias(headers[r.value.name], NameHeaders)
      && r.value.code < |headers| && IsAlias(headers[r.value.code], CodeHeaders)
    ensures r.Some? ==> var headers := Headers(headerLine);
      && (forall i :: 0 <= i < r.value.price ==> !IsAlias(headers[i], PriceHeaders))
      && (forall i :: 0 <= i < r.value.name ==> !IsAlias(headers[i], NameHeaders))
      && (forall i :: 0 <= i < r.value.code ==> !IsAlias(headers[i], CodeHeaders))
  {
    var headers := Headers(headerLine);
    var p, n, c := FindColumnIndex(headers, PriceHeaders), FindColumnIndex(headers, NameHeaders),
                   FindColumnIndex(headers, CodeHeaders);
    if p == -1 || n == -1 || c == -1 then
      None
    else
      Some(Columns(p, n, c))
  }

  /** The product a data line yields under the given columns. */
  function RowParser(sep: char, cols: Columns, parseFloat: string -> Option<real>): string -> Option<Product> {
    (line: string) => RowProduct(line, sep, cols.price, cols.name, cols.code, parseFloat)
  }

  /** The products of the data lines, in order. */
  function DataRows(lines: seq<string>, sep: char, cols: Columns, parseFloat: string -> Option<real>): (r: seq<Product>)
    ensures |r| <= |lines|
    ensures forall p :: p in r ==> p.id == p.code && p.name != "" && p.code != ""
  {
    Seqs.Collect(lines, RowParser(sep, cols, parseFloat))
  }

  /** The parse of the already split lines: no products for fewer than two
      lines, an error when a required column is missing from the first, else
      the products of the others in order. */
  function ParseLines(lines: seq<string>, parseFloat: string -> Option<real>): (r: Result<seq<Product>, ParseError>)
    ensures |lines| < 2 ==> r == Success([])
    ensures r.Failure? <==> |lines| >= 2 && ColumnsOf(lines[0]).None?
    ensures r.Success? ==> |r.value| <= |lines| - 1 || r.value == []
    ensures r.Success? ==> forall p :: p in r.value ==> p.id == p.code && p.name != "" && p.code != ""
  {
    if |lines| < 2 then
      Success([])
    else
      match ColumnsOf(lines[0])
      case None => Failure(MissingColumns)
      case Some(cols) => Success(DataRows(lines[1..], ChooseSeparator(lines[0]), cols, parseFloat))
  }

  /** The products of the data lines keep the lines' order: a further line
      adds its own product, if any, at the end. */
  lemma DataRowsAppend(lines: seq<string>, line: string, sep: char, cols: Columns,
                       parseFloat: string -> Option<real>)
    ensures var row := RowParser(sep, cols, parseFloat)(line);
      DataRows(lines + [line], sep, cols, parseFloat)
      == DataRows(lines, sep, cols, parseFloat) + (if row.Some? then [row.value] else [])
  {
    var f := RowParser(sep, cols, parseFloat);
    Seqs.CollectConcat(lines, [line], f);
    Seqs.CollectSingle(line, f);
  }

  /** Under a header line naming all three columns, a further data line adds
      its product, if any, after those of the earlier lines. */
  lemma ParseLinesAppendRow(lines: seq<string>, line: string, parseFloat: string -> Option<real>)
    requires |lines| >= 1 && ColumnsOf(lines[0]).Some?
    ensures ParseLines(lines, parseFloat).Success? && ParseLines(lines + [line], parseFloat).Success?
    ensures var row := RowParser(ChooseSeparator(lines[0]), ColumnsOf(lines[0]).value, parseFloat)(line);
      ParseLines(lines + [line], parseFloat).value
      == ParseLines(lines, parseFloat).value + (if row.Some? then [row.value] else [])
  {
    var sep, cols := ChooseSeparator(lines[0]), ColumnsOf(lines[0]).value;
    var all := lines + [line];
    AppendedTail(lines, line);
    assert ParseLines(all, parseFloat) == Success(DataRows(all[1..], sep, cols, parseFloat));
    DataRowsAppend(lines[1..], line, sep, cols, parseFloat);
    if |lines| == 1 {
      assert DataRows(lines[1..], sep, cols, parseFloat) == [];
    } else {
      assert ParseLines(lines, parseFloat) == Success(DataRows(lines[1..], sep, cols, parseFloat));
    }
  }

  /** The lines after the header, once one more line is appended. */
  lemma AppendedTail(lines: seq<string>, line: string)
    requires |lines| >= 1
    ensures (lines + [line])[0] == lines[0] && (lines + [line])[1..] == lines[1..] + [line]
  {
  }

  /** `parseCSV_TXT`, with `parseFloat` supplied by the caller: the trimmed
      text is cut into lines (a "\r" before each line break dropped) and parsed. */
  function ParseCsvTxt(text: string, parseFloat: string -> Option<real>): (r: Result<seq<Product>, ParseError>)
    ensures IsBlank(text) ==> r == Success([])
    ensures '\n' !in Trim(text) ==> r == Success([])
  {
    Text.SplitCount(Trim(text), '\n');
    ParseLines(SplitLines(Trim(text)), parseFloat)
  }

  /** The products a successful parse returns are those of its data lines. */
  lemma {:induction false} SuccessIsDataRows(lines: seq<string>, parseFloat: string -> Option<real>)
    requires ParseLines(lines, parseFloat).Success?
    requires |lines| >= 2
    ensures ColumnsOf(lines[0]).Some?
    ensures ParseLines(lines, parseFloat).value
            == DataRows(lines[1..], ChooseSeparator(lines[0]), ColumnsOf(lines[0]).value, parseFloat)
  {
  }

  /** Each data line whose price parses and whose name and code are present
      gives its product, and every product comes from such a line. */
  lemma {:induction false} ProductsComeFromRows(lines: seq<string>, parseFloat: string -> Option<real>)
    requires ParseLines(lines, parseFloat).Success?
    requires |lines| >= 2
    ensures ColumnsOf(lines[0]).Some?
    ensures var row := RowParser(ChooseSeparator(lines[0]), ColumnsOf(lines[0]).value, parseFloat);
      forall i :: 1 <= i < |lines| && row(lines[i]).Some? ==> row(lines[i]).value in ParseLines(lines, parseFloat).value
    ensures var row := RowParser(ChooseSeparator(lines[0]), ColumnsOf(lines[0]).value, parseFloat);
      forall p :: p in ParseLines(lines, parseFloat).value ==> exists i :: 1 <= i < |lines| && row(lines[i]) == Some(p)
  {
    SuccessIsDataRows(lines, parseFloat);
    Seqs.CollectAfterFirst(lines, RowParser(ChooseSeparator(lines[0]), ColumnsOf(lines[0]).value, parseFloat));
  }

  /** A cell missing from a short row reads as the text "undefined", which is
      not empty: a row that stops before the name column still yields a
      product named "undefined" when its price and code are there. */
  lemma MissingNameReadsUndefined(line: string, sep: char, priceIndex: nat, nameIndex: nat,
                                  codeIndex: nat, parseFloat: string -> Option<real>)
    requires nameIndex >= |Split(line, sep)|
    requires codeIndex < |Split(line, sep)| && Split(line, sep)[codeIndex] != ""
    requires priceIndex < |Split(line, sep)|
    requires parseFloat(CleanPrice(Split(line, sep)[priceIndex])).Some?
    ensures var r := RowProduct(line, sep, priceIndex, nameIndex, codeIndex, parseFloat);
      r.Some? && r.value.name == UndefinedCell
  {
  }

  /** A row without a price cell is dropped whenever `parseFloat` rejects the
      empty text, as the host language's does. */
  lemma MissingPriceDropsRow(line: string, sep: char, priceIndex: nat, nameIndex: nat,
                             codeIndex: nat, parseFloat: string -> Option<real>)
    requires priceIndex >= |Split(line, sep)|
    requires parseFloat("") == None
    ensures RowProduct(line, sep, priceIndex, nameIndex, codeIndex, parseFloat) == None
  {
    var cleaned := Seqs.Filter(UndefinedCell, PriceChar);
    assert cleaned == "" by {
      Seqs.FilterDropsAll(UndefinedCell, PriceChar);
    }
  }
}

=== FILE: price_lists.dfy ===
/** The price-list store (hooks/usePriceLists.ts): at most one list per type,
    replaced in place when a list of the same type is uploaded again. */
module PriceLists {
  import opened Wrappers
  import opened Types
  import Seqs

  /** What reading the storage key yields. */
  datatype StoredLists =
    | NothingStored
    | Unreadable            // the text does not parse as a list
    | Lists(lists: seq<PriceList>)

  /** The initial lists: the saved ones, or none when nothing readable is saved. */
  function LoadPriceLists(stored: StoredLists): (r: seq<PriceList>)
    ensures stored.Lists? ==> r == stored.lists
    ensures !stored.Lists? ==> r == []
  {
    if stored.Lists? then stored.lists else []
  }

  /** No two lists share a type. */
  predicate OnePerType(lists: seq<PriceList>) {
    forall i, j :: 0 <= i < j < |lists| ==> lists[i].listType != lists[j].listType
  }

  /** Some list has type `t`. */
  predicate HasType(lists: seq<PriceList>, t: PriceListType) {
    exists i :: 0 <= i < |lists| && lists[i].listType == t
  }

  /** `getListByType`: the first list of type `t`, if any. */
  function GetListByType(lists: seq<PriceList>, t: PriceListType): (r: Option<PriceList>)
    ensures r.None? <==> !HasType(lists, t)
    ensures r.Some? ==> r.value in lists && r.value.listType == t
    ensures r.Some? ==> exists i :: 0 <= i < |lists| && lists[i] == r.value
                                    && (forall j :: 0 <= j < i ==> lists[j].listType != t)
  {
    var i := Seqs.FindIndex(lists, (l: PriceList) => l.listType == t);
    if i == -1 then None else Some(lists[i])
  }

  /** `addOrUpdateList`: every list of the new list's type is replaced by it;
      when there is none, it is appended. */
  function AddOrUpdateList(lists: seq<PriceList>, t: PriceListType, products: seq<Product>,
                           fileName: string, now: Millis): (r: seq<PriceList>)
    ensures HasType(lists, t) ==> |r| == |lists|
    ensures HasType(lists, t) ==> forall i :: 0 <= i < |lists| ==>
      r[i] == (if lists[i].listType == t then PriceList(t, fileName, now, products) else lists[i])
    ensures !HasType(lists, t) ==> r == lists + [PriceList(t, fileName, now, products)]
  {
    var uploaded := PriceList(t, fileName, now, products);
    if GetListByType(lists, t).Some? then
      Seqs.Map(lists, (l: PriceList) => if l.listType == t then uploaded else l)
    else
      lists + [uploaded]
  }

  /** `deleteList`: the lists of other types, in order. */
  function DeleteList(lists: seq<PriceList>, t: PriceListType): (r: seq<PriceList>)
    ensures !HasType(r, t)
    ensures forall i :: 0 <= i < |lists| && lists[i].listType != t ==> lists[i] in r
    ensures Seqs.IsSubsequence(r, lists)
  {
    Seqs.Filter(lists, (l: PriceList) => l.listType != t)
  }

  /** Every list of another type is kept as often as it occurs; none of this type is. */
  lemma DeleteListCount(lists: seq<PriceList>, t: PriceListType)
    ensures forall l :: multiset(DeleteList(lists, t))[l] == if l.listType != t then multiset(lists)[l] else 0
  {
    Seqs.FilterMultiplicity(lists, (l: PriceList) => l.listType != t);
  }

  /** After an upload, the list of that type is the uploaded one. */
  lemma AddThenGet(lists: seq<PriceList>, t: PriceListType, products: seq<Product>,
                   fileName: string, now: Millis)
    ensures GetListByType(AddOrUpdateList(lists, t, products, fileName, now), t)
            == Some(PriceList(t, fileName, now, products))
  {
    var r := AddOrUpdateList(lists, t, products, fileName, now);
    if !HasType(lists, t) {
      assert r[|lists|].listType == t;
    }
  }

  /** An upload leaves the lists of the other types as they were. */
  lemma AddKeepsOthers(lists: seq<PriceList>, t: PriceListType, u: PriceListType,
                       products: seq<Product>, fileName: string, now: Millis)
    requires u != t
    ensures GetListByType(AddOrUpdateList(lists, t, products, fileName, now), u)
            == GetListByType(lists, u)
  {
    var r := AddOrUpdateList(lists, t, products, fileName, now);
    Seqs.FindIndexAgree(lists, (l: PriceList) => l.listType == u, r, (l: PriceList) => l.listType == u);
    var i := Seqs.FindIndex(lists, (l: PriceList) => l.listType == u);
    if i >= 0 {
      assert r[i] == lists[i];
    }
  }

  /** Uploading never produces two lists of one type. */
  lemma AddKeepsOnePerType(lists: seq<PriceList>, t: PriceListType, products: seq<Product>,
                           fileName: string, now: Millis)
    requires OnePerType(lists)
    ensures OnePerType(AddOrUpdateList(lists, t, products, fileName, now))
  {
  }

  /** After a deletion no list of that type is found, and the other types are untouched. */
  lemma {:induction false} DeleteThenGet(lists: seq<PriceList>, t: PriceListType, u: PriceListType)
    ensures GetListByType(DeleteList(lists, t), t).None?
    ensures u != t ==> GetListByType(DeleteList(lists, t), u) == GetListByType(lists, u)
    decreases |lists|
  {
    if |lists| > 0 && u != t {
      DeleteThenGet(lists[1..], t, u);
      var rest := DeleteList(lists[1..], t);
      assert lists == [lists[0]] + lists[1..];
      GetCons(lists[0], lists[1..], u);
      if lists[0].listType != t {
        assert DeleteList(lists, t) == [lists[0]] + rest;
        GetCons(lists[0], rest, u);
      }
    }
  }

  /** The search looks at the first list before the rest. */
  lemma GetCons(l: PriceList, rest: seq<PriceList>, u: PriceListType)
    ensures GetListByType([l] + rest, u) == if l.listType == u then Some(l) else GetListByType(rest, u)
  {
    assert ([l] + rest)[1..] == rest;
  }
}

=== FILE: seqs.dfy ===
/** Generic sequence operations: the `filter`, `map` and `findIndex` of the
    host language, each defined once and used by every store and parser. */
module Seqs {
  import opened Wrappers

  /** `s.filter(keep)`: the elements satisfying `keep`, in their original order. */
  function Filter<T>(s: seq<T>, keep: T -> bool): (r: seq<T>)
    ensures |r| <= |s|
    ensures forall i :: 0 <= i < |r| ==> r[i] in s && keep(r[i])
    ensures forall i :: 0 <= i < |s| && keep(s[i]) ==> s[i] in r
    ensures IsSubsequence(r, s)
  {
    if |s| == 0 then []
    else
      var rest := Filter(s[1..], keep);
      if keep(s[0]) then
        assert ([s[0]] + rest)[1..] == rest;
        [s[0]] + rest
      else rest
  }

  /** A filter keeps every copy of each kept value and no copy of any other. */
  lemma {:induction false} FilterMultiplicity<T>(s: seq<T>, keep: T -> bool)
    ensures forall x :: multiset(Filter(s, keep))[x] == if keep(x) then multiset(s)[x] else 0
    decreases |s|
  {
    if |s| > 0 {
      FilterMultiplicity(s[1..], keep);
      assert s == [s[0]] + s[1..];
      assert multiset(s) == multiset([s[0]]) + multiset(s[1..]);
      var rest := Filter(s[1..], keep);
      if keep(s[0]) {
        assert Filter(s, keep) == [s[0]] + rest;
        assert multiset(Filter(s, keep)) == multiset([s[0]]) + multiset(rest);
      }
    }
  }

  /** Filtering distributes over concatenation: order is kept across the seam. */
  lemma {:induction false} FilterConcat<T>(a: seq<T>, b: seq<T>, keep: T -> bool)
    ensures Filter(a + b, keep) == Filter(a, keep) + Filter(b, keep)
  {
    if |a| == 0 {
      assert a + b == b;
    } else {
      assert (a + b)[1..] == a[1..] + b;
      FilterConcat(a[1..], b, keep);
      if keep(a[0]) {
        assert Filter(a + b, keep) == [a[0]] + Filter(a[1..] + b, keep);
      }
    }
  }

  /** A filter that keeps every element is the identity. */
  lemma {:induction false} FilterKeepsAll<T>(s: seq<T>, keep: T -> bool)
    requires forall i :: 0 <= i < |s| ==> keep(s[i])
    ensures Filter(s, keep) == s
  {
    if |s| > 0 {
      FilterKeepsAll(s[1..], keep);
    }
  }

  /** A filter that keeps no element yields the empty sequence. */
  lemma {:induction false} FilterDropsAll<T>(s: seq<T>, keep: T -> bool)
    requires forall i :: 0 <= i < |s| ==> !keep(s[i])
    ensures Filter(s, keep) == []
  {
    if |s| > 0 {
      FilterDropsAll(s[1..], keep);
    }
  }

  /** Filtering by a predicate and by its negation splits the sequence: the
      two results together are exactly as long as it. */
  lemma {:induction false} FilterComplement<T>(s: seq<T>, p: T -> bool, q: T -> bool)
    requires forall x :: q(x) == !p(x)
    ensures |Filter(s, p)| + |Filter(s, q)| == |s|
    decreases |s|
  {
    if |s| > 0 {
      FilterComplement(s[1..], p, q);
    }
  }

  /** Filtering twice with the same predicate is filtering once. */
  lemma {:induction false} FilterIdempotent<T>(s: seq<T>, keep: T -> bool)
    ensures Filter(Filter(s, keep), keep) == Filter(s, keep)
  {
    var r := Filter(s, keep);
    FilterKeepsAll(r, keep);
  }

  /** The length of a filter is the length of the input minus the dropped elements:
      it equals the input length exactly when nothing is dropped. */
  lemma {:induction false} FilterLengthExact<T>(s: seq<T>, keep: T -> bool)
    ensures |Filter(s, keep)| == |s| <==> forall i :: 0 <= i < |s| ==> keep(s[i])
  {
    if |s| > 0 {
      FilterLengthExact(s[1..], keep);
      if !keep(s[0]) {
        assert |Filter(s, keep)| == |Filter(s[1..], keep)| <= |s| - 1;
      } else {
        assert forall i :: 1 <= i < |s| ==> s[i] == s[1..][i - 1];
      }
    }
  }

  /** `s.map(f)`. */
  function Map<T, U>(s: seq<T>, f: T -> U): (r: seq<U>)
    ensures |r| == |s|
    ensures forall i :: 0 <= i < |s| ==> r[i] == f(s[i])
  {
    seq(|s|, i requires 0 <= i < |s| => f(s[i]))
  }

  /** `s.findIndex(p)`: the first index whose element satisfies `p`, or -1. */
  function FindIndex<T>(s: seq<T>, p: T -> bool): (r: int)
    ensures -1 <= r < |s|
    ensures r == -1 <==> forall i :: 0 <= i < |s| ==> !p(s[i])
    ensures r >= 0 ==> p(s[r]) && forall i :: 0 <= i < r ==> !p(s[i])
  {
    if |s| == 0 then -1
    else if p(s[0]) then 0
    else
      var k := FindIndex(s[1..], p);
      if k == -1 then -1 else k + 1
  }

  /** Two searches whose predicates agree position by position, over a second
      sequence that has no match beyond the first one's length, stop at the same place. */
  lemma FindIndexAgree<T, U>(a: seq<T>, p: T -> bool, b: seq<U>, q: U -> bool)
    requires |a| <= |b|
    requires forall j :: 0 <= j < |a| ==> p(a[j]) == q(b[j])
    requires forall j :: |a| <= j < |b| ==> !q(b[j])
    ensures FindIndex(a, p) == FindIndex(b, q)
  {
    var ia, ib := FindIndex(a, p), FindIndex(b, q);
    if ia >= 0 {
      assert q(b[ia]);
    }
    if ib >= 0 {
      assert ib < |a| && p(a[ib]);
    }
  }

  /** The values of the present entries, in order. */
  function Present<T>(s: seq<Option<T>>): (r: seq<T>)
    ensures |r| <= |s|
    ensures forall i :: 0 <= i < |r| ==> Some(r[i]) in s
    ensures forall i :: 0 <= i < |s| && s[i].Some? ==> s[i].value in r
    decreases |s|
  {
    if |s| == 0 then []
    else
      var rest := Present(s[1..]);
      if s[0].Some? then [s[0].value] + rest else rest
  }

  /** The results `f` gives, in order, dropping the elements it rejects. */
  function Collect<T, U>(xs: seq<T>, f: T -> Option<U>): (r: seq<U>)
    ensures |r| <= |xs|
    ensures forall i :: 0 <= i < |xs| && f(xs[i]).Some? ==> f(xs[i]).value in r
    ensures forall y :: y in r ==> exists i :: 0 <= i < |xs| && f(xs[i]) == Some(y)
  {
    var mapped := Map(xs, f);
    var r := Present(mapped);
    assert forall y :: y in r ==> Some(y) in mapped;
    r
  }

  /** The results for two stretches of input, one after the other: `Collect`
      keeps the order of its input. */
  lemma {:induction false} CollectConcat<T, U>(a: seq<T>, b: seq<T>, f: T -> Option<U>)
    ensures Collect(a + b, f) == Collect(a, f) + Collect(b, f)
  {
    assert Map(a + b, f) == Map(a, f) + Map(b, f);
    PresentConcat(Map(a, f), Map(b, f));
  }

  /** A single element contributes its result, or nothing when `f` rejects it. */
  lemma CollectSingle<T, U>(x: T, f: T -> Option<U>)
    ensures Collect([x], f) == if f(x).Some? then [f(x).value] else []
  {
    assert Map([x], f) == [f(x)];
    assert Map([x], f)[1..] == [];
  }

  lemma {:induction false} PresentConcat<T>(a: seq<Option<T>>, b: seq<Option<T>>)
    ensures Present(a + b) == Present(a) + Present(b)
    decreases |a|
  {
    if |a| == 0 {
      assert a + b == b;
    } else {
      assert (a + b)[1..] == a[1..] + b;
      PresentConcat(a[1..], b);
    }
  }

  /** `Collect` over all but the first element, indexed as in the whole sequence. */
  lemma {:induction false} CollectAfterFirst<T, U>(xs: seq<T>, f: T -> Option<U>)
    requires |xs| >= 1
    ensures forall i :: 1 <= i < |xs| && f(xs[i]).Some? ==> f(xs[i]).value in Collect(xs[1..], f)
    ensures forall y :: y in Collect(xs[1..], f) ==> exists i :: 1 <= i < |xs| && f(xs[i]) == Some(y)
  {
    var rest := xs[1..];
    forall i | 1 <= i < |xs| && f(xs[i]).Some?
      ensures f(xs[i]).value in Collect(rest, f)
    {
      assert rest[i - 1] == xs[i];
    }
    forall y | y in Collect(rest, f)
      ensures exists i :: 1 <= i < |xs| && f(xs[i]) == Some(y)
    {
      var j :| 0 <= j < |rest| && f(rest[j]) == Some(y);
      assert rest[j] == xs[j + 1];
    }
  }

  /** `a` is `b` with some elements left out, the rest in their original order. */
  predicate IsSubsequence<T(==)>(a: seq<T>, b: seq<T>)
    decreases |b|
  {
    || |a| == 0
    || (|b| > 0 && ((a[0] == b[0] && IsSubsequence(a[1..], b[1..])) || IsSubsequence(a, b[1..])))
  }

  /** A subsequence as long as the sequence is the sequence. */
  lemma {:induction false} SubsequenceOfSameLength<T>(a: seq<T>, b: seq<T>)
    requires IsSubsequence(a, b) && |a| == |b|
    ensures a == b
    decreases |b|
  {
    if |a| > 0 {
      if a[0] == b[0] && IsSubsequence(a[1..], b[1..]) {
        SubsequenceOfSameLength(a[1..], b[1..]);
        assert a == [a[0]] + a[1..];
      } else {
        SubsequenceNotLonger(a, b[1..]);
        assert false;
      }
    }
  }

  /** A subsequence is never longer than the sequence. */
  lemma {:induction false} SubsequenceNotLonger<T>(a: seq<T>, b: seq<T>)
    requires IsSubsequence(a, b)
    ensures |a| <= |b|
    decreases |b|
  {
    if |a| > 0 {
      if a[0] == b[0] && IsSubsequence(a[1..], b[1..]) {
        SubsequenceNotLonger(a[1..], b[1..]);
      } else {
        SubsequenceNotLonger(a, b[1..]);
      }
    }
  }

  /** A subsequence holds each element at most as often as the sequence. */
  lemma {:induction false} SubsequenceCounts<T>(a: seq<T>, b: seq<T>)
    requires IsSubsequence(a, b)
    ensures multiset(a) <= multiset(b)
    decreases |b|
  {
    if |a| > 0 {
      assert b == [b[0]] + b[1..];
      assert multiset(b) == multiset{b[0]} + multiset(b[1..]);
      if a[0] == b[0] && IsSubsequence(a[1..], b[1..]) {
        SubsequenceCounts(a[1..], b[1..]);
        assert a == [a[0]] + a[1..];
        assert multiset(a) == multiset{a[0]} + multiset(a[1..]);
      } else {
        SubsequenceCounts(a, b[1..]);
      }
    }
  }

  /** The filter is the only subsequence holding every kept element as often
      as the sequence does and nothing else. */
  lemma {:induction false} FilterUnique<T>(t: seq<T>, s: seq<T>, keep: T -> bool)
    requires IsSubsequence(t, s)
    requires forall x :: multiset(t)[x] == if keep(x) then multiset(s)[x] else 0
    ensures t == Filter(s, keep)
    decreases |s|
  {
    if |s| == 0 {
      SubsequenceNotLonger(t, s);
    } else {
      var x, rest := s[0], s[1..];
      assert s == [x] + rest;
      assert multiset(s) == multiset{x} + multiset(rest);
      if keep(x) {
        assert multiset(t)[x] > 0;
        assert |t| > 0;
        assert t == [t[0]] + t[1..];
        if t[0] == x && IsSubsequence(t[1..], rest) {
          assert multiset(t) == multiset{x} + multiset(t[1..]);
          FilterUnique(t[1..], rest, keep);
        } else {
          assert IsSubsequence(t, rest);
          SubsequenceCounts(t, rest);
          assert false;
        }
      } else {
        assert IsSubsequence(t, rest);
        FilterUnique(t, rest, keep);
      }
    }
  }

  /** Every sequence is a subsequence of itself. */
  lemma {:induction false} SubsequenceReflexive<T>(s: seq<T>)
    ensures IsSubsequence(s, s)
    decreases |s|
  {
    if |s| > 0 {
      SubsequenceReflexive(s[1..]);
    }
  }

  /** A subsequence of a subsequence is a subsequence. */
  lemma {:induction false} SubsequenceTransitive<T>(a: seq<T>, b: seq<T>, c: seq<T>)
    requires IsSubsequence(a, b) && IsSubsequence(b, c)
    ensures IsSubsequence(a, c)
    decreases |c|
  {
    if |a| > 0 {
      if b[0] == c[0] && IsSubsequence(b[1..], c[1..]) {
        if a[0] == b[0] && IsSubsequence(a[1..], b[1..]) {
          SubsequenceTransitive(a[1..], b[1..], c[1..]);
        } else {
          SubsequenceTransitive(a, b[1..], c[1..]);
        }
      } else {
        SubsequenceTransitive(a, b, c[1..]);
      }
    }
  }

  /** A prefix is a subsequence. */
  lemma {:induction false} PrefixIsSubsequence<T>(s: seq<T>, k: nat)
    requires k <= |s|
    ensures IsSubsequence(s[..k], s)
    decreases |s|
  {
    if k > 0 {
      PrefixIsSubsequence(s[1..], k - 1);
      assert s[..k][1..] == s[1..][..k - 1];
    }
  }

  /** The first `n` elements, or all of them when there are fewer (`slice(0, n)`). */
  function Take<T>(s: seq<T>, n: nat): (r: seq<T>)
    ensures |r| == if |s| < n then |s| else n
    ensures r == s[..|r|]
    ensures IsSubsequence(r, s)
  {
    var k := if |s| < n then |s| else n;
    PrefixIsSubsequence(s, k);
    s[..k]
  }

  /** No element occurs twice. */
  predicate NoDuplicates<T(==)>(s: seq<T>) {
    forall i, j :: 0 <= i < j < |s| ==> s[i] != s[j]
  }
}

=== FILE: text.dfy ===
/** Character classes and string operations of the host language (JavaScript
    strings, as sequences of characters): `trim`, ASCII `toLowerCase`,
    `includes`, `split`, `join`, and the handful of regular expressions the
    parsers use, each written out as an explicit function. */
module Text {
  import opened Wrappers
  import Seqs

  /** `\d` in a regular expression: an ASCII decimal digit. */
  predicate IsDigit(c: char) {
    '0' <= c <= '9'
  }

  /** `\s` in a regular expression, and what `String.prototype.trim` removes:
      the ECMAScript WhiteSpace and LineTerminator characters. */
  predicate IsSpace(c: char) {
    || c == '\t' || c == '\n' || c == '\U{000B}' || c == '\U{000C}' || c == '\r'
    || c == ' ' || c == '\U{00A0}' || c == '\U{1680}'
    || ('\U{2000}' <= c <= '\U{200A}')
    || c == '\U{2028}' || c == '\U{2029}' || c == '\U{202F}' || c == '\U{205F}'
    || c == '\U{3000}' || c == '\U{FEFF}'
  }

  /** The characters `.` does not match in a regular expression without the `s` flag. */
  predicate IsLineTerminator(c: char) {
    c == '\n' || c == '\r' || c == '\U{2028}' || c == '\U{2029}'
  }

  /** Every character is whitespace (so `s.trim()` is empty and falsy). */
  predicate IsBlank(s: string) {
    forall i :: 0 <= i < |s| ==> IsSpace(s[i])
  }

  predicate AllDigits(s: string) {
    forall i :: 0 <= i < |s| ==> IsDigit(s[i])
  }

  /** `s.trimStart()`: drops the leading whitespace and nothing else. */
  function TrimLeft(s: string): (r: string)
    ensures |r| <= |s| && r == s[|s| - |r|..]
    ensures forall i :: 0 <= i < |s| - |r| ==> IsSpace(s[i])
    ensures r == [] || !IsSpace(r[0])
  {
    if |s| > 0 && IsSpace(s[0]) then TrimLeft(s[1..]) else s
  }

  /** `s.trimEnd()`: drops the trailing whitespace and nothing else. */
  function TrimRight(s: string): (r: string)
    ensures |r| <= |s| && r == s[..|r|]
    ensures forall i :: |r| <= i < |s| ==> IsSpace(s[i])
    ensures r == [] || !IsSpace(r[|r| - 1])
  {
    if |s| > 0 && IsSpace(s[|s| - 1]) then TrimRight(s[..|s| - 1]) else s
  }

  /** `s.trim()`: the longest infix that neither starts nor ends with whitespace;
      it is empty exactly when `s` is blank. */
  function Trim(s: string): (r: string)
    ensures |r| <= |s|
    ensures r == [] <==> IsBlank(s)
    ensures r != [] ==> !IsSpace(r[0]) && !IsSpace(r[|r| - 1])
  {
    TrimRight(TrimLeft(s))
  }

  /** Trimming twice is trimming once. */
  lemma TrimIdempotent(s: string)
    ensures Trim(Trim(s)) == Trim(s)
  {
    var t := Trim(s);
    if t != [] {
      assert TrimLeft(t) == t;
      assert TrimRight(t) == t;
    }
  }

  /** `c.toLowerCase()` restricted to ASCII letters. */
  function LowerChar(c: char): (r: char)
    ensures 'A' <= c <= 'Z' ==> 'a' <= r <= 'z' && r as int == c as int + 32
    ensures !('A' <= c <= 'Z') ==> r == c
  {
    if 'A' <= c <= 'Z' then (c as int + 32) as char else c
  }

  /** `s.toLowerCase()` restricted to ASCII letters. */
  function ToLower(s: string): (r: string)
    ensures |r| == |s|
    ensures forall i :: 0 <= i < |s| ==> r[i] == LowerChar(s[i])
  {
    seq(|s|, i requires 0 <= i < |s| => LowerChar(s[i]))
  }

  /** `sub` occurs in `s` starting at index `i`. */
  predicate OccursAt(s: string, sub: string, i: int) {
    0 <= i && i + |sub| <= |s| && s[i..i + |sub|] == sub
  }

  /** `s.includes(sub)`. */
  predicate Contains(s: string, sub: string) {
    exists i :: 0 <= i <= |s| - |sub| && OccursAt(s, sub, i)
  }

  /** The empty string is contained in every string. */
  lemma ContainsEmpty(s: string)
    ensures Contains(s, "")
  {
    assert OccursAt(s, "", 0);
  }

  /** `s.startsWith(prefix)`. */
  predicate StartsWith(s: string, prefix: string) {
    |prefix| <= |s| && s[..|prefix|] == prefix
  }

  /** `k` ASCII digits in a row start at index `i`. */
  predicate DigitRunAt(s: string, i: int, k: nat) {
    0 <= i && i + k <= |s| && forall j :: i <= j < i + k ==> IsDigit(s[j])
  }

  /** The regular-expression test `/\d{k,}/.test(s)`: some run of at least `k` digits. */
  predicate HasDigitRun(s: string, k: nat) {
    exists i :: 0 <= i <= |s| - k && DigitRunAt(s, i, k)
  }

  /** `s.slice(-n)` for `n > 0`: the last `n` characters, or all of `s` when shorter. */
  function LastChars(s: string, n: nat): (r: string)
    ensures |r| == if |s| < n then |s| else n
    ensures r == s[|s| - |r|..]
  {
    if |s| < n then s else s[|s| - n..]
  }

  /** `parts.join(sep)`. */
  function Join(parts: seq<string>, sep: string): string {
    if |parts| == 0 then ""
    else if |parts| == 1 then parts[0]
    else parts[0] + sep + Join(parts[1..], sep)
  }

  /** `s.indexOf(c)`: the first position of `c`, or -1. */
  function IndexOf(s: string, c: char): (r: int)
    ensures -1 <= r < |s|
    ensures r == -1 <==> c !in s
    ensures r >= 0 ==> s[r] == c && c !in s[..r]
  {
    if |s| == 0 then -1
    else if s[0] == c then 0
    else
      var k := IndexOf(s[1..], c);
      assert s[1..][..if k < 0 then 0 else k] == s[1..if k < 0 then 1 else k + 1];
      if k == -1 then -1 else k + 1
  }

  /** `s.split(sep)` with a one-character separator: the maximal separator-free
      pieces, at least one of them. */
  function Split(s: string, sep: char): (r: seq<string>)
    ensures |r| >= 1
    ensures forall i :: 0 <= i < |r| ==> sep !in r[i]
    decreases |s|
  {
    var k := IndexOf(s, sep);
    if k < 0 then [s] else [s[..k]] + Split(s[k + 1..], sep)
  }

  /** A string without the separator is one piece; one with it is several. */
  lemma SplitCount(s: string, sep: char)
    ensures sep !in s ==> Split(s, sep) == [s]
    ensures sep in s ==> |Split(s, sep)| >= 2
  {
  }

  /** Splitting and re-joining with the same separator gives back the input. */
  lemma {:induction false} SplitJoin(s: string, sep: char)
    ensures Join(Split(s, sep), [sep]) == s
    decreases |s|
  {
    var k := IndexOf(s, sep);
    if k >= 0 {
      var head, rest := s[..k], s[k + 1..];
      var tail := Split(rest, sep);
      SplitJoin(rest, sep);
      assert Split(s, sep) == [head] + tail;
      JoinCons(head, tail, [sep]);
      Reassemble(s, k);
    }
  }

  /** A string is the part before index `k`, the character at `k`, and the rest. */
  lemma Reassemble(s: string, k: int)
    requires 0 <= k < |s|
    ensures s == s[..k] + [s[k]] + s[k + 1..]
  {
  }

  /** Joining a non-empty tail behind a first piece puts one separator between them. */
  lemma JoinCons(head: string, tail: seq<string>, sep: string)
    requires |tail| >= 1
    ensures Join([head] + tail, sep) == head + sep + Join(tail, sep)
  {
    assert ([head] + tail)[1..] == tail;
  }

  /** Joining separator-free pieces and splitting again gives back the pieces. */
  lemma {:induction false} JoinSplit(parts: seq<string>, sep: char)
    requires |parts| >= 1
    requires forall i :: 0 <= i < |parts| ==> sep !in parts[i]
    ensures Split(Join(parts, [sep]), sep) == parts
    decreases |parts|
  {
    var s := Join(parts, [sep]);
    if |parts| > 1 {
      var rest := Join(parts[1..], [sep]);
      JoinCons(parts[0], parts[1..], [sep]);
      assert parts == [parts[0]] + parts[1..];
      assert s == parts[0] + [sep] + rest;
      IndexOfAfter(parts[0], rest, sep);
      assert s[..|parts[0]|] == parts[0];
      assert s[|parts[0]| + 1..] == rest;
      JoinSplit(parts[1..], sep);
    }
  }

  /** The first separator in `a + [c] + b` is the one after `a` when `a` has none. */
  lemma IndexOfAfter(a: string, b: string, c: char)
    requires c !in a
    ensures IndexOf(a + [c] + b, c) == |a|
  {
    var s := a + [c] + b;
    assert s[|a|] == c;
    assert s[..|a|] == a;
  }

  /** Two whitespace characters in a row occur somewhere in `s`. */
  predicate HasWideSpace(s: string) {
    exists i :: 0 <= i < |s| - 1 && WideSpaceAt(s, i)
  }

  predicate WideSpaceAt(s: string, i: int) {
    0 <= i < |s| - 1 && IsSpace(s[i]) && IsSpace(s[i + 1])
  }

  /** The first index where two whitespace characters follow each other, or -1. */
  function FirstWideSpace(s: string): (r: int)
    ensures -1 <= r < |s| - 1 || r == -1
    ensures r == -1 <==> !HasWideSpace(s)
    ensures r >= 0 ==> WideSpaceAt(s, r) && forall i :: 0 <= i < r ==> !WideSpaceAt(s, i)
  {
    if |s| < 2 then -1
    else if IsSpace(s[0]) && IsSpace(s[1]) then
      assert WideSpaceAt(s, 0);
      0
    else
      var k := FirstWideSpace(s[1..]);
      assert forall i :: 0 < i < |s| - 1 ==> (WideSpaceAt(s, i) <==> WideSpaceAt(s[1..], i - 1));
      assert !WideSpaceAt(s, 0);
      if k == -1 then -1 else
        assert WideSpaceAt(s, k + 1);
        k + 1
  }

  /** The end of the whitespace run starting at `i`. */
  function SpaceRunEnd(s: string, i: nat): (j: nat)
    requires i <= |s|
    ensures i <= j <= |s|
    ensures forall k :: i <= k < j ==> IsSpace(s[k])
    ensures j == |s| || !IsSpace(s[j])
    decreases |s| - i
  {
    if i < |s| && IsSpace(s[i]) then SpaceRunEnd(s, i + 1) else i
  }

  /** `s.split(/\s{2,}/)`: the pieces between maximal runs of two or more
      whitespace characters. No piece holds two whitespace characters in a row. */
  function SplitWideSpace(s: string): (r: seq<string>)
    ensures |r| >= 1
    ensures forall i :: 0 <= i < |r| ==> !HasWideSpace(r[i])
    decreases |s|
  {
    var k := FirstWideSpace(s);
    if k < 0 then [s]
    else
      var head := s[..k];
      assert !HasWideSpace(head) by {
        forall i | 0 <= i < |head| - 1 ensures !WideSpaceAt(head, i) {
          assert !WideSpaceAt(s, i);
        }
      }
      [head] + SplitWideSpace(s[SpaceRunEnd(s, k)..])
  }

  /** `s.split(/\r?\n/)`: the lines of `s`, a carriage return just before a
      line feed being part of the line break. */
  function SplitLines(s: string): (r: seq<string>)
    ensures |r| == |Split(s, '\n')|
    ensures forall i :: 0 <= i < |r| ==> '\n' !in r[i]
    ensures forall i :: 0 <= i < |r| ==> r[i] == Split(s, '\n')[i] || Split(s, '\n')[i] == r[i] + ['\r']
  {
    var pieces := Split(s, '\n');
    seq(|pieces|, i requires 0 <= i < |pieces| =>
      if i < |pieces| - 1 && |pieces[i]| > 0 && pieces[i][|pieces[i]| - 1] == '\r'
      then pieces[i][..|pieces[i]| - 1]
      else pieces[i])
  }

  /** The digit character for `d`. */
  function DigitChar(d: nat): (c: char)
    requires d < 10
    ensures IsDigit(c)
  {
    ('0' as int + d) as char
  }

  /** The numeric value of a digit character. */
  function DigitValue(c: char): (d: nat)
    requires IsDigit(c)
    ensures d < 10
  {
    c as int - '0' as int
  }

  /** Template-literal interpolation `${n}` of a non-negative integer. */
  function DecimalString(n: nat): (r: string)
    ensures |r| >= 1
    ensures AllDigits(r)
    ensures r[0] == '0' ==> n == 0
  {
    if n < 10 then [DigitChar(n)]
    else DecimalString(n / 10) + [DigitChar(n % 10)]
  }

  /** Reading a string of digits as a decimal number. */
  function DecimalValue(s: string): nat
    requires AllDigits(s)
  {
    if |s| == 0 then 0
    else DecimalValue(s[..|s| - 1]) * 10 + DigitValue(s[|s| - 1])
  }

  /** Reading back the decimal rendering of `n` gives `n`. */
  lemma {:induction false} DecimalRoundTrip(n: nat)
    ensures DecimalValue(DecimalString(n)) == n
  {
    var s := DecimalString(n);
    if n >= 10 {
      DecimalRoundTrip(n / 10);
      assert s[..|s| - 1] == DecimalString(n / 10);
    }
  }
}

=== FILE: text_parser.dfy ===
/** The pasted-contact parser (utils/textParser.ts): one contact per line,
    fields separated by commas, tabs or runs of two or more spaces. */
module TextParser {
  import opened Wrappers
  import opened Types
  import opened Text
  import Seqs

  /** The record a parsed line yields: the contact fields of a client plus the
      fixed country code, status, budgets and client type. */
  datatype ParsedClient = ParsedClient(
    companyName: string,
    countryCode: string,
    phoneNumber: string,
    industry: string,
    status: Status,
    budgets: seq<Budget>,
    clientType: Option<ClientType>)

  const ParsedCountryCode: string := "+54"

  const DefaultNamePrefix: string := "Client "

  /** A field that looks like a phone number: seven digits in a row somewhere. */
  predicate LooksLikePhone(s: string) {
    HasDigitRun(s, 7)
  }

  /** `generateDefaultName`: "Client " and the last four characters of the phone. */
  function GenerateDefaultName(phone: string): (r: string)
    ensures StartsWith(r, DefaultNamePrefix)
    ensures r[|DefaultNamePrefix|..] == LastChars(phone, 4)
    ensures |r| == |DefaultNamePrefix| + (if |phone| < 4 then |phone| else 4)
  {
    DefaultNamePrefix + LastChars(phone, 4)
  }

  /** The raw fields of a line: split at commas if there is one, else at tabs
      if there is one, else at runs of two or more whitespace characters. */
  function SplitFields(line: string): (r: seq<string>)
    ensures |r| >= 1
    ensures ',' in line ==> r == Split(line, ',') && |r| >= 2
    ensures ',' !in line && '\t' in line ==> r == Split(line, '\t') && |r| >= 2
    ensures ',' !in line && '\t' !in line ==> r == SplitWideSpace(line)
  {
    SplitCount(line, ',');
    SplitCount(line, '\t');
    if |Split(line, ',')| > 1 then Split(line, ',')
    else if |Split(line, '\t')| > 1 then Split(line, '\t')
    else SplitWideSpace(line)
  }

  /** The fields trimmed, empty ones dropped: the non-blank fields' trimmed
      forms, each as often as it occurs and in field order. */
  function CleanFields(parts: seq<string>): (r: seq<string>)
    ensures |r| <= |parts|
    ensures forall i :: 0 <= i < |r| ==> r[i] != [] && Trim(r[i]) == r[i]
    ensures forall i :: 0 <= i < |parts| && !IsBlank(parts[i]) ==> Trim(parts[i]) in r
    ensures Seqs.IsSubsequence(r, Seqs.Map(parts, Trim))
    ensures forall f :: multiset(r)[f] == if f != [] then multiset(Seqs.Map(parts, Trim))[f] else 0
  {
    var trimmed := Seqs.Map(parts, Trim);
    forall i | 0 <= i < |trimmed| ensures Trim(trimmed[i]) == trimmed[i] {
      TrimIdempotent(parts[i]);
    }
    var keep := (p: string) => p != [];
    forall i | 0 <= i < |parts| && !IsBlank(parts[i]) ensures trimmed[i] == Trim(parts[i]) && keep(trimmed[i]) {
    }
    Seqs.FilterMultiplicity(trimmed, keep);
    Seqs.Filter(trimmed, keep)
  }

  /** Name, phone and industry from the cleaned fields. */
  function AssignFields(parts: seq<string>): (r: (string, string, string))
    requires |parts| >= 1
    ensures |parts| == 1 && LooksLikePhone(parts[0]) ==>
      r == (GenerateDefaultName(parts[0]), parts[0], "")
    ensures |parts| == 1 && !LooksLikePhone(parts[0]) ==> r == (parts[0], "", "")
    ensures |parts| == 2 && LooksLikePhone(parts[1]) ==> r == (parts[0], parts[1], "")
    ensures |parts| == 2 && !LooksLikePhone(parts[1]) && LooksLikePhone(parts[0]) ==>
      r == (parts[1], parts[0], "")
    ensures |parts| == 2 && !LooksLikePhone(parts[0]) && !LooksLikePhone(parts[1]) ==>
      r == (parts[0], parts[1], "")
    ensures |parts| >= 3 ==> r == (parts[0], parts[1], parts[2])
    ensures parts[0] != [] ==> r.0 != [] || r.1 != []
  {
    if |parts| == 1 then
      if LooksLikePhone(parts[0]) then (GenerateDefaultName(parts[0]), parts[0], "")
      else (parts[0], "", "")
    else if |parts| == 2 then
      if LooksLikePhone(parts[1]) then (parts[0], parts[1], "")
      else if LooksLikePhone(parts[0]) then (parts[1], parts[0], "")
      else (parts[0], parts[1], "")
    else (parts[0], parts[1], parts[2])
  }

  /** `parseLine`: nothing for a blank line or one whose fields are all blank;
      otherwise a contact with the fixed country code, active, no budgets and no type. */
  function ParseLine(line: string): (r: Option<ParsedClient>)
    ensures IsBlank(line) ==> r == None
    ensures r.None? <==> IsBlank(line) || CleanFields(SplitFields(line)) == []
    ensures r.Some? ==> r.value.countryCode == ParsedCountryCode && r.value.status == Active
                        && r.value.budgets == [] && r.value.clientType == None
    ensures r.Some? ==> r.value.companyName != "" || r.value.phoneNumber != ""
    ensures var parts := CleanFields(SplitFields(line));
      !IsBlank(line) && parts != [] ==>
        var (name, phone, industry) := AssignFields(parts);
        r == Some(ParsedClient(name, ParsedCountryCode, phone, industry, Active, [], None))
  {
    if Trim(line) == [] then None
    else
      var parts := CleanFields(SplitFields(line));
      if parts == [] then None
      else
        var (name, phone, industry) := AssignFields(parts);
        if name != "" || phone != "" then
          Some(ParsedClient(name, ParsedCountryCode, phone, industry, Active, [], None))
        else None
  }

  /** Some line of `lines` parses to `c`. */
  predicate FromSomeLine(lines: seq<string>, c: ParsedClient) {
    exists j :: 0 <= j < |lines| && ParseLine(lines[j]) == Some(c)
  }

  /** A contact with the fixed fields every parsed line gets. */
  predicate HasParsedDefaults(c: ParsedClient) {
    c.countryCode == ParsedCountryCode && c.status == Active && c.budgets == [] && c.clientType == None
  }

  /** `parsePastedText`: nothing for blank text; otherwise one contact per line
      that parses, in line order, each with the fixed fields. */
  function ParsePastedText(text: string): (r: seq<ParsedClient>)
    ensures IsBlank(text) ==> r == []
    ensures |r| <= |SplitLines(Trim(text))|
    ensures forall i :: 0 <= i < |r| ==> FromSomeLine(SplitLines(Trim(text)), r[i])
    ensures forall i :: 0 <= i < |r| ==> HasParsedDefaults(r[i])
    ensures !IsBlank(text) ==> r == Seqs.Collect(SplitLines(Trim(text)), ParseLine)
  {
    if Trim(text) == [] then []
    else
      var lines := SplitLines(Trim(text));
      var r := Seqs.Collect(lines, ParseLine);
      forall i | 0 <= i < |r| ensures FromSomeLine(lines, r[i]) && HasParsedDefaults(r[i]) {
        assert r[i] in r;
      }
      r
  }

  /** The contacts of the lines, one per line that parses, in line order: a
      further line adds its own contact, if any, at the end. */
  lemma ParsedLinesAppend(lines: seq<string>, line: string)
    ensures Seqs.Collect(lines + [line], ParseLine)
            == Seqs.Collect(lines, ParseLine) + (if ParseLine(line).Some? then [ParseLine(line).value] else [])
  {
    Seqs.CollectConcat(lines, [line], ParseLine);
    Seqs.CollectSingle(line, ParseLine);
  }

  /** `parseTextFile`: a text file is read exactly like pasted text. */
  function ParseTextFile(text: string): (r: seq<ParsedClient>)
    ensures IsBlank(text) ==> r == []
    ensures forall i :: 0 <= i < |r| ==> FromSomeLine(SplitLines(Trim(text)), r[i]) && HasParsedDefaults(r[i])
    ensures !IsBlank(text) ==> r == Seqs.Collect(SplitLines(Trim(text)), ParseLine)
  {
    ParsePastedText(text)
  }

  /** A name and a phone written "name,phone" parse back to that contact, with
      no industry. */
  lemma NameCommaPhone(name: string, phone: string)
    requires name != [] && Trim(name) == name && ',' !in name
    requires phone != [] && Trim(phone) == phone && ',' !in phone
    requires LooksLikePhone(phone)
    ensures ParseLine(name + "," + phone)
            == Some(ParsedClient(name, ParsedCountryCode, phone, "", Active, [], None))
  {
    var line := name + "," + phone;
    TwoFieldsSplit(name, phone);
    assert !IsBlank(line) by {
      assert !IsBlank(name);
      var k :| 0 <= k < |name| && !IsSpace(name[k]);
      assert line[k] == name[k];
    }
    assert CleanFields([name, phone]) == [name, phone] by {
      CleanTrimmed([name, phone]);
    }
  }

  /** The phone may come first: "phone,name" parses to the same contact when
      the name does not itself look like a phone. */
  lemma PhoneCommaName(name: string, phone: string)
    requires name != [] && Trim(name) == name && ',' !in name && !LooksLikePhone(name)
    requires phone != [] && Trim(phone) == phone && ',' !in phone
    requires LooksLikePhone(phone)
    ensures ParseLine(phone + "," + name)
            == Some(ParsedClient(name, ParsedCountryCode, phone, "", Active, [], None))
  {
    var line := phone + "," + name;
    TwoFieldsSplit(phone, name);
    assert !IsBlank(line) by {
      assert !IsBlank(phone);
      var k :| 0 <= k < |phone| && !IsSpace(phone[k]);
      assert line[k] == phone[k];
    }
    assert CleanFields([phone, name]) == [phone, name] by {
      CleanTrimmed([phone, name]);
    }
  }

  /** Two comma-free fields joined by a comma are split back into those fields. */
  lemma TwoFieldsSplit(a: string, b: string)
    requires ',' !in a && ',' !in b
    ensures SplitFields(a + "," + b) == [a, b]
  {
    JoinSplit([a, b], ',');
    assert Join([a, b], [',']) == a + "," + b by {
      JoinCons(a, [b], [',']);
    }
    assert (a + "," + b)[|a|] == ',';
  }

  /** Fields already trimmed and non-empty are kept as they are. */
  lemma CleanTrimmed(parts: seq<string>)
    requires forall i :: 0 <= i < |parts| ==> parts[i] != [] && Trim(parts[i]) == parts[i]
    ensures CleanFields(parts) == parts
  {
    var trimmed := Seqs.Map(parts, Trim);
    assert trimmed == parts;
    Seqs.FilterKeepsAll(trimmed, (p: string) => p != []);
  }
}

=== FILE: types.dfy ===
/** The records of the CRM (types.ts): clients with their follow-up clock,
    budgets, price lists and products. Timestamps that the application keeps
    as ISO strings are milliseconds since the epoch here; monetary amounts are
    carried as `real` and never computed with. */
module Types {
  import opened Wrappers

  /** An opaque identifier (a UUID in the application). */
  type Id = string

  /** An instant or a duration in milliseconds. */
  type Millis = int

  /** One day in milliseconds. */
  const DayMillis: Millis := 24 * 60 * 60 * 1000

  datatype FileRecord = FileRecord(
    id: Id, name: string, mimeType: string, size: int,
    content: string, description: string, uploadDate: Millis)

  /** A registered call. */
  datatype FollowUp = FollowUp(id: Id, timestamp: Millis)

  datatype Note = Note(id: Id, content: string, lastUpdated: Millis)

  datatype Product = Product(id: Id, name: string, code: string, price: real)

  datatype PriceListType = Distributor | Consumer | Company | Cost

  datatype PriceList = PriceList(
    listType: PriceListType, fileName: string, uploadDate: Millis, products: seq<Product>)

  datatype BudgetItem = BudgetItem(product: Product, quantity: int)

  datatype Budget = Budget(
    id: Id, clientId: Id, clientName: string, date: Millis,
    items: seq<BudgetItem>, discount: real, subtotal: real, total: real)

  datatype WhatsAppStatus = Unknown | Checking | Available | Unavailable

  /** Whether the client is listed among the active or the suspended clients. */
  datatype Status = Active | Suspended

  /** The client category that selects a default price list. */
  datatype ClientType = A | B | C | D

  /** A client record. `nextFollowUpDate` and `pausedTimeLeft` are nullable
      independently of `isPaused`; nothing in the type ties them together. */
  datatype Client = Client(
    id: Id,
    companyName: string,
    countryCode: string,
    phoneNumber: string,
    industry: string,
    rating: int,
    followUps: seq<FollowUp>,
    quotes: seq<FileRecord>,
    invoices: seq<FileRecord>,
    notes: seq<Note>,
    whatsAppStatus: WhatsAppStatus,
    nextFollowUpDate: Option<Millis>,
    isPaused: bool,
    pausedTimeLeft: Option<Millis>,
    status: Status,
    budgets: seq<Budget>,
    clientType: Option<ClientType>)

  /** The ids of `clients`, in order. */
  function Ids(clients: seq<Client>): (r: seq<Id>)
    ensures |r| == |clients|
    ensures forall i :: 0 <= i < |clients| ==> r[i] == clients[i].id
  {
    seq(|clients|, i requires 0 <= i < |clients| => clients[i].id)
  }

  /** No two clients share an id (the application mints them with `crypto.randomUUID`). */
  predicate UniqueIds(clients: seq<Client>) {
    forall i, j :: 0 <= i < j < |clients| ==> clients[i].id != clients[j].id
  }

  /** Some client carries `id`. */
  predicate HasId(clients: seq<Client>, id: Id) {
    exists i :: 0 <= i < |clients| && clients[i].id == id
  }
}

=== FILE: whatsapp.dfy ===
/** WhatsApp helpers (utils/whatsappUtils.ts): the "click to chat" link and
    the format check that stands in for an availability lookup. */
module WhatsApp {
  import opened Text
  import Seqs

  const LinkPrefix: string := "https://wa.me/"

  /** `phone.replace(/\D/g, '')`: the digits of `phone`, in order. */
  function SanitizePhoneNumber(phone: string): (r: string)
    ensures AllDigits(r)
    ensures Seqs.IsSubsequence(r, phone)
    ensures forall i :: 0 <= i < |phone| && IsDigit(phone[i]) ==> phone[i] in r
    ensures |r| == |phone| <==> AllDigits(phone)
    ensures forall c :: multiset(r)[c] == if IsDigit(c) then multiset(phone)[c] else 0
  {
    Seqs.FilterLengthExact(phone, IsDigit);
    Seqs.FilterMultiplicity(phone, IsDigit);
    Seqs.Filter(phone, IsDigit)
  }

  /** Sanitizing twice is sanitizing once. */
  lemma SanitizeIdempotent(phone: string)
    ensures SanitizePhoneNumber(SanitizePhoneNumber(phone)) == SanitizePhoneNumber(phone)
  {
    Seqs.FilterIdempotent(phone, IsDigit);
  }

  /** A number that is already all digits is left as it is. */
  lemma {:induction false} SanitizeKeepsDigits(phone: string)
    requires AllDigits(phone)
    ensures SanitizePhoneNumber(phone) == phone
  {
    Seqs.FilterKeepsAll(phone, IsDigit);
  }

  /** The link for a country code and a national number. */
  function GetWhatsAppLink(countryCode: string, phone: string): (r: string)
    ensures StartsWith(r, LinkPrefix)
    ensures AllDigits(r[|LinkPrefix|..])
  {
    LinkPrefix + SanitizePhoneNumber(countryCode) + SanitizePhoneNumber(phone)
  }

  /** The link ends in the digits of the whole number, country code first:
      sanitizing the parts separately is sanitizing their concatenation. */
  lemma {:induction false} LinkCarriesFullNumber(countryCode: string, phone: string)
    ensures GetWhatsAppLink(countryCode, phone) == LinkPrefix + SanitizePhoneNumber(countryCode + phone)
  {
    var a, b := SanitizePhoneNumber(countryCode), SanitizePhoneNumber(phone);
    Seqs.FilterConcat(countryCode, phone, IsDigit);
    assert SanitizePhoneNumber(countryCode + phone) == a + b;
    assert LinkPrefix + a + b == LinkPrefix + (a + b);
  }

  /** The characters `/[\s-()]/g` removes before the format check. */
  predicate Ignorable(c: char) {
    IsSpace(c) || c == '-' || c == '(' || c == ')'
  }

  /** The number with spaces, dashes and parentheses removed. */
  function StripSeparators(s: string): (r: string)
    ensures forall i :: 0 <= i < |r| ==> !Ignorable(r[i])
    ensures forall i :: 0 <= i < |s| && !Ignorable(s[i]) ==> s[i] in r
    ensures Seqs.IsSubsequence(r, s)
  {
    Seqs.Filter(s, (c: char) => !Ignorable(c))
  }

  /** `/^\+?\d{10,}$/`: an optional plus sign and then ten digits or more. */
  predicate PlusAndDigits(s: string) {
    (|s| >= 10 && AllDigits(s)) || (|s| >= 11 && s[0] == '+' && AllDigits(s[1..]))
  }

  /** The availability check: yes for numbers that look well formed once the
      separators are gone (the delay the application adds is left out). */
  predicate CheckWhatsAppAvailability(countryCode: string, phone: string): (r: bool)
    ensures r ==> forall i :: 0 <= i < |countryCode + phone| ==>
      var c := (countryCode + phone)[i]; IsDigit(c) || Ignorable(c) || c == '+'
    ensures r ==> multiset(countryCode + phone)['+'] <= 1
    ensures r <==> WellFormedNumber(countryCode + phone) && |SanitizePhoneNumber(countryCode + phone)| >= 10
  {
    StrippedForm(countryCode + phone);
    if PlusAndDigits(StripSeparators(countryCode + phone)) then
      AvailableShape(countryCode + phone);
      true
    else false
  }

  /** A character the format check can accept once separators are gone. */
  predicate NumberChar(c: char) {
    IsDigit(c) || Ignorable(c) || c == '+'
  }

  /** Digits, separators and plus signs only, with nothing but separators
      before a plus sign (so at most one plus sign, ahead of every digit). */
  predicate WellFormedNumber(s: string) {
    && (forall i :: 0 <= i < |s| ==> NumberChar(s[i]))
    && (forall i, j :: 0 <= i < j < |s| && s[j] == '+' ==> Ignorable(s[i]))
  }

  /** Digits, optionally after one leading plus sign. */
  predicate PlusThenDigits(t: string) {
    AllDigits(t) || (|t| >= 1 && t[0] == '+' && AllDigits(t[1..]))
  }

  /** `t` is what stripping the separators from `s` gives and `d` its digits:
      `t` is digits after an optional plus sign exactly when `s` is well
      formed, bare digits exactly when `s` has no plus sign besides, and then
      that sign followed by `d`. */
  predicate StrippedFacts(s: string, t: string, d: string) {
    && (PlusThenDigits(t) <==> WellFormedNumber(s))
    && (AllDigits(t) <==> WellFormedNumber(s) && '+' !in s)
    && (WellFormedNumber(s) ==> t == (if '+' in s then "+" else "") + d)
  }

  /** Stripping the separators from a number and taking its digits relate as
      `StrippedFacts` says. */
  lemma {:induction false} StrippedShape(s: string)
    ensures StrippedFacts(s, StripSeparators(s), SanitizePhoneNumber(s))
    decreases |s|
  {
    if |s| > 0 {
      var c, rest := s[0], s[1..];
      var u, e := StripSeparators(rest), SanitizePhoneNumber(rest);
      StrippedShape(rest);
      StripCons(s);
      SanitizeCons(s);
      StepAny(s, u, e);
    }
  }

  /** One more leading character, of whichever kind. */
  lemma StepAny(s: string, u: string, e: string)
    requires |s| > 0 && StrippedFacts(s[1..], u, e)
    ensures StrippedFacts(s, (if Ignorable(s[0]) then [] else [s[0]]) + u,
                             (if IsDigit(s[0]) then [s[0]] else []) + e)
  {
    if Ignorable(s[0]) {
      StepSeparator(s, u, e);
    } else if IsDigit(s[0]) {
      StepDigit(s, u, e);
    } else if s[0] == '+' {
      StepPlus(s, u, e);
    } else {
      StepOther(s, u, e);
    }
  }

  /** A plus sign is in a number exactly when it leads it or is in its tail. */
  lemma PlusInCons(s: string)
    requires |s| > 0
    ensures '+' in s <==> s[0] == '+' || '+' in s[1..]
  {
    assert s == [s[0]] + s[1..];
  }

  /** A leading separator changes nothing. */
  lemma StepSeparator(s: string, u: string, e: string)
    requires |s| > 0 && Ignorable(s[0]) && StrippedFacts(s[1..], u, e)
    ensures StrippedFacts(s, [] + u, [] + e)
  {
    WellFormedCons(s);
    PlusInCons(s);
    assert [] + u == u && [] + e == e;
  }

  /** A leading digit is kept in front of both the stripped number and its digits. */
  lemma StepDigit(s: string, u: string, e: string)
    requires |s| > 0 && IsDigit(s[0]) && StrippedFacts(s[1..], u, e)
    ensures StrippedFacts(s, [s[0]] + u, [s[0]] + e)
  {
    WellFormedCons(s);
    PlusInCons(s);
    var t := [s[0]] + u;
    assert t[1..] == u;
  }

  /** A leading plus sign is kept in front of the stripped number only. */
  lemma StepPlus(s: string, u: string, e: string)
    requires |s| > 0 && s[0] == '+' && StrippedFacts(s[1..], u, e)
    ensures StrippedFacts(s, [s[0]] + u, [] + e)
  {
    WellFormedCons(s);
    PlusInCons(s);
    var t := [s[0]] + u;
    assert t[1..] == u;
    assert [] + e == e;
  }

  /** A leading character that is neither a digit, a separator nor a plus sign spoils the number. */
  lemma StepOther(s: string, u: string, e: string)
    requires |s| > 0 && !NumberChar(s[0])
    ensures StrippedFacts(s, [s[0]] + u, [] + e)
  {
    WellFormedCons(s);
    var t := [s[0]] + u;
    assert t[0] == s[0];
  }

  /** The format check passes exactly for a well-formed number with ten digits or more. */
  lemma StrippedForm(s: string)
    ensures PlusAndDigits(StripSeparators(s)) <==> WellFormedNumber(s) && |SanitizePhoneNumber(s)| >= 10
  {
    StrippedShape(s);
    var t := StripSeparators(s);
    var d := SanitizePhoneNumber(s);
    if WellFormedNumber(s) {
      if '+' in s {
        assert t == "+" + d && t[1..] == d;
      } else {
        assert t == d;
      }
    }
  }

  /** Sanitizing one character at a time. */
  lemma SanitizeCons(s: string)
    requires |s| > 0
    ensures SanitizePhoneNumber(s) == (if IsDigit(s[0]) then [s[0]] else []) + SanitizePhoneNumber(s[1..])
  {
  }

  /** Stripping the separators one character at a time. */
  lemma StripCons(s: string)
    requires |s| > 0
    ensures StripSeparators(s) == (if Ignorable(s[0]) then [] else [s[0]]) + StripSeparators(s[1..])
  {
  }

  /** A number is well formed exactly when its tail is, its first character is
      a number character, and that character is a separator should a plus
      sign follow. */
  lemma WellFormedCons(s: string)
    requires |s| > 0
    ensures WellFormedNumber(s) <==>
      NumberChar(s[0]) && WellFormedNumber(s[1..]) && ('+' in s[1..] ==> Ignorable(s[0]))
  {
    var rest := s[1..];
    if NumberChar(s[0]) && WellFormedNumber(rest) && ('+' in rest ==> Ignorable(s[0])) {
      forall i, j | 0 <= i < j < |s| && s[j] == '+' ensures Ignorable(s[i]) {
        if i == 0 {
          assert rest[j - 1] == '+';
        } else {
          assert rest[i - 1] == s[i] && rest[j - 1] == s[j];
        }
      }
    }
    if WellFormedNumber(s) {
      forall i, j | 0 <= i < j < |rest| && rest[j] == '+' ensures Ignorable(rest[i]) {
        assert s[i + 1] == rest[i] && s[j + 1] == rest[j];
      }
      if '+' in rest {
        var j :| 0 <= j < |rest| && rest[j] == '+';
        assert s[j + 1] == '+';
      }
    }
  }

  /** A number that passes the format check holds only digits, separators and
      at most one plus sign. */
  lemma AvailableShape(full: string)
    requires PlusAndDigits(StripSeparators(full))
    ensures forall i :: 0 <= i < |full| ==> IsDigit(full[i]) || Ignorable(full[i]) || full[i] == '+'
    ensures multiset(full)['+'] <= 1
  {
    var stripped := StripSeparators(full);
    Seqs.FilterMultiplicity(full, (c: char) => !Ignorable(c));
    assert multiset(stripped)['+'] == multiset(full)['+'];
    var digits := if AllDigits(stripped) then stripped else stripped[1..];
    forall i | 0 <= i < |full| && !Ignorable(full[i]) ensures IsDigit(full[i]) || full[i] == '+' {
      var k :| 0 <= k < |stripped| && stripped[k] == full[i];
      if k > 0 && !AllDigits(stripped) {
        assert stripped[k] == digits[k - 1];
      }
    }
    assert '+' !in digits;
    if !AllDigits(stripped) {
      assert stripped == [stripped[0]] + digits;
    }
  }

  /** A number passing the check gives a link with ten digits or more. */
  lemma {:induction false} AvailableHasTenDigits(countryCode: string, phone: string)
    requires CheckWhatsAppAvailability(countryCode, phone)
    ensures |SanitizePhoneNumber(countryCode + phone)| >= 10
    ensures |GetWhatsAppLink(countryCode, phone)| >= |LinkPrefix| + 10
  {
    var full := countryCode + phone;
    var stripped := StripSeparators(full);
    var digits := if AllDigits(stripped) then stripped else stripped[1..];
    Seqs.SubsequenceReflexive(stripped);
    if !AllDigits(stripped) {
      Seqs.SubsequenceReflexive(stripped[1..]);
    }
    DigitsSurvive(digits, stripped, full);
    LinkCarriesFullNumber(countryCode, phone);
  }

  /** The digits of a subsequence of `s`, when they are all digits, are no
      more than the digits `SanitizePhoneNumber` keeps. */
  lemma {:induction false} DigitsSurvive(digits: string, stripped: string, full: string)
    requires AllDigits(digits)
    requires Seqs.IsSubsequence(digits, stripped)
    requires Seqs.IsSubsequence(stripped, full)
    ensures |SanitizePhoneNumber(full)| >= |digits|
  {
    Seqs.SubsequenceTransitive(digits, stripped, full);
    DigitSubsequenceBound(digits, full);
  }

  /** A run of digits found in order inside `full` is no longer than all of its digits. */
  lemma {:induction false} DigitSubsequenceBound(digits: string, full: string)
    requires AllDigits(digits)
    requires Seqs.IsSubsequence(digits, full)
    ensures |SanitizePhoneNumber(full)| >= |digits|
    decreases |full|
  {
    if |digits| == 0 {
    } else {
      assert |full| > 0;
      assert SanitizePhoneNumber(full) == Seqs.Filter(full, IsDigit);
      if digits[0] == full[0] && Seqs.IsSubsequence(digits[1..], full[1..]) {
        DigitSubsequenceBound(digits[1..], full[1..]);
        assert IsDigit(full[0]);
      } else {
        DigitSubsequenceBound(digits, full[1..]);
      }
    }
  }

  /** A plain string of ten digits or more passes the check. */
  lemma {:induction false} DigitsOnlyAvailable(countryCode: string, phone: string)
    requires AllDigits(countryCode + phone)
    requires |countryCode + phone| >= 10
    ensures CheckWhatsAppAvailability(countryCode, phone)
  {
    var full := countryCode + phone;
    SanitizeKeepsDigits(full);
    assert WellFormedNumber(full) by {
      assert forall i :: 0 <= i < |full| ==> IsDigit(full[i]);
    }
  }
}

=== FILE: wrappers.dfy ===
/** Failure-compatible wrapper types shared by every module of the model. */
module Wrappers {

  /** A value that may be absent: the model of a nullable or optional field. */
  datatype Option<+T> = None | Some(value: T) {

    /** Returns the wrapped value, or `default` when there is none. */
    function GetOr(default: T): T {
      match this
      case Some(v) => v
      case None => default
    }
  }

  /** The outcome of an operation that can throw: a value or an error. */
  datatype Result<+R, +E> = Success(value: R) | Failure(error: E)
}
